=== FILE: README.md ===
# erg-ha scheduling core in Dafny

This project models the scheduling core of the `erg` Home Assistant integration. The integration turns the user's recurring definitions into time intervals and sends them to an external optimizer. It then reconciles the optimizer's answer with the time each job has already run.

The model covers:

- **Recurrence and expansion.** `Recurrence` matches days and builds the daily window, including the overnight wrap. It clips windows to the horizon. `Jobs` turns job definitions into power boxes, and `Tariffs` turns tariff definitions into tariff periods.
- **Inputs to the request.** `Solar` converts a solar forecast into forced generation boxes. `Duration` is the `[Nh][Nm][Ns]` slot-length parser with its 300-second fallback.
- **The coordinator's refresh.**
  - `Elapsed` is the elapsed-time tracker with its day rollover.
  - `ActiveRuns` finds runs already in progress.
  - `Adjust` handles budget adjustment, injection of loads that are already on, and merging preserved runs into the response.
  - `Coordinator` covers the battery reading, the horizon end, the request assembly and the refresh itself.
- **Readers of the optimizer's response.**
  - `BinarySensor`: scheduled-now and force charge/discharge.
  - `Calendar`: contiguous events, the range query and the next event.
  - `Sensor`: next job, next start, run time, energy cost, state-of-charge forecast and registry restore.
  - `Executor`: the on/off decision and the start/stop/pause lifecycle.
- **Definition plumbing.**
  - `JobEntities`: the flat attribute form of a job and its round trip.
  - `Number`: number entities and the same-day restore rule.
  - `ConfigFlow`: pure parsers of the options flow and the YAML tariff import.
  - `Services`: map effects of the create/update/delete job services.
- **Shared modules.** `Common`, `Schedule` and `Sorting` hold shared text helpers, the request/response records and a stable sort.

Conventions:

- An instant is an integer number of seconds on the local wall clock of one fixed UTC offset. A day is `t / 86400`, and its weekday is `(day + 3) % 7`, with 0 meaning Monday; 1970-01-01 was a Thursday.
- A dictionary with optional keys is a record of `Option` fields, where `None` means the key is absent. Defaults are applied where the source's `.get(key, default)` applies them.
- An exception raised inside an expansion or a parser is an `Err` of `Result`.
- Python floats are `real`.
- Home Assistant's state machine, the registry, the clock, the optimizer and the solar forecast provider are parameters.

## Model

| member | source | states |
|---|---|---|
| Duration.ParseGroups | custom_components/erg/const.py:15 | a successful match yields well-formed digit groups whose rendering is the input, so only strings of the anchored `[Nh][Nm][Ns]` pattern are accepted |
| Duration.ParseRender | custom_components/erg/const.py:15 | every well-formed group triple is recovered from its rendering (the parser accepts the whole pattern language) |
| Duration.ParseGroupsCharacterized | custom_components/erg/const.py:15 | the parser returns groups g exactly when the text is the rendering of well-formed g |
| Duration.ParseSlotDurationSeconds | custom_components/erg/const.py:18-35 | result always > 0; "" gives 300; a non-match after stripping gives 300; a match gives h*3600+m*60+s, or 300 when no component is present or the total is 0 |
| Duration.ParseRendered | custom_components/erg/const.py:26-35 | any rendering with at least one component parses to its total, or to 300 when the total is 0 |
| Duration.SecondsTextRoundTrip | custom_components/erg/const.py:26-35 | the text "<N>s" parses back to N for positive N |
| Duration.HmsRoundTrip | custom_components/erg/const.py:26-35 | "<H>h<M>m<S>s" parses to H*3600+M*60+S, or 300 when that is 0 |
| Schedule.DurSeconds | custom_components/erg/const.py:18-35 | a box duration read back is always positive; text is read by the slot-duration parser and a formatted positive seconds count reads as itself |
| Schedule.AnyActive | custom_components/erg/executor.py:82-89 | true exactly when some slot satisfies start <= now < start + dur |
| Recurrence.MatchesPerWeek | custom_components/erg/jobs.py:9-24 | any 7 consecutive days contain a fixed number of matching days: 7 daily, 5 weekdays, 2 weekends, 1 weekly (0 for an out-of-range weekday), one per listed weekday for custom, 0 for an unknown frequency |
| Recurrence.ParseTime | custom_components/erg/jobs.py:27-30 | a parsed time is a whole minute within the day, 0 <= t < 86400 |
| Common.ParseInt | custom_components/erg/jobs.py:30 | `int()` of a field succeeds iff the stripped text is an optionally signed run of digits with single underscores between digits, and reads the digits' decimal value |
| Common.UnderscoreIgnored | custom_components/erg/jobs.py:30 | an underscore between two digit groups does not change what `int()` reads |
| Recurrence.ParseClockDigits | custom_components/erg/jobs.py:27-30 | two two-digit fields around ":" with hour <= 23 and minute <= 59 parse to that hour and minute |
| Recurrence.ClockTextParses | custom_components/erg/jobs.py:27-30 | every "HH:MM" rendering of a valid hour and minute parses back to it |
| Recurrence.Window | custom_components/erg/jobs.py:77-86 | the window opens on its own day at the start time and is non-empty; it lasts at most one day and ends no later than the next day's start time |
| Recurrence.WindowFromTimes | custom_components/erg/jobs.py:85-86 | the window runs from the start time to the end time, moved to the next day when the end is not after the start |
| Recurrence.EqualTimesWholeDay | custom_components/erg/jobs.py:85-86 | equal start and end times give a window of exactly 24 hours from the start time |
| Recurrence.OvernightSpan | custom_components/erg/jobs.py:85-86 | an end time before the start time gives a window from the start lasting 24 hours minus (start - end), ending the next morning |
| Recurrence.Clip | custom_components/erg/jobs.py:89-91 | the clipped interval lies both within the horizon and within the original window |
| Recurrence.DayWindows | custom_components/erg/jobs.py:78-97 | a day contributes at most one window, and only when it matches; that window is its clipped window when non-empty; it raises only for a matching day whose window raises |
| Recurrence.WindowsFrom | custom_components/erg/jobs.py:74-97 | the windows are in the horizon, sorted and disjoint, and number at most the matching days of the range |
| Recurrence.WindowsFromSound | custom_components/erg/jobs.py:74-97 | every window is the clipped window of some matching day in range |
| Recurrence.WindowsFromComplete | custom_components/erg/jobs.py:74-97 | every matching day in range with a non-empty clipped window contributes that window |
| Recurrence.ClippedWindows | custom_components/erg/jobs.py:73-97 | over the days from hs's date to he's date: windows in horizon, sorted, disjoint, at most one per matching day |
| Recurrence.ClippedWindowsCharacterized | custom_components/erg/jobs.py:73-97 | a window is produced iff it is non-empty and is the clipped window of a matching day from hs's date to he's date |
| Recurrence.ClippedWindowsSameSchedule | custom_components/erg/jobs.py:9-24 | rules agreeing on frequency, times and the weekday fields their frequency reads expand identically |
| Recurrence.ClippedWindowsMissingKey | custom_components/erg/jobs.py:73-82 | a rule missing frequency or a window time expands without raising only to no window, and a rule matching the same days then expands to none either |
| Jobs.OneShotBox | custom_components/erg/jobs.py:102-119 | a one-shot box carries the job's entity and bounds, with durations defaulting to "1h", "0s", "0s" |
| Jobs.RecurringBox | custom_components/erg/jobs.py:122-140 | a recurring box spans the window and takes maximum_duration from the rule |
| Jobs.RecurringBoxes | custom_components/erg/jobs.py:89-97 | one box per clipped window, in window order |
| Jobs.ExpandJob | custom_components/erg/jobs.py:52-99 | a disabled job gives no boxes; every box is in the horizon and carries the job's entity; boxes are ordered and disjoint; a one-shot job gives at most one box; only an enabled recurring job can raise |
| Jobs.ExpandJobs | custom_components/erg/jobs.py:33-99 | every box is in the horizon and comes from an enabled job of the list |
| Jobs.ExpandJobsAppend | custom_components/erg/jobs.py:50-99 | boxes follow job order: expanding a + b is expanding a then b, and it raises exactly when one half raises |
| Jobs.OneShotExact | custom_components/erg/jobs.py:58-71 | a one-shot job with both bounds yields one box covering exactly the instants shared by its interval and the horizon, or nothing when there are none |
| Jobs.OneShotWithoutBounds | custom_components/erg/jobs.py:58-65 | a one-shot job with a missing or empty bound yields nothing |
| Jobs.RecurringBoxesFromWindows | custom_components/erg/jobs.py:73-97 | a recurring job yields exactly one box per clipped window, with the rule's budget (min and burst defaulting to "0s") and the job's powers, force and benefit (defaults 0, 0, false, 0) |
| Jobs.MissingBudget | custom_components/erg/jobs.py:122-140 | a rule without maximum_duration raises exactly when a box is due |
| Jobs.AtMostOnePerMatchingDay | custom_components/erg/jobs.py:74-97 | a recurring job emits at most one box per matching day of the horizon |
| Tariffs.WindowPeriods | custom_components/erg/tariff_periods.py:57-64 | one period per window, carrying only start, end and the two prices |
| Tariffs.ExpandTariff | custom_components/erg/tariff_periods.py:26-67 | an absolute definition never raises and gives at most one period, none when start or end is missing; recurring periods are non-empty, in the horizon and in order |
| Tariffs.ExpandTariffs | custom_components/erg/tariff_periods.py:11-69 | a list of absolute definitions never raises |
| Tariffs.ExpandTariffsAppend | custom_components/erg/tariff_periods.py:26-67 | output follows definition order, and the expansion raises exactly when one half raises |
| Tariffs.AbsoluteFirst | custom_components/erg/tariff_periods.py:28-36 | an absolute definition listed first is emitted first, unclipped, with prices defaulting to 0.0 |
| Tariffs.RecurringPeriods | custom_components/erg/tariff_periods.py:39-65 | a recurring definition gives exactly one period per clipped window of its rule, with its prices |
| Solar.SortedKeys | custom_components/erg/solar.py:31-33 | the forecast instants strictly ascending, each exactly once |
| Solar.SolarBox | custom_components/erg/solar.py:64-78 | entity "__solar__", forced, AC power 0, benefit 0, spanning the clipped interval |
| Solar.SolarBoxes | custom_components/erg/solar.py:12-80 | an empty forecast gives no boxes; all boxes are in the horizon, solar and forced, in ascending non-overlapping order |
| Solar.BoxesFromShape | custom_components/erg/solar.py:35-78 | the boxes from a period on lie in the horizon, start no earlier than that period, are solar and forced, and do not overlap in order |
| Solar.BoxesFromCharacterized | custom_components/erg/solar.py:35-78 | a box is produced exactly for each period whose clipped interval is non-empty and whose forecast is positive |
| Solar.SolarBoxesCharacterized | custom_components/erg/solar.py:31-78 | over the sorted forecast, a box appears iff some period emits it |
| Solar.RateIndependentOfClipping | custom_components/erg/solar.py:58-62 | the clipped energy over the clipped time equals -(Wh/1000)/(nominal seconds/3600), whatever the clipping |
| Solar.SolarBoxFields | custom_components/erg/solar.py:58-75 | dc_power is the unclipped rate; the three duration fields are equal and read back as the clipped interval's whole seconds |
| Elapsed.SetElapsed | custom_components/erg/coordinator.py:70-76 | the entity reads back as the value set; other entities and the tracking fields are unchanged |
| Elapsed.Credit | custom_components/erg/coordinator.py:96-111 | internal entities and an empty window (now not after the last update) earn no credit |
| Elapsed.AccumulateExact | custom_components/erg/coordinator.py:96-111 | accumulation adds exactly slot seconds per credited slot of the entity, nothing for internal entities |
| Elapsed.UpdateElapsed | custom_components/erg/coordinator.py:78-111 | afterwards tracking day is today and last update is now; a rollover clears all counts; without a previous schedule or update the counts are unchanged |
| Elapsed.UpdateCredits | custom_components/erg/coordinator.py:96-111 | within a day each count grows by slot seconds times the slots ending in (last update, now]; internal entities never change |
| Elapsed.UpdateMonotone | custom_components/erg/coordinator.py:85-111 | within a day no count decreases and no entry disappears |
| Elapsed.NoSecondReset | custom_components/erg/coordinator.py:85-90 | after one refresh, a later refresh on the same day does not roll over again and does not decrease counts |
| Elapsed.UpdateTwiceSameInstant | custom_components/erg/coordinator.py:96-111 | a second refresh at the same instant credits nothing |
| ActiveRuns.RunFrom | custom_components/erg/coordinator.py:140-154 | the run is a non-empty consecutive segment of the sorted slots, one slot apart, and it stops at the first gap |
| ActiveRuns.ActiveRun | custom_components/erg/coordinator.py:126-155 | a run exists iff a slot is active; it opens with the earliest active slot, is consecutive, and uses only the assignment's slots |
| ActiveRuns.Put | custom_components/erg/coordinator.py:155 | dictionary assignment: the key reads as the value, others unchanged, keys stay unique |
| ActiveRuns.FindActiveRuns | custom_components/erg/coordinator.py:113-157 | no previous data gives no runs; the result has unique keys and every run is live (non-internal, first slot active, consecutive) |
| ActiveRuns.FindActiveRunsCharacterized | custom_components/erg/coordinator.py:126-155 | an entity has a run iff one of its assignments is non-internal with an active slot; its run is that of its last such assignment |
| ActiveRuns.RunMaxIsLast | custom_components/erg/coordinator.py:260-262 | the latest slot of a run is its last entry |
| Adjust.Remaining | custom_components/erg/coordinator.py:250-254 | the remaining budget is never negative |
| Adjust.AdjustBoxContract | custom_components/erg/coordinator.py:233-280 | internal, forced and other-day boxes pass unchanged; a box is dropped iff remaining <= 0 and there is no preserved run; otherwise only start and maximum_duration change, start is the effective start, and the new budget is the largest whole seconds within both the remaining budget and [0, finish - start], i.e. int(min(remaining, window)) |
| Adjust.AdjustBoxesAppend | custom_components/erg/coordinator.py:231-280 | the loop keeps box order |
| Adjust.UntouchedPassThrough | custom_components/erg/coordinator.py:233-248 | boxes the adjustment leaves alone come out unchanged and in order |
| Adjust.AdjustBoxesCharacterized | custom_components/erg/coordinator.py:231-280 | a box reaches the request iff it is the non-dropped adjustment of an input box |
| Adjust.BudgetNeverGrows | custom_components/erg/coordinator.py:250-276 | with non-negative counts, the rewritten budget never exceeds the original |
| Adjust.PreservedStart | custom_components/erg/coordinator.py:260-264 | with a preserved run the box opens one slot after the run's last slot |
| Adjust.FreshBoxCapped | custom_components/erg/coordinator.py:250-276 | with no run and nothing elapsed the box keeps its start and its budget is min(original, window length) |
| Adjust.ActiveName | custom_components/erg/coordinator.py:309-321 | an injected load's entity is internal ("__" prefixed) |
| Adjust.ActiveNameInjective | custom_components/erg/coordinator.py:309-321 | distinct loads get distinct injected entity names |
| Adjust.ActiveBox | custom_components/erg/coordinator.py:309-321 | an injected box is forced and spans [hs, hs + update interval] |
| Adjust.Inject | custom_components/erg/coordinator.py:285-321 | the adjusted boxes are kept as they are, followed only by forced internal boxes |
| Adjust.InjectedCharacterized | custom_components/erg/coordinator.py:285-321 | a load gets a box iff it names an entity that is "on", not yet submitted, and draws nonzero AC or DC power |
| Adjust.InjectedNotSubmitted | custom_components/erg/coordinator.py:285-308 | an injected box never stands for an entity already in the request |
| Adjust.FirstFor | custom_components/erg/coordinator.py:370-374 | the index of the first assignment for the entity, or the length when there is none |
| Adjust.MergeOne | custom_components/erg/coordinator.py:368-388 | every assignment except the entity's first is unchanged, and none is lost |
| Adjust.MergeOneSelf | custom_components/erg/coordinator.py:376-388 | the entity's first assignment opens with the run and its run time grows by len*slot; a new assignment gets energy cost 0 |
| Adjust.MergeOneOther | custom_components/erg/coordinator.py:368-388 | merging one entity leaves other entities' first assignments unchanged |
| Adjust.MergeRunsPrepends | custom_components/erg/coordinator.py:365-389 | with distinct entities, each entity's first assignment opens with its own preserved run; entities without one are untouched |
| Adjust.MergeResponse | custom_components/erg/coordinator.py:364-389 | without runs the response is unchanged; the battery profile is never touched |
| Coordinator.ResolveSocKwhRange | custom_components/erg/coordinator.py:31-43 | "%" readings scale by capacity and land in [0, capacity] for 0..100; other units pass through |
| Coordinator.ReadSoc | custom_components/erg/coordinator.py:178-197 | 0 with no sensor, missing, unknown, unavailable or non-numeric state; otherwise the resolved kWh |
| Coordinator.HorizonEnd | custom_components/erg/coordinator.py:169-176 | hours after now, or with extension the next midnight after that instant's day, strictly later and within one day |
| Coordinator.SolarPart | custom_components/erg/coordinator.py:205-215 | solar boxes are solar, in the horizon, and absent without a provider or forecast |
| Coordinator.BuildRequest | custom_components/erg/coordinator.py:159-346 | the request's horizon starts now, ends at the computed end, and carries the configured slot duration |
| Coordinator.Refresh | custom_components/erg/coordinator.py:159-392 | after any refresh the tracker's day is today and its last update is now |
| Coordinator.ElapsedSurvivesFailure | custom_components/erg/coordinator.py:165-167 | the tracker after a refresh is the updated one even when the optimizer call fails, and within a day counts never decrease |
| Coordinator.RefreshOutcome | custom_components/erg/coordinator.py:348-392 | a refresh succeeds iff the request is built and the optimizer answers; the data is the answer with preserved runs merged |
| Coordinator.SolarBoxesLeadRequest | custom_components/erg/coordinator.py:224-232 | the request's boxes open with the solar boxes unchanged and in forecast order |
| BinarySensor.GridPower | custom_components/erg/binary_sensor.py:21-35 | raises iff an entry without a time is reached before any covering entry; zeros when no entry covers now; a nonzero reading is some covering entry's import and export |
| BinarySensor.GridPowerFirstMatch | custom_components/erg/binary_sensor.py:21-35 | the first covering entry decides |
| BinarySensor.GridPowerNoMatch | custom_components/erg/binary_sensor.py:33-35 | with no covering entry the reading is (0, 0) |
| BinarySensor.RunningSolarDc | custom_components/erg/binary_sensor.py:56-71 | the running solar sum is never negative |
| BinarySensor.RunningSumsAppend | custom_components/erg/binary_sensor.py:38-71 | each assignment contributes independently to both sums |
| BinarySensor.RunningSingle | custom_components/erg/binary_sensor.py:38-71 | one assignment adds its AC power to the load only when it is a running non-internal job, and its DC magnitude to the solar sum only when it is running solar; never both |
| BinarySensor.RunningLoadNonNegative | custom_components/erg/binary_sensor.py:38-53 | with non-negative AC powers the running load is non-negative |
| BinarySensor.ScheduledNow | custom_components/erg/binary_sensor.py:200-215 | true iff some assignment of the entity has a slot containing now |
| BinarySensor.JobScheduledIsOn | custom_components/erg/binary_sensor.py:130-141 | unknown without data; otherwise on iff a slot of the entity contains now |
| BinarySensor.ForceChargeIsOn | custom_components/erg/binary_sensor.py:156-169 | unknown without data; otherwise on iff grid import exceeds the running load |
| BinarySensor.ForceDischargeIsOn | custom_components/erg/binary_sensor.py:184-197 | unknown without data; otherwise on iff grid export exceeds running solar |
| BinarySensor.ForceThresholds | custom_components/erg/binary_sensor.py:156-197 | with no current profile entry and non-negative AC powers neither sensor is on |
| Calendar.ObjectId | custom_components/erg/calendar.py:16-20 | the text after the first ".", or the whole id when it has none |
| Calendar.FriendlyName | custom_components/erg/calendar.py:16-20 | same length as the object id with no "_"; underscores become spaces and other non-letters are kept; each letter keeps its letter, upper-case when it opens a word (first, or after a non-letter) and lower-case otherwise, as `.title()` does |
| Calendar.SlotGroups | custom_components/erg/calendar.py:97-141 | internal entities and empty slot lists give no groups; every group is non-empty and each ends strictly before the next starts |
| Calendar.SlotGroupsCoverSlots | custom_components/erg/calendar.py:97-141 | an instant lies in one of the entity's events iff the entity is not internal and the instant lies in one of its slots |
| Calendar.EntityEvents | custom_components/erg/calendar.py:112-141 | one event per group, named after the entity |
| Calendar.BuildEvents | custom_components/erg/calendar.py:72-144 | no data gives none; otherwise a stable sort by start of all assignments' events (a permutation) |
| Calendar.BuildEventsMembers | custom_components/erg/calendar.py:72-144 | an event is listed iff some assignment contributes it |
| Calendar.EventsInRange | custom_components/erg/calendar.py:58-70 | keeps exactly the events with end > range start and start < range end, and keeps a sorted list sorted |
| Calendar.RangeNarrows | custom_components/erg/calendar.py:58-70 | querying a sub-range of a queried range equals querying it directly |
| Calendar.NextEvent | custom_components/erg/calendar.py:47-56 | none iff every event has ended; otherwise an event not yet over with every earlier event over |
| Calendar.NextEventIsFirstInRange | custom_components/erg/calendar.py:47-70 | the next event is the first event the range query from now returns |
| Sorting.SortBy | custom_components/erg/calendar.py:143 | the result is ordered by key and is a permutation of the input |
| Sorting.SortByStable | custom_components/erg/calendar.py:143 | the sort is stable: the elements sharing a key keep their input order |
| Sorting.SortInts | custom_components/erg/coordinator.py:140 | the sorted slots are ascending and a permutation of the input |
| Sensor.FindNextJobEntity | custom_components/erg/sensor.py:121-138 | none iff no non-internal assignment has a slot after now; otherwise the entity of an assignment whose first future slot is earliest, strictly earlier than every one listed before it |
| Sensor.AssignmentForCharacterized | custom_components/erg/sensor.py:299-322 | none iff nothing matches; otherwise the first match's fields with all matching slots in order and summed run time and energy cost |
| Sensor.NextStartCharacterized | custom_components/erg/sensor.py:343-355 | the first slot after now across the entity's assignments in order, or none |
| Sensor.RunTimeIsTotal | custom_components/erg/sensor.py:380-387 | run time in hours times 3600 is the entity's total run seconds, present iff it has an assignment |
| Sensor.EnergyCostIsTotal | custom_components/erg/sensor.py:415-423 | with several assignments the cost is their total; with one it is its own (possibly absent) cost |
| Sensor.SocForecastValue | custom_components/erg/sensor.py:89-93 | the last profile entry's charge, none without data or with an empty profile |
| Sensor.SocForecastAttribute | custom_components/erg/sensor.py:279-296 | absent without data or profile; otherwise one point per entry with both time and charge |
| Sensor.PointsAppend | custom_components/erg/sensor.py:288-295 | points keep profile order and skip entries missing time or charge |
| Sensor.SanitizeEntity | custom_components/erg/sensor.py:116-118 | every "." becomes "_" and every other character is kept in place |
| Sensor.RestoredEntityId | custom_components/erg/sensor.py:180-184 | a unique id is restored iff it starts with the entry's job prefix |
| Sensor.RestoreInverts | custom_components/erg/sensor.py:180-184 | for a domain without "_" and an object id without ".", restoring a job's unique id gives back its entity id |
| Sensor.RestoreSplitsDomain | custom_components/erg/sensor.py:180-184 | for a domain containing "_", the first "_" becomes the "." and the entity id is not recovered (see Findings) |
| Sensor.RestoreOne | custom_components/erg/sensor.py:177-188 | the job keys only grow, and a key added is the restored entity id of that registry entry |
| Sensor.RestoreDuplicatesJob | custom_components/erg/sensor.py:177-188 | the registry entry of a job whose domain contains "_" adds a second, stub job under a different id |
| Sensor.IntendedRestoreOne | custom_components/erg/sensor.py:177-188 | the job keys only grow; an entry that is the unique id of a present job adds nothing; any added key is the restored id |
| Sensor.IntendedRestoreKeepsJobs | custom_components/erg/sensor.py:177-188 | restoring the registry entries of the jobs already present adds no job |
| JobEntities.FromJobDict | custom_components/erg/job_entities.py:54-90 | job_type is "recurring" iff a recurrence is present; common defaults 0.0/false/true; rule defaults "daily", "09:00", "17:00", "1h", "0s"; weekday keys only for weekly/custom; one-shot bounds default to empty |
| JobEntities.JobEntityToDict | custom_components/erg/job_entities.py:93-130 | raises iff entity_id is absent; a rule is rebuilt iff job_type is "recurring", with defaults "daily", "09:00", "17:00", "1h"; common fields take defaults 0.0/false/true |
| JobEntities.FlattenRebuild | custom_components/erg/job_entities.py:54-130 | rebuilding a flattened job never fails and returns the same id, powers, force, benefit, enabled flag and rule or one-shot fields, with defaults made explicit |
| JobEntities.RoundTripIdempotent | custom_components/erg/job_entities.py:54-130 | a second round trip gives the same job as the first |
| JobEntities.RoundTripExpandsAlike | custom_components/erg/job_entities.py:54-130 | the rebuilt job expands to the same boxes as the original whenever the original expands, rules missing frequency or a window time included |
| JobEntities.NativeValueMatchesExpansion | custom_components/erg/job_entities.py:35-36 | the state is "disabled" iff the rebuilt job is one the expander skips |
| JobEntities.StateAttributes | custom_components/erg/job_entities.py:39-40 | the copy rebuilds to the same job and shows the same state as the stored attributes |
| JobEntities.UpdateOnlyGivenKeys | custom_components/erg/job_entities.py:42-45 | only given keys change, to the given values; applying an update twice equals applying it once |
| JobEntities.UpdateAttributes | custom_components/erg/job_entities.py:42-45 | every one of the seventeen keys follows the `dict.update` rule: a given key takes the given value, any other keeps its previous value or absence |
| JobEntities.UpdatesCompose | custom_components/erg/job_entities.py:42-45 | successive updates compose key by key, the later winning |
| JobEntities.DisableByUpdate | custom_components/erg/job_entities.py:35-45 | switching a job off by update makes it show "disabled" and yield no boxes |
| JobEntities.UniqueId | custom_components/erg/job_entities.py:23-25 | the id opens with the entry id and "_job_", followed by exactly as many characters as the entity id |
| JobEntities.SanitizeMerges | custom_components/erg/job_entities.py:23-24 | two ids that differ only by "." against "_" get the same unique id |
| Executor.Start | custom_components/erg/executor.py:38-46 | registers a callback iff none is registered; a second start changes nothing |
| Executor.Stop | custom_components/erg/executor.py:48-52 | unsubscribes iff subscribed; a stop before start changes nothing |
| Executor.StartOnce | custom_components/erg/executor.py:38-52 | start twice registers once; start then stop returns to the initial state |
| Executor.PauseResume | custom_components/erg/executor.py:54-60 | pause and resume touch only the pause flag and undo each other |
| Executor.Decide | custom_components/erg/executor.py:91-109 | no call for a missing, unavailable or unknown state; turn_on iff wanted on and not "on"; turn_off iff wanted off and "on" |
| Executor.DecideSettles | custom_components/erg/executor.py:91-109 | after a call takes effect the same wish calls for nothing more |
| Executor.CallFor | custom_components/erg/executor.py:70-80 | internal entities are skipped; otherwise a call iff the decision for "some slot contains now" asks for one |
| Executor.Tick | custom_components/erg/executor.py:62-80 | nothing while paused or without data; otherwise at most one call per assignment, and a call is made iff some non-internal assignment of that entity, decided on its own slots with the parsed slot length, asks for it |
| Executor.CallsCharacterized | custom_components/erg/executor.py:70-80 | a call is made iff some non-internal assignment for that entity decides that service |
| Executor.NoConflictingCalls | custom_components/erg/executor.py:70-109 | when every assignment of an entity wants it on, the entity is never turned off; without that premise it can be (see Findings) |
| Executor.SplitAssignmentsTurnOff | custom_components/erg/executor.py:74-80 | an entity "on" with one active and one inactive assignment is turned off although an assignment wants it on |
| Executor.EntityCallsFromCharacterized | custom_components/erg/executor.py:74-109 | with the per-entity wish, a call is made iff the entity has a non-internal assignment and the decision on its wish asks for it |
| Executor.EntityCallsConsistent | custom_components/erg/executor.py:74-109 | with the per-entity wish, an entity is turned off only when no assignment is active, on only when one is, never both |
| Executor.SplitAssignmentsKeptOn | custom_components/erg/executor.py:74-109 | on the two-day input the per-entity decision makes no call |
| Number.NumberValue | custom_components/erg/number.py:60-65 | none iff the attribute is absent, otherwise its value |
| Number.SetNumber | custom_components/erg/number.py:67-69 | the edited key takes the value; the other numeric keys, id, enabled flag and type are unchanged |
| Number.SetThenReadNumber | custom_components/erg/number.py:60-69 | setting a job number reads back as the value set |
| Number.ElapsedMinutes | custom_components/erg/number.py:107-109 | minutes times 60 is the tracked seconds |
| Number.SetElapsedMinutes | custom_components/erg/number.py:111-113 | stores minutes*60 for the entity and nothing else |
| Number.ElapsedMinutesRoundTrip | custom_components/erg/number.py:107-113 | set-then-read returns the minutes set |
| Number.Restore | custom_components/erg/number.py:115-133 | a no-op without a saved state, for unknown/unavailable, for another day, for non-numeric text or for minutes <= 0; otherwise the entity's seconds become minutes*60; other entities unchanged |
| Number.RestoreShowsSaved | custom_components/erg/number.py:107-133 | a restored value shows again as the saved minutes |
| Number.StaleNeverRestored | custom_components/erg/number.py:123-125 | a value saved on another day never carries over |
| Number.RestoreSurvivesSameDayUpdate | custom_components/erg/number.py:115-133 | once today is tracked, later same-day refreshes never lower the restored count |
| ConfigFlow.ParseDaysOfWeekStr | custom_components/erg/config_flow.py:790-799 | blank text gives []; every day read is non-negative; no more days than comma-separated parts |
| ConfigFlow.DaysOfWeekRoundTrip | custom_components/erg/config_flow.py:757 | the weekday list an edit form shows as text parses back to the same list |
| ConfigFlow.BuildTariffDict | custom_components/erg/config_flow.py:802-822 | name, prices, frequency and times copied; day_of_week (default 0) iff weekly; days_of_week iff custom; no budget fields |
| ConfigFlow.EditKeepsCustomDays | custom_components/erg/config_flow.py:757 | saving a custom tariff's edit form unchanged keeps its weekdays |
| ConfigFlow.TimeImportOkIsClockText | custom_components/erg/config_flow.py:827 | an import time is accepted iff it is "HH:MM" for some hour < 24 and minute < 60 |
| ConfigFlow.TimeImportParses | custom_components/erg/config_flow.py:827 | every accepted import time parses as a window time |
| ConfigFlow.ToFloat | custom_components/erg/config_flow.py:887-891 | ints and floats convert to themselves, booleans to 1.0/0.0, text as `float` reads it; null, lists and maps fail |
| ConfigFlow.ConvertPeriod | custom_components/erg/config_flow.py:877-910 | a non-mapping gives invalid_yaml; a bad time gives invalid_yaml_time; success iff both prices convert; a success is a daily tariff with the stripped times, and a blank name becomes "Tariff {i+1} ({start}-{end})" |
| ConfigFlow.ImportPeriods | custom_components/erg/config_flow.py:876-910 | the error of an import is one of the three YAML errors; on success one tariff per period, each the conversion of that period in order |
| ConfigFlow.Collect | custom_components/erg/config_flow.py:876-910 | all values in order when every item succeeds, otherwise an error |
| ConfigFlow.CollectFirstError | custom_components/erg/config_flow.py:876-910 | a failed import reports the error of the first failing period |
| ConfigFlow.PeriodList | custom_components/erg/config_flow.py:864-875 | a bare list gives itself iff non-empty; a mapping gives its "periods" entry iff that is a non-empty list; none for anything else |
| ConfigFlow.ParseTariffYaml | custom_components/erg/config_flow.py:830-910 | all or nothing: blank text, load failure or a missing/empty period list give invalid_yaml; errors are one of the three codes; success means every period converted, in order |
| ConfigFlow.ImportedTariffsExpand | custom_components/erg/config_flow.py:893-910 | every imported tariff is a named daily tariff whose window times parse |
| ConfigFlow.BareListLikePeriods | custom_components/erg/config_flow.py:860-875 | a bare list and the same list under "periods" import alike |
| ConfigFlow.DeleteTariff | custom_components/erg/config_flow.py:467-471 | index in range removes exactly that tariff; any other index changes nothing |
| ConfigFlow.EditTariff | custom_components/erg/config_flow.py:509-523 | only the tariff at the index is replaced; an out-of-range index changes nothing |
| ConfigFlow.DeleteLosesOne | custom_components/erg/config_flow.py:467-471 | a delete loses exactly the deleted tariff (as a multiset) |
| ConfigFlow.EditThenDelete | custom_components/erg/config_flow.py:464-471 | editing then deleting a tariff equals deleting it |
| ConfigFlow.MenuActionIndex | custom_components/erg/config_flow.py:464-478 | the index read from an offered "edit_i"/"delete_i" action is i |
| Services.FindEntryData | custom_components/erg/services.py:85-91 | raises iff no entry is a dict with a coordinator; otherwise the first such entry |
| Services.Controls | custom_components/erg/services.py:275-303 | a control group is made iff its platform is ready |
| Services.AddPerJob | custom_components/erg/services.py:241-303 | sensors and binary sensor recorded only when their platform is ready; controls always recorded; nothing else changes |
| Services.CreateJobEntity | custom_components/erg/services.py:94-127 | an existing id changes nothing; otherwise the job is stored under its id, its controls, sensors and binary sensor are recorded as their platforms allow, the other maps are unchanged, and consistency is kept |
| Services.DeleteJobEntity | custom_components/erg/services.py:130-157 | a missing id changes nothing; otherwise the id leaves every per-job map and True is returned |
| Services.HandleCreate | custom_components/erg/services.py:160-192 | a duplicate does nothing; otherwise the job and its per-job records are added under its id, a sub-entry is appended and recorded, other entries are unchanged, and a refresh is requested; consistency kept |
| Services.HandleUpdate | custom_components/erg/services.py:195-209 | a missing job changes nothing and requests no refresh; otherwise the attributes merge and a refresh is requested |
| Services.RemoveFirstFor | custom_components/erg/services.py:223-228 | exactly the first sub-entry for the job is removed |
| Services.HandleDelete | custom_components/erg/services.py:212-238 | a missing job changes nothing; otherwise every map and the sub-entry set lose exactly that id, its first sub-entry goes, and a refresh is requested; consistency kept |
| Services.CreateThenDelete | custom_components/erg/services.py:160-238 | creating then deleting a new job restores the registry and sub-entries |
| Services.DeleteTwice | custom_components/erg/services.py:212-238 | a second delete finds nothing and changes nothing |
| Services.UpdateOnlyTarget | custom_components/erg/services.py:195-209 | an update touches only the job it names |

## Findings

| source | as written | input that shows it | evidently intended | confidence | as-written member | corrected member |
|---|---|---|---|---|---|---|
| custom_components/erg/executor.py:74-80 | each assignment is decided on its own slots, so an entity with several assignments gets one decision per assignment | "switch.pump" in state "on" with an assignment whose slot at 50 covers now = 100 and another for tomorrow at 86450 (slot 300 s): the second turns it off | the entity is on iff any of its assignments is active | medium, not executed | Executor.SplitAssignmentsTurnOff | Executor.EntityCallsConsistent |
| custom_components/erg/sensor.py:180-188 | the registry restore turns the first "_" into "." and compares the result with the job keys | the job "input_boolean.pump" registers "<entry>_job_input_boolean_pump", which restores as "input.boolean_pump", not a key, so a stub job is added | a registry entry that is the unique id of a present job is skipped | medium, not executed | Sensor.RestoreDuplicatesJob | Sensor.IntendedRestoreKeepsJobs |

Neither corrected definition is used elsewhere in the model. `Executor.Tick` and the restore loop model the code as written, and `Executor.EntityCalls` and `Sensor.IntendedRestoreJobs` stand beside them.

## Left out

- Time handling: ISO-8601 parsing and formatting, time zones and daylight saving are not modelled. Instants are integer seconds at one fixed offset. A timestamp field is either empty or a parsed instant.
- `format_duration_seconds`, `validate_duration`, `validate_time_str` and `FREQUENCY_CHOICES` are not part of this model, and neither is `_validate_tariff_input`. A formatted duration is represented as its seconds (`Schedule.Dur.Seconds`).
- `DEFAULT_EXTEND_TO_END_OF_DAY` is not defined in `const.py`, so the extend flag is a resolved boolean option.
- Network and framework I/O is left out: the optimizer client, `get_solar_forecast` and integration setup. Their results are parameters: the optimizer is a function from request to result and the forecast is an optional map.
- The request's `system` block (grid limits, inverter power, storage value, preservation) is copied options and is left out of `Coordinator.Request`. The error summary on optimizer failure is also left out.
- Coordinator.BuildRequest: states the horizon and slot fields; the boxes are stated by Coordinator.SolarBoxesLeadRequest and the Adjust lemmas rather than in one contract.
- Calendar descriptions and event text beyond the summary are not modelled.
- `str.title()` and digit tests are modelled over ASCII only; Unicode case and digits are not.
- Python's `str()` and `float()` of YAML values and `yaml.safe_load` are parameters (`render`, `parseFloat`, `load`). A loaded document is the `Yaml` datatype.
- The executor reads entity states during a tick. The model gives it one snapshot map for the whole tick and returns the calls instead of making them. Service-call failures are not modelled.
- The state-of-charge forecast attribute converts times to epoch milliseconds with a given UTC offset.
- The day of `last_updated` in the elapsed-number restore is given as a day number. Its time zone is not modelled.
- Services: the per-job entity objects are represented by group markers (`Services.Child`), and their own state is not modelled. Home Assistant's config-entry sub-entry API is a list of (id, entity) records. An absent per-job map is read as empty.
- Schema validation of the services (voluptuous) and the UI forms, the OIDC and reauth steps of the config flow, `switch.py`, `select.py`, `text.py` and `device_action.py` are left out: they are input plumbing that only forwards values.
- The device registry, `async_write_ha_state` and `async_request_refresh` are left out. A requested refresh is recorded as a flag.

=== FILE: activeruns.dfy ===
/** The runs already in progress (`coordinator.py` `_find_active_runs`): for
    every entity with a slot active now, that slot and the slots continuing
    it without a gap. */
module ActiveRuns {
  import opened Common
  import opened Schedule
  import opened Sorting

  /** Entries exactly one slot apart. */
  predicate Consecutive(run: seq<int>, slot: nat) {
    forall k :: 0 <= k < |run| - 1 ==> run[k + 1] == run[k] + slot
  }

  /** The first index from `i` on whose slot is active now, or `|ps|`. */
  function FirstActiveFrom(ps: seq<int>, now: int, slot: nat, i: nat): (k: nat)
    requires i <= |ps|
    ensures i <= k <= |ps|
    ensures k < |ps| ==> SlotActive(ps[k], now, slot)
    ensures forall j :: i <= j < k ==> !SlotActive(ps[j], now, slot)
    decreases |ps| - i
  {
    if i == |ps| then i
    else if SlotActive(ps[i], now, slot) then i
    else FirstActiveFrom(ps, now, slot, i + 1)
  }

  /** The run opening at index `i`: it continues while the next slot starts
      exactly one slot after the previous one. */
  function RunFrom(ps: seq<int>, i: nat, slot: nat): (run: seq<int>)
    requires i < |ps|
    ensures 1 <= |run| <= |ps| - i
    ensures run == ps[i..i + |run|]
    ensures Consecutive(run, slot)
    ensures i + |run| == |ps| || ps[i + |run|] != ps[i + |run| - 1] + slot
    decreases |ps| - i
  {
    if i + 1 < |ps| && ps[i + 1] == ps[i] + slot then
      var rest := RunFrom(ps, i + 1, slot);
      RunCons(ps, i, rest, slot);
      [ps[i]] + rest
    else
      assert ps[i..i + 1] == [ps[i]];
      [ps[i]]
  }

  /** Putting the slot one before a run at its front keeps it a run. */
  lemma RunCons(ps: seq<int>, i: nat, rest: seq<int>, slot: nat)
    requires i + 1 < |ps| && ps[i + 1] == ps[i] + slot
    requires 1 <= |rest| <= |ps| - (i + 1) && rest == ps[i + 1..i + 1 + |rest|]
    requires Consecutive(rest, slot)
    ensures [ps[i]] + rest == ps[i..i + 1 + |rest|]
    ensures Consecutive([ps[i]] + rest, slot)
  {
    var run := [ps[i]] + rest;
    assert forall k :: 1 <= k < |run| ==> run[k] == rest[k - 1];
    assert run[1] == ps[i + 1];
  }

  /** The slots of a segment of `ps` are members of `ps`. */
  lemma SegmentMembers(ps: seq<int>, i: nat, run: seq<int>)
    requires i + |run| <= |ps| && run == ps[i..i + |run|]
    ensures forall k :: 0 <= k < |run| ==> run[k] in ps
  {
    forall k | 0 <= k < |run| ensures run[k] in ps {
      assert run[k] == ps[i + k];
    }
  }

  lemma SortedSameMembers(slots: seq<int>)
    ensures forall x :: x in SortInts(slots) <==> x in slots
  {
    var ps := SortInts(slots);
    forall x ensures x in ps <==> x in slots {
      assert x in ps <==> x in multiset(ps);
      assert x in slots <==> x in multiset(slots);
    }
  }

  /** Over sorted slots, the first active index is the earliest active slot;
      there is none exactly when no slot is active. */
  lemma FirstActiveIsEarliest(slots: seq<int>, now: int, slot: nat)
    ensures var ps := SortInts(slots);
            var i := FirstActiveFrom(ps, now, slot, 0);
            (i == |ps| <==> !AnyActive(slots, now, slot))
            && (i < |ps| ==> ps[i] in slots && forall s :: s in slots && SlotActive(s, now, slot) ==> ps[i] <= s)
  {
    var ps := SortInts(slots);
    SortedSameMembers(slots);
    var i := FirstActiveFrom(ps, now, slot, 0);
    if AnyActive(slots, now, slot) {
      var j :| 0 <= j < |slots| && SlotActive(slots[j], now, slot);
      assert slots[j] in ps;
      var k :| 0 <= k < |ps| && ps[k] == slots[j];
      assert i <= k;
    }
    if i < |ps| {
      assert ps[i] in ps;
      forall s | s in slots && SlotActive(s, now, slot) ensures ps[i] <= s {
        assert s in ps;
        var k :| 0 <= k < |ps| && ps[k] == s;
        assert k >= i;
      }
    }
  }

  /** The run of one assignment: over its slots in time order, the first
      active slot and the slots continuing it; none when no slot is active. */
  function ActiveRun(slots: seq<int>, now: int, slot: nat): (r: Option<seq<int>>)
    ensures r.Some? <==> AnyActive(slots, now, slot)
    ensures r.Some? ==> |r.value| >= 1 && SlotActive(r.value[0], now, slot) && Consecutive(r.value, slot)
    ensures r.Some? ==> forall k :: 0 <= k < |r.value| ==> r.value[k] in slots
    ensures r.Some? ==> forall s :: s in slots && SlotActive(s, now, slot) ==> r.value[0] <= s
  {
    if |slots| == 0 then None
    else
      var ps := SortInts(slots);
      FirstActiveIsEarliest(slots, now, slot);
      SortedSameMembers(slots);
      var i := FirstActiveFrom(ps, now, slot, 0);
      if i == |ps| then None
      else
        var run := RunFrom(ps, i, slot);
        SegmentMembers(ps, i, run);
        Some(run)
  }

  /** One entry of the result dictionary. */
  datatype RunEntry = RunEntry(entity: string, slots: seq<int>)

  predicate HasKey(runs: seq<RunEntry>, entity: string) {
    |runs| > 0 && (runs[0].entity == entity || HasKey(runs[1..], entity))
  }

  /** No entity appears twice, as in a dictionary. */
  predicate Unique(runs: seq<RunEntry>) {
    |runs| == 0 || (!HasKey(runs[1..], runs[0].entity) && Unique(runs[1..]))
  }

  /** `runs.get(entity, [])`. */
  function Lookup(runs: seq<RunEntry>, entity: string): (r: seq<int>)
    ensures !HasKey(runs, entity) ==> r == []
  {
    if |runs| == 0 then []
    else if runs[0].entity == entity then runs[0].slots
    else Lookup(runs[1..], entity)
  }

  /** `runs[entity] = run`: an existing key keeps its place, a new one goes
      last. */
  function Put(runs: seq<RunEntry>, entity: string, run: seq<int>): (r: seq<RunEntry>)
    ensures Lookup(r, entity) == run
    ensures forall x :: x != entity ==> Lookup(r, x) == Lookup(runs, x)
    ensures forall x :: HasKey(r, x) <==> HasKey(runs, x) || x == entity
    ensures Unique(runs) ==> Unique(r)
  {
    if |runs| == 0 then
      var r := [RunEntry(entity, run)];
      assert r[1..] == [];
      r
    else if runs[0].entity == entity then
      var r := [RunEntry(entity, run)] + runs[1..];
      assert r[1..] == runs[1..];
      r
    else
      var rest := Put(runs[1..], entity, run);
      var r := [runs[0]] + rest;
      assert r[1..] == rest;
      r
  }

  /** A run that `_find_active_runs` may report. */
  predicate Live(e: RunEntry, now: int, slot: nat) {
    !IsSentinel(e.entity) && |e.slots| >= 1 && SlotActive(e.slots[0], now, slot) && Consecutive(e.slots, slot)
  }

  predicate AllLive(runs: seq<RunEntry>, now: int, slot: nat) {
    |runs| == 0 || (Live(runs[0], now, slot) && AllLive(runs[1..], now, slot))
  }

  lemma {:induction false} PutLive(runs: seq<RunEntry>, entity: string, run: seq<int>, now: int, slot: nat)
    requires AllLive(runs, now, slot) && Live(RunEntry(entity, run), now, slot)
    ensures AllLive(Put(runs, entity, run), now, slot)
  {
    if |runs| > 0 && runs[0].entity != entity {
      PutLive(runs[1..], entity, run, now, slot);
      assert Put(runs, entity, run)[1..] == Put(runs[1..], entity, run);
    } else if |runs| > 0 {
      assert Put(runs, entity, run)[1..] == runs[1..];
    } else {
      assert Put(runs, entity, run)[1..] == [];
    }
  }

  /** Every run the dictionary holds is live. */
  lemma {:induction false} LookupLive(runs: seq<RunEntry>, entity: string, now: int, slot: nat)
    requires AllLive(runs, now, slot) && HasKey(runs, entity)
    ensures Live(RunEntry(entity, Lookup(runs, entity)), now, slot)
  {
    if runs[0].entity != entity {
      LookupLive(runs[1..], entity, now, slot);
    }
  }

  /** An assignment that `_find_active_runs` reports: not an internal entity,
      with a slot active now. */
  predicate Running(a: Assignment, now: int, slot: nat) {
    !IsSentinel(a.entity) && AnyActive(a.slots, now, slot)
  }

  /** The loop over the previous schedule's assignments. */
  function Collect(acc: seq<RunEntry>, assignments: seq<Assignment>, now: int, slot: nat): (r: seq<RunEntry>)
    requires Unique(acc) && AllLive(acc, now, slot)
    ensures Unique(r) && AllLive(r, now, slot)
    decreases |assignments|
  {
    if |assignments| == 0 then acc
    else
      var a := assignments[0];
      var run := ActiveRun(a.slots, now, slot);
      if IsSentinel(a.entity) || run.None? then Collect(acc, assignments[1..], now, slot)
      else
        PutLive(acc, a.entity, run.value, now, slot);
        Collect(Put(acc, a.entity, run.value), assignments[1..], now, slot)
  }

  /** `_find_active_runs`: nothing without a previous schedule; otherwise a
      dictionary of live runs. */
  function FindActiveRuns(data: Option<Response>, now: int, slot: nat): (r: seq<RunEntry>)
    ensures data.None? ==> r == []
    ensures Unique(r) && AllLive(r, now, slot)
  {
    if data.None? then [] else Collect([], data.value.assignments, now, slot)
  }

  /** Reference for the dictionary the loop builds: an entity's entry is the
      run of the last running assignment for it. */
  function LastRun(assignments: seq<Assignment>, entity: string, now: int, slot: nat): Option<seq<int>> {
    if |assignments| == 0 then None
    else
      var later := LastRun(assignments[1..], entity, now, slot);
      if later.Some? then later
      else if assignments[0].entity == entity && Running(assignments[0], now, slot) then
        ActiveRun(assignments[0].slots, now, slot)
      else None
  }

  lemma {:induction false} CollectCharacterized(acc: seq<RunEntry>, assignments: seq<Assignment>, now: int, slot: nat, entity: string)
    requires Unique(acc) && AllLive(acc, now, slot)
    ensures var r := Collect(acc, assignments, now, slot);
            var last := LastRun(assignments, entity, now, slot);
            (HasKey(r, entity) <==> last.Some? || HasKey(acc, entity))
            && Lookup(r, entity) == (if last.Some? then last.value else Lookup(acc, entity))
    decreases |assignments|
  {
    if |assignments| > 0 {
      var a := assignments[0];
      var run := ActiveRun(a.slots, now, slot);
      var acc' := if IsSentinel(a.entity) || run.None? then acc else Put(acc, a.entity, run.value);
      if !IsSentinel(a.entity) && run.Some? {
        PutLive(acc, a.entity, run.value, now, slot);
      }
      CollectCharacterized(acc', assignments[1..], now, slot, entity);
    }
  }

  /** An entity has a run exactly when one of its assignments has a slot
      active now, and its run is the one of its last such assignment. */
  lemma FindActiveRunsCharacterized(data: Response, now: int, slot: nat, entity: string)
    ensures var r := FindActiveRuns(Some(data), now, slot);
            (HasKey(r, entity) <==> exists k :: 0 <= k < |data.assignments| && data.assignments[k].entity == entity
                                                  && Running(data.assignments[k], now, slot))
    ensures var r := FindActiveRuns(Some(data), now, slot);
            var last := LastRun(data.assignments, entity, now, slot);
            HasKey(r, entity) ==> last.Some? && Lookup(r, entity) == last.value
  {
    CollectCharacterized([], data.assignments, now, slot, entity);
    LastRunSome(data.assignments, entity, now, slot);
  }

  lemma {:induction false} LastRunSome(assignments: seq<Assignment>, entity: string, now: int, slot: nat)
    ensures LastRun(assignments, entity, now, slot).Some? <==>
              exists k :: 0 <= k < |assignments| && assignments[k].entity == entity && Running(assignments[k], now, slot)
    decreases |assignments|
  {
    if |assignments| > 0 {
      LastRunSome(assignments[1..], entity, now, slot);
      if exists k :: 0 <= k < |assignments[1..]| && assignments[1..][k].entity == entity && Running(assignments[1..][k], now, slot) {
        var k :| 0 <= k < |assignments[1..]| && assignments[1..][k].entity == entity && Running(assignments[1..][k], now, slot);
        assert assignments[k + 1] == assignments[1..][k];
      }
      if exists k :: 0 <= k < |assignments| && assignments[k].entity == entity && Running(assignments[k], now, slot) {
        var k :| 0 <= k < |assignments| && assignments[k].entity == entity && Running(assignments[k], now, slot);
        if k > 0 {
          assert assignments[1..][k - 1] == assignments[k];
        }
      }
    }
  }

  /** `max` over instants. */
  function MaxOf(s: seq<int>): (m: int)
    requires |s| > 0
    ensures m in s && forall k :: 0 <= k < |s| ==> s[k] <= m
  {
    if |s| == 1 then s[0]
    else
      var m := MaxOf(s[1..]);
      assert forall k :: 1 <= k < |s| ==> s[k] == s[1..][k - 1];
      if s[0] > m then s[0] else m
  }

  /** A run rises one slot at a time, so its latest slot is its last. */
  lemma {:induction false} RunMaxIsLast(run: seq<int>, slot: nat)
    requires |run| > 0 && Consecutive(run, slot)
    ensures MaxOf(run) == run[|run| - 1]
  {
    RunRises(run, slot, |run| - 1);
  }

  lemma {:induction false} RunRises(run: seq<int>, slot: nat, n: nat)
    requires n < |run| && Consecutive(run, slot)
    ensures forall k :: 0 <= k <= n ==> run[k] <= run[n]
  {
    if n > 0 {
      RunRises(run, slot, n - 1);
      assert run[n] == run[n - 1] + slot;
    }
  }
}

=== FILE: adjust.dfy ===
/** The coordinator's reconciliation of the request and the response with
    time already run (`coordinator.py` `_async_update_data`): budget
    adjustment of today's boxes, injection of loads that are already on, and
    the merge of preserved runs into the optimizer's assignments. */
module Adjust {
  import opened Common
  import opened Duration
  import opened Schedule
  import opened Elapsed
  import opened ActiveRuns

  /** Boxes the adjustment passes through: internal entities, forced boxes,
      and boxes that do not start on the tracked day. */
  predicate Untouched(b: PowerBox, tr: Tracker) {
    IsSentinel(b.entity) || b.force || tr.trackingDay != Some(DayOf(b.start))
  }

  /** The budget left: the box's maximum minus what already ran today and
      what the preserved run will still use, never below zero. */
  function Remaining(b: PowerBox, tr: Tracker, runs: seq<RunEntry>, slot: nat): (r: real)
    ensures r >= 0.0
  {
    RealMax(0.0, DurSeconds(b.maximumDuration) as real - GetElapsed(tr, b.entity)
                 - (|Lookup(runs, b.entity)| * slot) as real)
  }

  /** With a preserved run the box now opens one slot after its latest
      preserved slot. */
  function EffectiveStart(b: PowerBox, runs: seq<RunEntry>, slot: nat): int {
    var p := Lookup(runs, b.entity);
    if |p| > 0 then MaxOf(p) + slot else b.start
  }

  /** `x` is `b` with at most its start and maximum duration rewritten. */
  predicate SameButWindow(x: PowerBox, b: PowerBox) {
    x.entity == b.entity && x.finish == b.finish && x.minimumDuration == b.minimumDuration
    && x.minimumBurst == b.minimumBurst && x.acPower == b.acPower && x.dcPower == b.dcPower
    && x.force == b.force && x.benefit == b.benefit
  }

  /** The adjustment of one box: `None` when it is dropped from the request. */
  function AdjustBox(b: PowerBox, tr: Tracker, runs: seq<RunEntry>, slot: nat): (r: Option<PowerBox>)
  {
    if Untouched(b, tr) then Some(b)
    else
      var p := Lookup(runs, b.entity);
      var remaining := Remaining(b, tr, runs, slot);
      if remaining <= 0.0 && |p| == 0 then None
      else
        var start := EffectiveStart(b, runs, slot);
        var window := Max(0, b.finish - start);
        var capped := RealMin(remaining, window as real);
        var n := capped.Floor;
        assert 0 <= n <= window;
        Some(b.(start := start, maximumDuration := Seconds(n)))
  }

  /** What the adjustment of one box promises: internal, forced and
      other-day boxes pass unchanged; a box is dropped exactly when no budget
      is left and no run is preserved; otherwise only its start and budget
      change, and the new budget is the largest whole number of seconds that
      fits both what is left and the window. */
  lemma AdjustBoxContract(b: PowerBox, tr: Tracker, runs: seq<RunEntry>, slot: nat)
    ensures var r := AdjustBox(b, tr, runs, slot);
            (Untouched(b, tr) ==> r == Some(b))
            && (!Untouched(b, tr) ==> (r.None? <==> Remaining(b, tr, runs, slot) <= 0.0 && |Lookup(runs, b.entity)| == 0))
            && (r.Some? ==> SameButWindow(r.value, b))
            && (r.Some? && !Untouched(b, tr) ==>
                  r.value.start == EffectiveStart(b, runs, slot)
                  && r.value.maximumDuration.Seconds?
                  && r.value.maximumDuration.n as real <= Remaining(b, tr, runs, slot)
                  && r.value.maximumDuration.n <= Max(0, b.finish - r.value.start)
                  && ((r.value.maximumDuration.n + 1) as real > Remaining(b, tr, runs, slot)
                      || r.value.maximumDuration.n + 1 > Max(0, b.finish - r.value.start)))
  {
  }

  /** The adjustment loop over all boxes, in order. */
  function AdjustBoxes(bs: seq<PowerBox>, tr: Tracker, runs: seq<RunEntry>, slot: nat): (r: seq<PowerBox>)
    ensures |r| <= |bs|
  {
    if |bs| == 0 then []
    else
      Kept(AdjustBox(bs[0], tr, runs, slot)) + AdjustBoxes(bs[1..], tr, runs, slot)
  }

  /** The boxes an adjustment contributes: none when it drops the box. */
  function Kept(x: Option<PowerBox>): seq<PowerBox> {
    if x.Some? then [x.value] else []
  }

  /** The loop keeps box order: adjusting `a + b` adjusts `a`, then `b`. */
  lemma {:induction false} AdjustBoxesAppend(a: seq<PowerBox>, b: seq<PowerBox>, tr: Tracker, runs: seq<RunEntry>, slot: nat)
    ensures AdjustBoxes(a + b, tr, runs, slot) == AdjustBoxes(a, tr, runs, slot) + AdjustBoxes(b, tr, runs, slot)
  {
    if |a| == 0 {
      assert a + b == b;
    } else {
      AdjustBoxesAppend(a[1..], b, tr, runs, slot);
      AdjustBoxesCons(a, b, tr, runs, slot);
    }
  }

  lemma AdjustBoxesCons(a: seq<PowerBox>, b: seq<PowerBox>, tr: Tracker, runs: seq<RunEntry>, slot: nat)
    requires |a| > 0
    requires AdjustBoxes(a[1..] + b, tr, runs, slot) == AdjustBoxes(a[1..], tr, runs, slot) + AdjustBoxes(b, tr, runs, slot)
    ensures AdjustBoxes(a + b, tr, runs, slot) == AdjustBoxes(a, tr, runs, slot) + AdjustBoxes(b, tr, runs, slot)
  {
    TailOfAppend(a, b);
    var k := Kept(AdjustBox(a[0], tr, runs, slot));
    var x, y := AdjustBoxes(a[1..], tr, runs, slot), AdjustBoxes(b, tr, runs, slot);
    assert AdjustBoxes(a + b, tr, runs, slot) == k + (x + y);
    assert k + (x + y) == (k + x) + y;
  }

  /** Boxes the adjustment leaves alone come out unchanged and in order. */
  lemma {:induction false} UntouchedPassThrough(bs: seq<PowerBox>, tr: Tracker, runs: seq<RunEntry>, slot: nat)
    requires forall k :: 0 <= k < |bs| ==> Untouched(bs[k], tr)
    ensures AdjustBoxes(bs, tr, runs, slot) == bs
  {
    if |bs| > 0 {
      UntouchedPassThrough(bs[1..], tr, runs, slot);
    }
  }

  /** A box reaches the request exactly when it is the adjustment of some
      input box that was not dropped. */
  lemma {:induction false} AdjustBoxesCharacterized(bs: seq<PowerBox>, tr: Tracker, runs: seq<RunEntry>, slot: nat, x: PowerBox)
    ensures x in AdjustBoxes(bs, tr, runs, slot) <==>
              exists k :: 0 <= k < |bs| && AdjustBox(bs[k], tr, runs, slot) == Some(x)
  {
    if |bs| > 0 {
      AdjustBoxesCharacterized(bs[1..], tr, runs, slot, x);
      if exists k :: 0 <= k < |bs[1..]| && AdjustBox(bs[1..][k], tr, runs, slot) == Some(x) {
        var k :| 0 <= k < |bs[1..]| && AdjustBox(bs[1..][k], tr, runs, slot) == Some(x);
        assert bs[k + 1] == bs[1..][k];
      }
      if exists k :: 0 <= k < |bs| && AdjustBox(bs[k], tr, runs, slot) == Some(x) {
        var k :| 0 <= k < |bs| && AdjustBox(bs[k], tr, runs, slot) == Some(x);
        if k > 0 {
          assert bs[1..][k - 1] == bs[k];
        }
      }
    }
  }

  /** The rewritten budget never exceeds the original one when the counts
      are not negative. */
  lemma BudgetNeverGrows(b: PowerBox, tr: Tracker, runs: seq<RunEntry>, slot: nat)
    requires GetElapsed(tr, b.entity) >= 0.0
    requires AdjustBox(b, tr, runs, slot).Some? && !Untouched(b, tr)
    ensures AdjustBox(b, tr, runs, slot).value.maximumDuration.n <= DurSeconds(b.maximumDuration)
  {
    RemainingAtMostBudget(b, tr, runs, slot);
    var n := AdjustBox(b, tr, runs, slot).value.maximumDuration.n;
    assert n as real <= DurSeconds(b.maximumDuration) as real;
  }

  lemma RemainingAtMostBudget(b: PowerBox, tr: Tracker, runs: seq<RunEntry>, slot: nat)
    requires GetElapsed(tr, b.entity) >= 0.0
    ensures Remaining(b, tr, runs, slot) <= DurSeconds(b.maximumDuration) as real
  {
    var d := DurSeconds(b.maximumDuration) as real;
    var e := GetElapsed(tr, b.entity);
    var k := |Lookup(runs, b.entity)| * slot;
    NatProduct(|Lookup(runs, b.entity)|, slot);
    assert Remaining(b, tr, runs, slot) == RealMax(0.0, d - e - k as real);
    BelowBudget(d, e, k as real);
  }

  lemma NatProduct(a: nat, b: nat)
    ensures a * b >= 0
  {
  }

  lemma BelowBudget(d: real, e: real, k: real)
    requires d >= 0.0 && e >= 0.0 && k >= 0.0
    ensures RealMax(0.0, d - e - k) <= d
  {
  }

  /** With a run found by `FindActiveRuns`, the box now opens one slot after
      the run's last slot. */
  lemma PreservedStart(b: PowerBox, runs: seq<RunEntry>, now: int, slot: nat)
    requires AllLive(runs, now, slot) && HasKey(runs, b.entity)
    ensures var p := Lookup(runs, b.entity);
            |p| > 0 && EffectiveStart(b, runs, slot) == p[|p| - 1] + slot
  {
    LookupLive(runs, b.entity, now, slot);
    RunMaxIsLast(Lookup(runs, b.entity), slot);
  }

  /** A box with no preserved run and nothing run today keeps its window and
      is capped at the window's length. */
  lemma FreshBoxCapped(b: PowerBox, tr: Tracker, runs: seq<RunEntry>, slot: nat)
    requires !Untouched(b, tr) && !HasKey(runs, b.entity) && GetElapsed(tr, b.entity) == 0.0
    ensures AdjustBox(b, tr, runs, slot).Some?
    ensures var r := AdjustBox(b, tr, runs, slot).value;
            r.start == b.start
            && r.maximumDuration == Seconds(Min(DurSeconds(b.maximumDuration), Max(0, b.finish - b.start)))
  {
    var r := AdjustBox(b, tr, runs, slot).value;
    var m := DurSeconds(b.maximumDuration);
    var w := Max(0, b.finish - b.start);
    assert Remaining(b, tr, runs, slot) == m as real;
    assert RealMin(m as real, w as real) == Min(m, w) as real;
  }

  /** An entry of the job registry as the injection reads it; `None` marks
      an absent attribute. */
  datatype LoadEntity = LoadEntity(entityId: Option<string>, acPower: Option<real>, dcPower: Option<real>)

  /** The internal entity of an injected load. */
  function ActiveName(id: string): (name: string)
    ensures IsSentinel(name)
  {
    "__active_" + id + "__"
  }

  lemma ActiveNameInjective(a: string, b: string)
    requires ActiveName(a) == ActiveName(b)
    ensures a == b
  {
    var na := ActiveName(a);
    assert a == na[9..|na| - 2];
    assert b == ActiveName(b)[9..|ActiveName(b)| - 2];
  }

  /** Some box of the request already carries this entity. */
  predicate Submitted(bs: seq<PowerBox>, id: string) {
    exists i :: 0 <= i < |bs| && bs[i].entity == id
  }

  /** A registry entry gets an injected box: it names an entity that is not
      already submitted, whose state is "on", and that draws some power. */
  predicate Qualifies(l: LoadEntity, bs: seq<PowerBox>, states: map<string, string>) {
    var id := l.entityId.GetOr("");
    id != "" && !Submitted(bs, id) && id in states && states[id] == "on"
    && !(l.acPower.GetOr(0.0) == 0.0 && l.dcPower.GetOr(0.0) == 0.0)
  }

  /** The forced box of one load over `[hs, hs + interval]`. */
  function ActiveBox(l: LoadEntity, hs: int, interval: nat): (b: PowerBox)
    ensures b.force && IsSentinel(b.entity) && b.start == hs && b.finish == hs + interval
  {
    var d := Seconds(interval);
    PowerBox(ActiveName(l.entityId.GetOr("")), hs, hs + interval, d, d, d,
             l.acPower.GetOr(0.0), l.dcPower.GetOr(0.0), true, 0.0)
  }

  /** The boxes injected for the registry, in registry order. */
  function Injected(loads: seq<LoadEntity>, bs: seq<PowerBox>, states: map<string, string>, hs: int, interval: nat): (r: seq<PowerBox>)
    ensures |r| <= |loads|
    ensures forall k :: 0 <= k < |r| ==> r[k].force && IsSentinel(r[k].entity)
  {
    if |loads| == 0 then []
    else
      var rest := Injected(loads[1..], bs, states, hs, interval);
      if Qualifies(loads[0], bs, states) then [ActiveBox(loads[0], hs, interval)] + rest else rest
  }

  /** The request's boxes after injection: the adjusted boxes, unchanged, then
      the injected ones. */
  function Inject(bs: seq<PowerBox>, loads: seq<LoadEntity>, states: map<string, string>, hs: int, interval: nat): (r: seq<PowerBox>)
    ensures |r| >= |bs| && r[..|bs|] == bs
    ensures forall k :: |bs| <= k < |r| ==> r[k].force && IsSentinel(r[k].entity)
  {
    var extra := Injected(loads, bs, states, hs, interval);
    assert (bs + extra)[..|bs|] == bs;
    bs + extra
  }

  /** A load gets a box exactly when it qualifies. */
  lemma {:induction false} InjectedCharacterized(loads: seq<LoadEntity>, bs: seq<PowerBox>, states: map<string, string>, hs: int, interval: nat, x: PowerBox)
    ensures x in Injected(loads, bs, states, hs, interval) <==>
              exists k :: 0 <= k < |loads| && Qualifies(loads[k], bs, states) && x == ActiveBox(loads[k], hs, interval)
  {
    if |loads| > 0 {
      InjectedCharacterized(loads[1..], bs, states, hs, interval, x);
      if exists k :: 0 <= k < |loads[1..]| && Qualifies(loads[1..][k], bs, states) && x == ActiveBox(loads[1..][k], hs, interval) {
        var k :| 0 <= k < |loads[1..]| && Qualifies(loads[1..][k], bs, states) && x == ActiveBox(loads[1..][k], hs, interval);
        assert loads[k + 1] == loads[1..][k];
      }
      if exists k :: 0 <= k < |loads| && Qualifies(loads[k], bs, states) && x == ActiveBox(loads[k], hs, interval) {
        var k :| 0 <= k < |loads| && Qualifies(loads[k], bs, states) && x == ActiveBox(loads[k], hs, interval);
        if k > 0 {
          assert loads[1..][k - 1] == loads[k];
        }
      }
    }
  }

  /** An injected box never stands for an entity the request already
      schedules. */
  lemma InjectedNotSubmitted(loads: seq<LoadEntity>, bs: seq<PowerBox>, states: map<string, string>, hs: int, interval: nat, x: PowerBox, id: string)
    requires x in Injected(loads, bs, states, hs, interval) && x.entity == ActiveName(id)
    ensures !Submitted(bs, id) && id in states && states[id] == "on"
  {
    InjectedCharacterized(loads, bs, states, hs, interval, x);
    var k :| 0 <= k < |loads| && Qualifies(loads[k], bs, states) && x == ActiveBox(loads[k], hs, interval);
    ActiveNameInjective(loads[k].entityId.GetOr(""), id);
  }

  /** The index of the first assignment for `entity`, or `|as|`. */
  function FirstFor(assignments: seq<Assignment>, entity: string): (i: nat)
    ensures i <= |assignments|
    ensures i < |assignments| ==> assignments[i].entity == entity
    ensures forall j :: 0 <= j < i ==> assignments[j].entity != entity
  {
    if |assignments| == 0 then 0
    else if assignments[0].entity == entity then 0
    else 1 + FirstFor(assignments[1..], entity)
  }

  /** The slots of the first assignment for `entity`, if any. */
  function FirstSlots(assignments: seq<Assignment>, entity: string): Option<seq<int>> {
    var i := FirstFor(assignments, entity);
    if i < |assignments| then Some(assignments[i].slots) else None
  }

  /** The merge of one preserved run: prepended to the entity's first
      assignment, whose run time grows by the run's length, or a new
      assignment at the end with an energy cost of 0. */
  function MergeOne(assignments: seq<Assignment>, entity: string, run: seq<int>, slot: nat): (r: seq<Assignment>)
    ensures |r| >= |assignments|
    ensures forall j :: 0 <= j < |assignments| && j != FirstFor(assignments, entity) ==> r[j] == assignments[j]
  {
    var i := FirstFor(assignments, entity);
    var extra := (|run| * slot) as real;
    if i < |assignments| then
      var a := assignments[i];
      assignments[i := a.(slots := run + a.slots, runTimeSeconds := Some(a.runTimeSeconds.GetOr(0.0) + extra))]
    else
      assignments + [Assignment(entity, run, Some(extra), Some(0.0), None, None)]
  }

  /** After a merge the entity's first assignment opens with the run, its
      run time grows by the run's seconds, and nothing is lost. */
  lemma MergeOneSelf(assignments: seq<Assignment>, entity: string, run: seq<int>, slot: nat)
    ensures var r := MergeOne(assignments, entity, run, slot);
            FirstSlots(r, entity) == Some(run + FirstSlots(assignments, entity).GetOr([]))
            && r[FirstFor(r, entity)].runTimeSeconds
               == Some((if FirstFor(assignments, entity) < |assignments|
                        then assignments[FirstFor(assignments, entity)].runTimeSeconds.GetOr(0.0) else 0.0)
                       + (|run| * slot) as real)
            && (FirstFor(assignments, entity) == |assignments| ==> r[|assignments|].energyCost == Some(0.0))
  {
    var r := MergeOne(assignments, entity, run, slot);
    var i := FirstFor(assignments, entity);
    if i == |assignments| {
      assert r[i].entity == entity;
      assert run + [] == run;
    } else {
      assert r[i].entity == entity;
    }
    assert forall j :: 0 <= j < i ==> r[j].entity != entity;
    assert FirstFor(r, entity) == i;
  }

  /** Merging one entity's run leaves every other entity's first assignment
      as it was. */
  lemma MergeOneOther(assignments: seq<Assignment>, entity: string, run: seq<int>, slot: nat, other: string)
    requires other != entity
    ensures FirstSlots(MergeOne(assignments, entity, run, slot), other) == FirstSlots(assignments, other)
  {
    var r := MergeOne(assignments, entity, run, slot);
    var i := FirstFor(assignments, entity);
    var o := FirstFor(assignments, other);
    if o < |assignments| {
      assert r[o] == assignments[o];
      assert FirstFor(r, other) == o;
    } else {
      assert FirstFor(r, other) == |r|;
    }
  }

  /** The merge of every preserved run, in the dictionary's order. */
  function MergeRuns(assignments: seq<Assignment>, runs: seq<RunEntry>, slot: nat): (r: seq<Assignment>)
    ensures |r| >= |assignments|
    decreases |runs|
  {
    if |runs| == 0 then assignments
    else MergeRuns(MergeOne(assignments, runs[0].entity, runs[0].slots, slot), runs[1..], slot)
  }

  /** With distinct entities, each entity's first assignment ends up opening
      with its own preserved run, and entities without a run are untouched. */
  lemma {:induction false} MergeRunsPrepends(assignments: seq<Assignment>, runs: seq<RunEntry>, slot: nat, entity: string)
    requires Unique(runs)
    ensures HasKey(runs, entity) ==>
              FirstSlots(MergeRuns(assignments, runs, slot), entity)
              == Some(Lookup(runs, entity) + FirstSlots(assignments, entity).GetOr([]))
    ensures !HasKey(runs, entity) ==>
              FirstSlots(MergeRuns(assignments, runs, slot), entity) == FirstSlots(assignments, entity)
    decreases |runs|
  {
    if |runs| > 0 {
      var e0 := runs[0].entity;
      var merged := MergeOne(assignments, e0, runs[0].slots, slot);
      MergeRunsPrepends(merged, runs[1..], slot, entity);
      if entity == e0 {
        MergeOneSelf(assignments, e0, runs[0].slots, slot);
      } else {
        MergeOneOther(assignments, e0, runs[0].slots, slot, entity);
      }
    }
  }

  /** Step 8: without preserved runs the response is returned as it came. */
  function MergeResponse(resp: Response, runs: seq<RunEntry>, slot: nat): (r: Response)
    ensures |runs| == 0 ==> r == resp
    ensures r.batteryProfile == resp.batteryProfile
  {
    if |runs| == 0 then resp
    else resp.(assignments := MergeRuns(resp.assignments, runs, slot))
  }
}

=== FILE: binarysensor.dfy ===
/** The binary sensors (`binary_sensor.py`): whether a job is scheduled
    now, and whether the battery is being force-charged from or
    force-discharged to the grid in the current slot. */
module BinarySensor {
  import opened Common
  import opened Duration
  import opened Schedule
  import Solar

  /** The profile entry at `k` covers `now`; an entry without a time cannot
      be asked. */
  predicate EntryCovers(e: ProfileEntry, now: int, dur: nat)
    requires e.time.Some?
  {
    SlotActive(e.time.value, now, dur)
  }

  /** `_get_current_grid_power`: the import and export of the first profile
      entry whose slot contains `now`, or zeros. Reading an entry without a
      time raises. */
  function GridPower(profile: seq<ProfileEntry>, now: int, dur: nat): (r: Result<(real, real)>)
    ensures r.Err? <==>
              exists k :: 0 <= k < |profile| && profile[k].time.None?
                          && forall j :: 0 <= j < k ==> profile[j].time.Some? && !EntryCovers(profile[j], now, dur)
    ensures r.Ok? && (forall k :: 0 <= k < |profile| ==> profile[k].time.Some? && !EntryCovers(profile[k], now, dur)) ==>
              r.value == (0.0, 0.0)
    ensures r.Ok? && r.value != (0.0, 0.0) ==>
              exists k :: 0 <= k < |profile| && profile[k].time.Some? && EntryCovers(profile[k], now, dur)
                          && r.value == (profile[k].gridImport.GetOr(0.0), profile[k].gridExport.GetOr(0.0))
    decreases |profile|
  {
    if |profile| == 0 then Ok((0.0, 0.0))
    else
      var e := profile[0];
      if e.time.None? then Err("KeyError: time")
      else if EntryCovers(e, now, dur) then Ok((e.gridImport.GetOr(0.0), e.gridExport.GetOr(0.0)))
      else
        var r := GridPower(profile[1..], now, dur);
        assert forall k :: 1 <= k < |profile| ==> profile[k] == profile[1..][k - 1];
        if r.Err? then
          var k :| 0 <= k < |profile[1..]| && profile[1..][k].time.None?
                   && forall j :: 0 <= j < k ==> profile[1..][j].time.Some? && !EntryCovers(profile[1..][j], now, dur);
          assert profile[k + 1].time.None?;
          r
        else
          r
  }

  /** The first matching entry decides: once an entry covering `now` comes
      after entries that all have times and do not cover it, its values are
      the reading. */
  lemma {:induction false} GridPowerFirstMatch(profile: seq<ProfileEntry>, now: int, dur: nat, k: nat)
    requires k < |profile| && profile[k].time.Some? && EntryCovers(profile[k], now, dur)
    requires forall j :: 0 <= j < k ==> profile[j].time.Some? && !EntryCovers(profile[j], now, dur)
    ensures GridPower(profile, now, dur) == Ok((profile[k].gridImport.GetOr(0.0), profile[k].gridExport.GetOr(0.0)))
    decreases k
  {
    if k > 0 {
      assert forall j :: 0 <= j < k - 1 ==> profile[1..][j] == profile[j + 1];
      GridPowerFirstMatch(profile[1..], now, dur, k - 1);
    }
  }

  /** Without an entry covering `now`, and with every entry timed, the
      reading is zero import and zero export. */
  lemma {:induction false} GridPowerNoMatch(profile: seq<ProfileEntry>, now: int, dur: nat)
    requires forall k :: 0 <= k < |profile| ==> profile[k].time.Some? && !EntryCovers(profile[k], now, dur)
    ensures GridPower(profile, now, dur) == Ok((0.0, 0.0))
    decreases |profile|
  {
    if |profile| > 0 {
      assert forall j :: 0 <= j < |profile[1..]| ==> profile[1..][j] == profile[j + 1];
      GridPowerNoMatch(profile[1..], now, dur);
    }
  }

  /** Whether an assignment's entity runs now: some slot contains `now`. */
  predicate RunningNow(a: Assignment, now: int, dur: nat) {
    AnyActive(a.slots, now, dur)
  }

  /** `_get_running_load_ac`: the AC power of every non-internal assignment
      with a slot containing `now`, each counted once however many of its
      slots match. */
  function RunningLoadAc(assignments: seq<Assignment>, now: int, dur: nat): real {
    if |assignments| == 0 then 0.0
    else
      var a := assignments[0];
      (if !IsSentinel(a.entity) && RunningNow(a, now, dur) then a.acPower.GetOr(0.0) else 0.0)
      + RunningLoadAc(assignments[1..], now, dur)
  }

  /** `_get_running_solar_dc`: the magnitude of the DC power of every solar
      assignment with a slot containing `now`. */
  function RunningSolarDc(assignments: seq<Assignment>, now: int, dur: nat): (r: real)
    ensures r >= 0.0
  {
    if |assignments| == 0 then 0.0
    else
      var a := assignments[0];
      (if a.entity == Solar.SolarEntity && RunningNow(a, now, dur) then Abs(a.dcPower.GetOr(0.0)) else 0.0)
      + RunningSolarDc(assignments[1..], now, dur)
  }

  /** The sums distribute over concatenation: each assignment contributes
      on its own, independently of the others. */
  lemma {:induction false} RunningSumsAppend(a: seq<Assignment>, b: seq<Assignment>, now: int, dur: nat)
    ensures RunningLoadAc(a + b, now, dur) == RunningLoadAc(a, now, dur) + RunningLoadAc(b, now, dur)
    ensures RunningSolarDc(a + b, now, dur) == RunningSolarDc(a, now, dur) + RunningSolarDc(b, now, dur)
    decreases |a|
  {
    if |a| == 0 {
      assert a + b == b;
    } else {
      TailOfAppend(a, b);
      RunningSumsAppend(a[1..], b, now, dur);
    }
  }

  /** A single assignment adds its AC power to the load when it is a running
      job, and its DC magnitude to the solar sum when it is running solar;
      the two sums never count the same assignment. */
  lemma RunningSingle(x: Assignment, now: int, dur: nat)
    ensures RunningLoadAc([x], now, dur)
            == (if !IsSentinel(x.entity) && RunningNow(x, now, dur) then x.acPower.GetOr(0.0) else 0.0)
    ensures RunningSolarDc([x], now, dur)
            == (if x.entity == Solar.SolarEntity && RunningNow(x, now, dur) then Abs(x.dcPower.GetOr(0.0)) else 0.0)
    ensures RunningLoadAc([x], now, dur) != 0.0 ==> RunningSolarDc([x], now, dur) == 0.0
  {
    assert [x][1..] == [];
    assert IsSentinel(Solar.SolarEntity);
  }

  /** With non-negative AC powers the running load is never negative. */
  lemma {:induction false} RunningLoadNonNegative(assignments: seq<Assignment>, now: int, dur: nat)
    requires forall k :: 0 <= k < |assignments| ==> assignments[k].acPower.GetOr(0.0) >= 0.0
    ensures RunningLoadAc(assignments, now, dur) >= 0.0
    decreases |assignments|
  {
    if |assignments| > 0 {
      assert forall k :: 0 <= k < |assignments[1..]| ==> assignments[1..][k] == assignments[k + 1];
      RunningLoadNonNegative(assignments[1..], now, dur);
    }
  }

  /** `_is_entity_scheduled_now`. */
  function ScheduledNow(assignments: seq<Assignment>, entity: string, now: int, dur: nat): (b: bool)
    ensures b <==> exists k :: 0 <= k < |assignments| && assignments[k].entity == entity
                               && RunningNow(assignments[k], now, dur)
  {
    if |assignments| == 0 then false
    else if assignments[0].entity == entity && RunningNow(assignments[0], now, dur) then true
    else
      var b := ScheduledNow(assignments[1..], entity, now, dur);
      assert forall k :: 1 <= k < |assignments| ==> assignments[k] == assignments[1..][k - 1];
      b
  }

  /** The job's scheduled sensor: unknown without a schedule. */
  function JobScheduledIsOn(data: Option<Response>, entity: string, now: int, slotDuration: string): (r: Option<bool>)
    ensures r.None? <==> data.None?
    ensures r.Some? ==>
              (r.value <==>
                 (exists k, i :: 0 <= k < |data.value.assignments| && data.value.assignments[k].entity == entity
                                 && 0 <= i < |data.value.assignments[k].slots|
                                 && SlotActive(data.value.assignments[k].slots[i], now, ParseSlotDurationSeconds(slotDuration))))
  {
    if data.None? then None
    else Some(ScheduledNow(data.value.assignments, entity, now, ParseSlotDurationSeconds(slotDuration)))
  }

  /** The force-charge sensor: on when the grid imports more than the
      running loads draw; unknown without a schedule. */
  function ForceChargeIsOn(data: Option<Response>, now: int, slotDuration: string): (r: Result<Option<bool>>)
    ensures data.None? ==> r == Ok(None)
    ensures data.Some? ==> (r.Ok? <==> GridPower(data.value.batteryProfile, now, ParseSlotDurationSeconds(slotDuration)).Ok?)
    ensures data.Some? && r.Ok? ==>
              r.value.Some?
              && (r.value.value <==>
                    GridPower(data.value.batteryProfile, now, ParseSlotDurationSeconds(slotDuration)).value.0
                    > RunningLoadAc(data.value.assignments, now, ParseSlotDurationSeconds(slotDuration)))
  {
    if data.None? then Ok(None)
    else
      var dur := ParseSlotDurationSeconds(slotDuration);
      var power :- GridPower(data.value.batteryProfile, now, dur);
      Ok(Some(power.0 - RunningLoadAc(data.value.assignments, now, dur) > 0.0))
  }

  /** The force-discharge sensor: on when the grid takes more than the
      running solar supplies; unknown without a schedule. */
  function ForceDischargeIsOn(data: Option<Response>, now: int, slotDuration: string): (r: Result<Option<bool>>)
    ensures data.None? ==> r == Ok(None)
    ensures data.Some? ==> (r.Ok? <==> GridPower(data.value.batteryProfile, now, ParseSlotDurationSeconds(slotDuration)).Ok?)
    ensures data.Some? && r.Ok? ==>
              r.value.Some?
              && (r.value.value <==>
                    GridPower(data.value.batteryProfile, now, ParseSlotDurationSeconds(slotDuration)).value.1
                    > RunningSolarDc(data.value.assignments, now, ParseSlotDurationSeconds(slotDuration)))
  {
    if data.None? then Ok(None)
    else
      var dur := ParseSlotDurationSeconds(slotDuration);
      var power :- GridPower(data.value.batteryProfile, now, dur);
      Ok(Some(power.1 - RunningSolarDc(data.value.assignments, now, dur) > 0.0))
  }

  /** With no current profile entry and non-negative AC powers neither
      sensor is on; a negative `ac_power` would make the zero import exceed
      the load. */
  lemma ForceThresholds(data: Option<Response>, now: int, slotDuration: string)
    requires data.Some?
    requires forall k :: 0 <= k < |data.value.batteryProfile| ==>
               data.value.batteryProfile[k].time.Some?
               && !EntryCovers(data.value.batteryProfile[k], now, ParseSlotDurationSeconds(slotDuration))
    requires forall k :: 0 <= k < |data.value.assignments| ==> data.value.assignments[k].acPower.GetOr(0.0) >= 0.0
    ensures ForceChargeIsOn(data, now, slotDuration) == Ok(Some(false))
    ensures ForceDischargeIsOn(data, now, slotDuration) == Ok(Some(false))
  {
    var dur := ParseSlotDurationSeconds(slotDuration);
    RunningLoadNonNegative(data.value.assignments, now, dur);
    GridPowerNoMatch(data.value.batteryProfile, now, dur);
  }
}

=== FILE: calendar.dfy ===
/** The schedule calendar (`calendar.py`): each entity's slots grouped into
    contiguous events, the range query, and the next upcoming event. */
module Calendar {
  import opened Common
  import opened Duration
  import opened Schedule
  import opened Sorting

  /** A calendar event; the description text is not modelled. */
  datatype Event = Event(start: int, end: int, summary: string)

  predicate IsUpper(c: char) {
    'A' <= c <= 'Z'
  }

  predicate IsLower(c: char) {
    'a' <= c <= 'z'
  }

  /** The cased characters: ASCII letters. */
  predicate IsLetter(c: char) {
    IsUpper(c) || IsLower(c)
  }

  function ToUpper(c: char): char {
    if IsLower(c) then (c as int - 32) as char else c
  }

  function ToLower(c: char): char {
    if IsUpper(c) then (c as int + 32) as char else c
  }

  /** Whether the letter at `i` opens a word: it is first and no letter came
      before the text, or the character before it is not a letter. */
  predicate OpensWord(s: string, i: nat, afterLetter: bool)
    requires i < |s|
  {
    if i == 0 then !afterLetter else !IsLetter(s[i - 1])
  }

  /** `str.title()` over ASCII: a letter that opens a word is upper-cased,
      every other letter lower-cased, everything else kept. */
  function TitleFrom(s: string, afterLetter: bool): (r: string)
    ensures |r| == |s|
    ensures forall i :: 0 <= i < |s| ==> IsLetter(r[i]) == IsLetter(s[i])
    ensures forall i :: 0 <= i < |s| && !IsLetter(s[i]) ==> r[i] == s[i]
    ensures forall i :: 0 <= i < |s| && IsLetter(s[i]) ==>
              ToLower(r[i]) == ToLower(s[i])
              && (OpensWord(s, i, afterLetter) ==> IsUpper(r[i]))
              && (!OpensWord(s, i, afterLetter) ==> IsLower(r[i]))
    decreases |s|
  {
    if |s| == 0 then []
    else
      var c := if !IsLetter(s[0]) then s[0] else if afterLetter then ToLower(s[0]) else ToUpper(s[0]);
      var rest := TitleFrom(s[1..], IsLetter(s[0]));
      assert forall i :: 1 <= i < |s| ==> OpensWord(s, i, afterLetter) == OpensWord(s[1..], i - 1, IsLetter(s[0]));
      [c] + rest
  }

  function Title(s: string): string {
    TitleFrom(s, false)
  }

  /** The part of an entity id after its first ".", or all of it. */
  function ObjectId(entityId: string): (r: string)
    ensures '.' !in entityId ==> r == entityId
    ensures '.' in entityId ==>
              exists k :: 0 <= k < |entityId| && '.' !in entityId[..k] && entityId[k] == '.' && r == entityId[k + 1..]
  {
    if '.' in entityId then entityId[FirstIndex(entityId, '.') + 1..] else entityId
  }

  /** `_friendly_name`: the object id with underscores as spaces, title-cased. */
  function FriendlyName(entityId: string): (r: string)
    ensures |r| == |ObjectId(entityId)|
    ensures '_' !in r
    ensures forall i :: 0 <= i < |r| && !IsLetter(ObjectId(entityId)[i]) ==>
              r[i] == (if ObjectId(entityId)[i] == '_' then ' ' else ObjectId(entityId)[i])
    ensures forall i :: 0 <= i < |r| && IsLetter(ObjectId(entityId)[i]) ==>
              ToLower(r[i]) == ToLower(ObjectId(entityId)[i])
              && ((i == 0 || !IsLetter(ObjectId(entityId)[i - 1])) ==> IsUpper(r[i]))
              && ((i > 0 && IsLetter(ObjectId(entityId)[i - 1])) ==> IsLower(r[i]))
  {
    var spaced := ReplaceAll(ObjectId(entityId), '_', ' ');
    var r := Title(spaced);
    assert forall i :: 0 <= i < |r| ==> r[i] != '_';
    assert forall i :: 0 <= i < |spaced| ==> IsLetter(spaced[i]) == IsLetter(ObjectId(entityId)[i]);
    r
  }

  /** The grouping loop's state: the open group `[gs, ge)` closes at the last
      slot taken plus one slot, and the slots still to come are sorted and
      start no earlier than that last slot. */
  predicate GroupState(gs: int, ge: int, rest: seq<int>, dur: nat) {
    dur > 0 && gs + dur <= ge && Sorted(rest)
    && forall k :: 0 <= k < |rest| ==> ge <= rest[k] + dur
  }

  /** One step of the loop keeps its state. */
  lemma GroupStateNext(gs: int, ge: int, rest: seq<int>, dur: nat)
    requires GroupState(gs, ge, rest, dur) && |rest| > 0
    ensures rest[0] <= ge ==> GroupState(gs, rest[0] + dur, rest[1..], dur)
    ensures rest[0] > ge ==> GroupState(rest[0], rest[0] + dur, rest[1..], dur)
  {
    assert forall k :: 0 <= k < |rest[1..]| ==> rest[0] <= rest[1..][k];
  }

  /** The loop's first state, from sorted slots. */
  lemma GroupStateStart(s: seq<int>, dur: nat)
    requires Sorted(s) && |s| > 0 && dur > 0
    ensures GroupState(s[0], s[0] + dur, s[1..], dur)
  {
    assert forall k :: 0 <= k < |s[1..]| ==> s[0] <= s[1..][k];
  }

  /** The grouping loop from the open group `[gs, ge)`: a slot starting no
      later than the group's end extends it to that slot's end; any other
      slot closes it and opens a new one. */
  function GroupFrom(gs: int, ge: int, rest: seq<int>, dur: nat): (r: seq<Interval>)
    requires GroupState(gs, ge, rest, dur)
    ensures |r| >= 1 && r[0].start == gs
    ensures forall k :: 0 <= k < |r| ==> gs <= r[k].start < r[k].end
    ensures forall i, j :: 0 <= i < j < |r| ==> r[i].end < r[j].start
    decreases |rest|
  {
    if |rest| == 0 then [Interval(gs, ge)]
    else if rest[0] <= ge then
      GroupStateNext(gs, ge, rest, dur);
      GroupFrom(gs, rest[0] + dur, rest[1..], dur)
    else
      GroupStateNext(gs, ge, rest, dur);
      var tail := GroupFrom(rest[0], rest[0] + dur, rest[1..], dur);
      [Interval(gs, ge)] + tail
  }

  /** Some interval of the list contains `t`. */
  predicate Covers(r: seq<Interval>, t: int) {
    exists k :: 0 <= k < |r| && r[k].Contains(t)
  }

  lemma CoversCons(x: Interval, r: seq<Interval>, t: int)
    ensures Covers([x] + r, t) <==> x.Contains(t) || Covers(r, t)
  {
    if Covers([x] + r, t) {
      var k :| 0 <= k < |[x] + r| && ([x] + r)[k].Contains(t);
      if k > 0 {
        assert ([x] + r)[k] == r[k - 1];
        assert r[k - 1].Contains(t);
      } else {
        assert ([x] + r)[0] == x;
      }
    }
    if x.Contains(t) {
      assert ([x] + r)[0].Contains(t);
    }
    if Covers(r, t) {
      var k :| 0 <= k < |r| && r[k].Contains(t);
      assert ([x] + r)[k + 1] == r[k];
      assert ([x] + r)[k + 1].Contains(t);
    }
  }

  lemma AnyActiveCons(slots: seq<int>, t: int, dur: nat)
    requires |slots| > 0
    ensures AnyActive(slots, t, dur) <==> SlotActive(slots[0], t, dur) || AnyActive(slots[1..], t, dur)
  {
  }

  /** The groups cover exactly the open group and the slots still to come. */
  lemma {:induction false} GroupFromCovers(gs: int, ge: int, rest: seq<int>, dur: nat, t: int)
    requires GroupState(gs, ge, rest, dur)
    ensures Covers(GroupFrom(gs, ge, rest, dur), t) <==> gs <= t < ge || AnyActive(rest, t, dur)
    decreases |rest|
  {
    if |rest| == 0 {
      LastGroupCovers(gs, ge, rest, dur, t);
    } else if rest[0] <= ge {
      GroupStateNext(gs, ge, rest, dur);
      GroupFromCovers(gs, rest[0] + dur, rest[1..], dur, t);
      ExtendStep(gs, ge, rest, dur, t);
    } else {
      GroupStateNext(gs, ge, rest, dur);
      GroupFromCovers(rest[0], rest[0] + dur, rest[1..], dur, t);
      CloseStep(gs, ge, rest, dur, t);
    }
  }

  lemma LastGroupCovers(gs: int, ge: int, rest: seq<int>, dur: nat, t: int)
    requires GroupState(gs, ge, rest, dur) && |rest| == 0
    ensures Covers(GroupFrom(gs, ge, rest, dur), t) <==> gs <= t < ge || AnyActive(rest, t, dur)
  {
    assert GroupFrom(gs, ge, rest, dur) == [Interval(gs, ge)];
    CoversCons(Interval(gs, ge), [], t);
    assert [Interval(gs, ge)] + [] == [Interval(gs, ge)];
  }

  lemma ExtendStep(gs: int, ge: int, rest: seq<int>, dur: nat, t: int)
    requires GroupState(gs, ge, rest, dur) && |rest| > 0 && rest[0] <= ge
    requires Covers(GroupFrom(gs, rest[0] + dur, rest[1..], dur), t) <==> gs <= t < rest[0] + dur || AnyActive(rest[1..], t, dur)
    ensures Covers(GroupFrom(gs, ge, rest, dur), t) <==> gs <= t < ge || AnyActive(rest, t, dur)
  {
    assert GroupFrom(gs, ge, rest, dur) == GroupFrom(gs, rest[0] + dur, rest[1..], dur);
    AnyActiveCons(rest, t, dur);
  }

  lemma CloseStep(gs: int, ge: int, rest: seq<int>, dur: nat, t: int)
    requires GroupState(gs, ge, rest, dur) && |rest| > 0 && rest[0] > ge
    requires Covers(GroupFrom(rest[0], rest[0] + dur, rest[1..], dur), t) <==> rest[0] <= t < rest[0] + dur || AnyActive(rest[1..], t, dur)
    ensures Covers(GroupFrom(gs, ge, rest, dur), t) <==> gs <= t < ge || AnyActive(rest, t, dur)
  {
    var tail := GroupFrom(rest[0], rest[0] + dur, rest[1..], dur);
    assert GroupFrom(gs, ge, rest, dur) == [Interval(gs, ge)] + tail;
    CoversCons(Interval(gs, ge), tail, t);
    AnyActiveCons(rest, t, dur);
  }

  lemma SortedGroupsCover(s: seq<int>, dur: nat, t: int)
    requires Sorted(s) && |s| > 0 && dur > 0
    requires GroupState(s[0], s[0] + dur, s[1..], dur)
    ensures Covers(GroupFrom(s[0], s[0] + dur, s[1..], dur), t) <==> AnyActive(s, t, dur)
  {
    GroupFromCovers(s[0], s[0] + dur, s[1..], dur, t);
    AnyActiveCons(s, t, dur);
  }

  /** `_build_events` for one assignment, as intervals: internal entities and
      empty slot lists give none; otherwise the sorted slots are grouped. */
  function SlotGroups(a: Assignment, dur: nat): (r: seq<Interval>)
    requires dur > 0
    ensures IsSentinel(a.entity) || |a.slots| == 0 ==> r == []
    ensures forall k :: 0 <= k < |r| ==> r[k].start < r[k].end
    ensures forall i, j :: 0 <= i < j < |r| ==> r[i].end < r[j].start
  {
    if IsSentinel(a.entity) || |a.slots| == 0 then []
    else
      var s := SortInts(a.slots);
      GroupStateStart(s, dur);
      GroupFrom(s[0], s[0] + dur, s[1..], dur)
  }

  lemma AnyActivePermutation(a: seq<int>, b: seq<int>, t: int, dur: nat)
    requires multiset(a) == multiset(b)
    ensures AnyActive(a, t, dur) <==> AnyActive(b, t, dur)
  {
    if AnyActive(a, t, dur) {
      var i :| 0 <= i < |a| && SlotActive(a[i], t, dur);
      assert a[i] in multiset(b);
      var j :| 0 <= j < |b| && b[j] == a[i];
    }
    if AnyActive(b, t, dur) {
      var j :| 0 <= j < |b| && SlotActive(b[j], t, dur);
      assert b[j] in multiset(a);
      var i :| 0 <= i < |a| && a[i] == b[j];
    }
  }

  /** The union of one entity's events is the union of its slots: an instant
      lies in an event exactly when it lies in one of the slots, and events
      are separated by strict gaps. */
  lemma SlotGroupsCoverSlots(a: Assignment, dur: nat, t: int)
    requires dur > 0
    ensures Covers(SlotGroups(a, dur), t) <==> !IsSentinel(a.entity) && AnyActive(a.slots, t, dur)
  {
    if IsSentinel(a.entity) || |a.slots| == 0 {
      NoGroupsNoCover(a, dur, t);
    } else {
      SlotGroupsOfSorted(a, dur);
      SortedCoverSlots(a.slots, SortInts(a.slots), dur, t);
    }
  }

  lemma NoGroupsNoCover(a: Assignment, dur: nat, t: int)
    requires dur > 0 && (IsSentinel(a.entity) || |a.slots| == 0)
    ensures !Covers(SlotGroups(a, dur), t)
    ensures |a.slots| == 0 ==> !AnyActive(a.slots, t, dur)
  {
    assert SlotGroups(a, dur) == [];
  }

  lemma SlotGroupsOfSorted(a: Assignment, dur: nat)
    requires dur > 0 && !IsSentinel(a.entity) && |a.slots| > 0
    ensures var s := SortInts(a.slots);
            |s| > 0 && GroupState(s[0], s[0] + dur, s[1..], dur)
            && SlotGroups(a, dur) == GroupFrom(s[0], s[0] + dur, s[1..], dur)
  {
    var s := SortInts(a.slots);
    GroupStateStart(s, dur);
    assert SlotGroups(a, dur) == GroupFrom(s[0], s[0] + dur, s[1..], dur);
  }

  lemma SortedCoverSlots(slots: seq<int>, s: seq<int>, dur: nat, t: int)
    requires Sorted(s) && multiset(s) == multiset(slots) && |s| > 0 && dur > 0
    requires GroupState(s[0], s[0] + dur, s[1..], dur)
    ensures Covers(GroupFrom(s[0], s[0] + dur, s[1..], dur), t) <==> AnyActive(slots, t, dur)
  {
    SortedGroupsCover(s, dur, t);
    AnyActivePermutation(slots, s, t, dur);
  }

  /** The events of one assignment, named after its entity. */
  function EntityEvents(a: Assignment, dur: nat): (r: seq<Event>)
    requires dur > 0
    ensures |r| == |SlotGroups(a, dur)|
    ensures forall k :: 0 <= k < |r| ==>
              r[k] == Event(SlotGroups(a, dur)[k].start, SlotGroups(a, dur)[k].end, FriendlyName(a.entity))
  {
    var g := SlotGroups(a, dur);
    seq(|g|, k requires 0 <= k < |g| => Event(g[k].start, g[k].end, FriendlyName(a.entity)))
  }

  /** The events of every assignment, in assignment order. */
  function AllEvents(assignments: seq<Assignment>, dur: nat): seq<Event>
    requires dur > 0
  {
    if |assignments| == 0 then [] else EntityEvents(assignments[0], dur) + AllEvents(assignments[1..], dur)
  }

  /** Some assignment contributes the event. */
  predicate FromAssignment(e: Event, assignments: seq<Assignment>, dur: nat)
    requires dur > 0
  {
    exists k :: 0 <= k < |assignments| && e in EntityEvents(assignments[k], dur)
  }

  lemma {:induction false} AllEventsMembers(assignments: seq<Assignment>, dur: nat, e: Event)
    requires dur > 0
    ensures e in AllEvents(assignments, dur) <==> FromAssignment(e, assignments, dur)
    decreases |assignments|
  {
    if |assignments| > 0 {
      AllEventsMembers(assignments[1..], dur, e);
      if FromAssignment(e, assignments[1..], dur) {
        var k :| 0 <= k < |assignments[1..]| && e in EntityEvents(assignments[1..][k], dur);
        assert assignments[1..][k] == assignments[k + 1];
      }
      if FromAssignment(e, assignments, dur) {
        var k :| 0 <= k < |assignments| && e in EntityEvents(assignments[k], dur);
        if k > 0 {
          assert assignments[1..][k - 1] == assignments[k];
        }
      }
    } else {
      assert !FromAssignment(e, assignments, dur);
    }
  }

  function StartOf(e: Event): int {
    e.start
  }

  /** `_build_events`: none without a schedule; otherwise every assignment's
      events, stably sorted by start. */
  function BuildEvents(data: Option<Response>, slotDuration: string): (r: seq<Event>)
    ensures data.None? ==> r == []
    ensures SortedBy(r, StartOf)
    ensures data.Some? ==>
              multiset(r) == multiset(AllEvents(data.value.assignments, ParseSlotDurationSeconds(slotDuration)))
  {
    if data.None? then []
    else SortBy(AllEvents(data.value.assignments, ParseSlotDurationSeconds(slotDuration)), StartOf)
  }

  /** Every event comes from an assignment and every assignment's events are
      listed. */
  lemma BuildEventsMembers(data: Option<Response>, slotDuration: string, e: Event)
    requires data.Some?
    ensures e in BuildEvents(data, slotDuration) <==>
              FromAssignment(e, data.value.assignments, ParseSlotDurationSeconds(slotDuration))
  {
    var dur := ParseSlotDurationSeconds(slotDuration);
    AllEventsMembers(data.value.assignments, dur, e);
    assert e in BuildEvents(data, slotDuration) <==> e in multiset(BuildEvents(data, slotDuration));
    assert e in AllEvents(data.value.assignments, dur) <==> e in multiset(AllEvents(data.value.assignments, dur));
  }

  /** The `async_get_events` filter: events overlapping `(lo, hi)`. */
  predicate Overlaps(e: Event, lo: int, hi: int) {
    e.end > lo && e.start < hi
  }

  /** `async_get_events` over the built events, in their order. */
  function EventsInRange(events: seq<Event>, lo: int, hi: int): (r: seq<Event>)
    ensures forall e :: e in r <==> e in events && Overlaps(e, lo, hi)
    ensures |r| <= |events|
    ensures SortedBy(events, StartOf) ==> SortedBy(r, StartOf)
  {
    if |events| == 0 then []
    else
      var rest := EventsInRange(events[1..], lo, hi);
      assert forall e :: e in events[1..] ==> StartOf(events[0]) <= StartOf(e) || !SortedBy(events, StartOf);
      if Overlaps(events[0], lo, hi) then [events[0]] + rest else rest
  }

  /** Querying a sub-range of a range already queried gives the same events
      as querying it directly. */
  lemma {:induction false} RangeNarrows(events: seq<Event>, lo: int, hi: int, lo2: int, hi2: int)
    requires lo <= lo2 && hi2 <= hi
    ensures EventsInRange(EventsInRange(events, lo, hi), lo2, hi2) == EventsInRange(events, lo2, hi2)
    decreases |events|
  {
    if |events| > 0 {
      RangeNarrows(events[1..], lo, hi, lo2, hi2);
      var rest := EventsInRange(events[1..], lo, hi);
      if Overlaps(events[0], lo, hi) {
        assert ([events[0]] + rest)[1..] == rest;
      }
    }
  }

  /** Index of the first event not yet over, or the length when all are. */
  function FirstNotOver(events: seq<Event>, now: int): (k: nat)
    ensures k <= |events|
    ensures forall j :: 0 <= j < k ==> events[j].end <= now
    ensures k < |events| ==> events[k].end > now
  {
    if |events| == 0 then 0
    else if events[0].end > now then 0
    else 1 + FirstNotOver(events[1..], now)
  }

  /** `event`: the first event not yet over. */
  function NextEvent(events: seq<Event>, now: int): (r: Option<Event>)
    ensures r.None? <==> forall k :: 0 <= k < |events| ==> events[k].end <= now
    ensures r.Some? ==>
              exists k :: 0 <= k < |events| && events[k] == r.value && r.value.end > now
                          && forall j :: 0 <= j < k ==> events[j].end <= now
  {
    var k := FirstNotOver(events, now);
    if k < |events| then Some(events[k]) else None
  }

  /** The next event is one the range query from now on returns, and the
      first of them. */
  lemma {:induction false} NextEventIsFirstInRange(events: seq<Event>, now: int, hi: int)
    requires forall k :: 0 <= k < |events| ==> events[k].start < hi
    ensures NextEvent(events, now).None? <==> EventsInRange(events, now, hi) == []
    ensures NextEvent(events, now).Some? ==> EventsInRange(events, now, hi)[0] == NextEvent(events, now).value
    decreases |events|
  {
    if |events| > 0 && events[0].end <= now {
      NextEventIsFirstInRange(events[1..], now, hi);
    }
  }
}

=== FILE: common.dfy ===
/** Shared vocabulary of the model: optional values, results standing in for
    raised exceptions, instants and days, and the few string helpers the
    integration relies on (prefix tests, Python's `str.strip`, decimal
    digits). */
module Common {

  /** A value that may be absent: a missing dictionary key, or `None`. */
  datatype Option<+T> = None | Some(value: T) {
    function GetOr(default: T): T {
      match this
      case Some(v) => v
      case None => default
    }
  }

  /** The outcome of code that may raise: `Err` stands for the exception. */
  datatype Result<+T> = Ok(value: T) | Err(error: string) {
    predicate IsFailure() {
      Err?
    }

    function PropagateFailure<U>(): Result<U>
      requires Err?
    {
      Err(error)
    }

    function Extract(): T
      requires Ok?
    {
      value
    }
  }

  /** Dropping the head of a concatenation drops the head of its first part. */
  lemma TailOfAppend<T>(a: seq<T>, b: seq<T>)
    requires |a| > 0
    ensures (a + b)[0] == a[0] && (a + b)[1..] == a[1..] + b
  {
  }

  /** A timestamp field of a definition: the empty string, or an ISO-8601
      text that denotes the instant `t`. */
  datatype Stamp = Blank | At(t: int)

  /** A closed-open interval of instants. */
  datatype Interval = Interval(start: int, end: int) {
    predicate Contains(t: int) {
      start <= t < end
    }
  }

  const DaySeconds: int := 86400
  const HourSeconds: int := 3600

  /** The local calendar day (days since 1970-01-01) an instant falls on. */
  function DayOf(t: int): int {
    t / DaySeconds
  }

  /** Python's `date.weekday()`: 0 is Monday, 6 is Sunday; day 0 was a Thursday. */
  function Weekday(day: int): (w: int)
    ensures 0 <= w < 7
  {
    (day + 3) % 7
  }

  /** Local midnight that opens the given day. */
  function Midnight(day: int): int {
    day * DaySeconds
  }

  function Max(a: int, b: int): int {
    if a >= b then a else b
  }

  function Min(a: int, b: int): int {
    if a <= b then a else b
  }

  function RealMax(a: real, b: real): real {
    if a >= b then a else b
  }

  function RealMin(a: real, b: real): real {
    if a <= b then a else b
  }

  function Abs(x: real): (r: real)
    ensures r >= 0.0
    ensures r == x || r == -x
  {
    if x >= 0.0 then x else -x
  }

  predicate StartsWith(s: string, prefix: string) {
    |prefix| <= |s| && s[..|prefix|] == prefix
  }

  /** Entity ids that start with "__" are internal sentinels (solar,
      injected active loads), never real devices. */
  predicate IsSentinel(entity: string) {
    StartsWith(entity, "__")
  }

  /** Python's `str.isspace` for a single character. */
  predicate IsSpace(c: char) {
    if c <= ' ' then '\t' <= c <= '\r' || '\U{1C}' <= c
    else if c < '\U{85}' then false
    else
      c == '\U{85}' || c == '\U{A0}' || c == '\U{1680}'
      || ('\U{2000}' <= c <= '\U{200A}') || c == '\U{2028}' || c == '\U{2029}'
      || c == '\U{202F}' || c == '\U{205F}' || c == '\U{3000}'
  }

  function TrimLeft(s: string): string {
    if |s| > 0 && IsSpace(s[0]) then TrimLeft(s[1..]) else s
  }

  function TrimRight(s: string): string {
    if |s| > 0 && IsSpace(s[|s| - 1]) then TrimRight(s[..|s| - 1]) else s
  }

  /** Python's `str.strip()` with no argument. */
  function Strip(s: string): string {
    TrimRight(TrimLeft(s))
  }

  /** `TrimLeft` removes exactly the leading run of whitespace. */
  lemma {:induction false} TrimLeftRemovesLeading(s: string)
    ensures var r := TrimLeft(s);
            |r| <= |s| && r == s[|s| - |r|..]
            && (|r| > 0 ==> !IsSpace(r[0]))
            && forall i :: 0 <= i < |s| - |r| ==> IsSpace(s[i])
    decreases |s|
  {
    if |s| > 0 && IsSpace(s[0]) {
      TrimLeftRemovesLeading(s[1..]);
      var r := TrimLeft(s);
      assert s[1..][|s| - 1 - |r|..] == s[|s| - |r|..];
      forall i | 0 <= i < |s| - |r|
        ensures IsSpace(s[i])
      {
        if i > 0 {
          assert s[i] == s[1..][i - 1];
        }
      }
    }
  }

  /** `TrimRight` removes exactly the trailing run of whitespace. */
  lemma {:induction false} TrimRightRemovesTrailing(s: string)
    ensures var r := TrimRight(s);
            |r| <= |s| && r == s[..|r|]
            && (|r| > 0 ==> !IsSpace(r[|r| - 1]))
            && forall i :: |r| <= i < |s| ==> IsSpace(s[i])
    decreases |s|
  {
    if |s| > 0 && IsSpace(s[|s| - 1]) {
      TrimRightRemovesTrailing(s[..|s| - 1]);
      var r := TrimRight(s);
      assert s[..|s| - 1][..|r|] == s[..|r|];
      forall i | |r| <= i < |s|
        ensures IsSpace(s[i])
      {
        if i < |s| - 1 {
          assert s[i] == s[..|s| - 1][i];
        }
      }
    }
  }

  /** A stripped text neither starts nor ends with whitespace, and is a
      piece of the original. */
  lemma StripEnds(s: string)
    ensures var r := Strip(s);
            |r| <= |s| && (|r| > 0 ==> !IsSpace(r[0]) && !IsSpace(r[|r| - 1]))
  {
    TrimLeftRemovesLeading(s);
    TrimRightRemovesTrailing(TrimLeft(s));
    var l := TrimLeft(s);
    var r := TrimRight(l);
    if |r| > 0 {
      assert r[0] == l[0];
    }
  }

  predicate IsDigit(c: char) {
    '0' <= c <= '9'
  }

  predicate AllDigits(s: string) {
    forall i :: 0 <= i < |s| ==> IsDigit(s[i])
  }

  function DigitValue(c: char): nat
    requires IsDigit(c)
  {
    (c as int) - ('0' as int)
  }

  function DigitChar(d: nat): (c: char)
    requires d < 10
    ensures IsDigit(c) && DigitValue(c) == d
  {
    (d + '0' as int) as char
  }

  /** Python's `int()` of a string of ASCII digits. */
  function DigitsValue(s: string): nat
    requires AllDigits(s)
  {
    if |s| == 0 then 0 else DigitsValue(s[..|s| - 1]) * 10 + DigitValue(s[|s| - 1])
  }

  /** Python's `str()` of a natural number: decimal, no leading zeros. */
  function NatToString(n: nat): (s: string)
    ensures |s| > 0 && AllDigits(s)
    ensures n < 10 <==> |s| == 1
    decreases n
  {
    if n < 10 then [DigitChar(n)] else NatToString(n / 10) + [DigitChar(n % 10)]
  }

  lemma {:induction false} NatToStringRoundTrip(n: nat)
    ensures DigitsValue(NatToString(n)) == n
    decreases n
  {
    if n >= 10 {
      NatToStringRoundTrip(n / 10);
      var s := NatToString(n);
      assert s[..|s| - 1] == NatToString(n / 10);
    }
  }

  /** A run of ASCII digits in which single underscores may separate
      digits, as Python's integer literals and `int()` allow: it starts and
      ends with a digit and no underscore follows another. */
  predicate GroupedDigits(t: string) {
    |t| > 0 && IsDigit(t[0]) && IsDigit(t[|t| - 1])
    && (forall i :: 0 <= i < |t| ==> IsDigit(t[i]) || t[i] == '_')
    && (forall i :: 0 <= i < |t| - 1 ==> t[i] == '_' ==> IsDigit(t[i + 1]))
  }

  /** The digits of a grouped run, separators removed. */
  function DropUnderscores(t: string): (r: string)
    ensures |r| <= |t|
    ensures (forall i :: 0 <= i < |t| ==> IsDigit(t[i]) || t[i] == '_') ==> AllDigits(r)
    ensures AllDigits(t) ==> r == t
    decreases |t|
  {
    if |t| == 0 then []
    else (if t[0] == '_' then [] else [t[0]]) + DropUnderscores(t[1..])
  }

  /** Python's `int()` of a string: surrounding whitespace, an optional sign
      and ASCII digits, single underscores allowed between digits. */
  function ParseInt(s: string): (r: Option<int>)
    ensures AllDigits(Strip(s)) && |Strip(s)| > 0 ==> r == Some(DigitsValue(Strip(s)))
    ensures GroupedDigits(Strip(s)) ==> r == Some(DigitsValue(DropUnderscores(Strip(s))))
    ensures var t := Strip(s);
            r.Some? <==> GroupedDigits(t) || (|t| > 1 && (t[0] == '+' || t[0] == '-') && GroupedDigits(t[1..]))
  {
    var t := Strip(s);
    if GroupedDigits(t) then Some(DigitsValue(DropUnderscores(t)))
    else if |t| > 1 && t[0] == '+' && GroupedDigits(t[1..]) then Some(DigitsValue(DropUnderscores(t[1..])))
    else if |t| > 1 && t[0] == '-' && GroupedDigits(t[1..]) then Some(-(DigitsValue(DropUnderscores(t[1..])) as int))
    else None
  }

  lemma {:induction false} DropUnderscoresAppend(a: string, b: string)
    ensures DropUnderscores(a + b) == DropUnderscores(a) + DropUnderscores(b)
    decreases |a|
  {
    if |a| > 0 {
      assert (a + b)[1..] == a[1..] + b;
      DropUnderscoresAppend(a[1..], b);
    } else {
      assert a + b == b;
    }
  }

  /** A text with no whitespace at either end is its own strip. */
  lemma StripUnspaced(s: string)
    requires |s| > 0 && !IsSpace(s[0]) && !IsSpace(s[|s| - 1])
    ensures Strip(s) == s
  {
  }

  /** Two grouped runs joined by one underscore form a grouped run. */
  lemma GroupedJoin(a: string, b: string)
    requires GroupedDigits(a) && GroupedDigits(b)
    ensures GroupedDigits(a + "_" + b)
  {
    var u := a + "_" + b;
    assert u[0] == a[0] && u[|u| - 1] == b[|b| - 1];
    forall i | 0 <= i < |u|
      ensures IsDigit(u[i]) || u[i] == '_'
    {
      if i < |a| {
        assert u[i] == a[i];
      } else if i > |a| {
        assert u[i] == b[i - |a| - 1];
      }
    }
    forall i | 0 <= i < |u| - 1 && u[i] == '_'
      ensures IsDigit(u[i + 1])
    {
      if i < |a| - 1 {
        assert u[i] == a[i] && u[i + 1] == a[i + 1];
      } else if i == |a| {
        assert u[i + 1] == b[0];
      } else if i > |a| {
        assert u[i] == b[i - |a| - 1] && u[i + 1] == b[i - |a|];
      }
    }
  }

  /** Two grouped runs side by side form a grouped run. */
  lemma GroupedConcat(a: string, b: string)
    requires GroupedDigits(a) && GroupedDigits(b)
    ensures GroupedDigits(a + b)
  {
    var v := a + b;
    assert v[0] == a[0] && v[|v| - 1] == b[|b| - 1];
    forall i | 0 <= i < |v|
      ensures IsDigit(v[i]) || v[i] == '_'
    {
      if i < |a| {
        assert v[i] == a[i];
      } else {
        assert v[i] == b[i - |a|];
      }
    }
    forall i | 0 <= i < |v| - 1 && v[i] == '_'
      ensures IsDigit(v[i + 1])
    {
      if i < |a| - 1 {
        assert v[i] == a[i] && v[i + 1] == a[i + 1];
      } else if i >= |a| {
        assert v[i] == b[i - |a|] && v[i + 1] == b[i - |a| + 1];
      }
    }
  }

  /** An underscore between two grouped runs changes nothing: `int()` reads
      "a_b" as it reads "ab". */
  lemma UnderscoreIgnored(a: string, b: string)
    requires GroupedDigits(a) && GroupedDigits(b)
    ensures ParseInt(a + "_" + b) == ParseInt(a + b)
    ensures ParseInt(a + b) == Some(DigitsValue(DropUnderscores(a) + DropUnderscores(b)))
  {
    var u, v := a + "_" + b, a + b;
    GroupedJoin(a, b);
    GroupedConcat(a, b);
    assert u == a + ("_" + b);
    DropUnderscoresAppend(a, "_" + b);
    assert ("_" + b)[1..] == b;
    assert DropUnderscores("_" + b) == DropUnderscores(b);
    DropUnderscoresAppend(a, b);
    StripUnspaced(u);
    StripUnspaced(v);
  }

  /** Python's `str.split(sep)` for a one-character separator. */
  function Split(s: string, sep: char): (parts: seq<string>)
    ensures |parts| > 0
    ensures forall i :: 0 <= i < |parts| ==> sep !in parts[i]
    decreases |s|
  {
    if sep !in s then [s]
    else
      var i := FirstIndex(s, sep);
      [s[..i]] + Split(s[i + 1..], sep)
  }

  function FirstIndex(s: string, c: char): (i: nat)
    requires c in s
    ensures i < |s| && s[i] == c && c !in s[..i]
  {
    if s[0] == c then 0 else 1 + FirstIndex(s[1..], c)
  }

  /** Python's `str.replace(old, new)` for single characters. */
  function ReplaceAll(s: string, from: char, to: char): (r: string)
    ensures |r| == |s|
    ensures forall i :: 0 <= i < |s| ==> r[i] == (if s[i] == from then to else s[i])
  {
    if |s| == 0 then "" else [if s[0] == from then to else s[0]] + ReplaceAll(s[1..], from, to)
  }

  /** Python's `str.replace(old, new, 1)` for single characters. */
  function ReplaceFirst(s: string, from: char, to: char): (r: string)
    ensures |r| == |s|
  {
    if from !in s then s
    else
      var i := FirstIndex(s, from);
      s[..i] + [to] + s[i + 1..]
  }

  /** `", ".join`-style concatenation with a one-character separator. */
  function Join(parts: seq<string>, sep: char): string {
    if |parts| == 0 then ""
    else if |parts| == 1 then parts[0]
    else parts[0] + [sep] + Join(parts[1..], sep)
  }
}

=== FILE: configflow.dfy ===
/** The pure parts of the options flow (`config_flow.py`): the weekday list
    typed as text, the tariff record a form builds, the YAML tariff import
    over an already loaded document, and the tariff list's delete and edit
    by menu index. */
module ConfigFlow {
  import opened Common
  import opened Recurrence

  // ---------------------------------------------------------------------
  // Weekday lists as text

  /** Python's `str.isdigit` on ASCII text. */
  predicate IsDigitString(s: string) {
    |s| > 0 && AllDigits(s)
  }

  /** The loop of `_parse_days_of_week_str`: every part that strips to
      digits, read as a number, in order. */
  function DigitParts(parts: seq<string>): (r: seq<int>)
    ensures |r| <= |parts|
    ensures forall k :: 0 <= k < |r| ==> r[k] >= 0
  {
    if |parts| == 0 then []
    else
      var p := Strip(parts[0]);
      (if IsDigitString(p) then [DigitsValue(p) as int] else []) + DigitParts(parts[1..])
  }

  /** `_parse_days_of_week_str`: blank text is no days. */
  function ParseDaysOfWeekStr(s: string): (r: seq<int>)
    ensures |Strip(s)| == 0 ==> r == []
    ensures forall k :: 0 <= k < |r| ==> r[k] >= 0
    ensures |r| <= |Split(s, ',')|
  {
    if |s| == 0 || |Strip(s)| == 0 then [] else DigitParts(Split(s, ','))
  }

  function DayTexts(days: seq<nat>): (r: seq<string>)
    ensures |r| == |days|
    ensures forall k :: 0 <= k < |r| ==> r[k] == NatToString(days[k])
  {
    if |days| == 0 then [] else [NatToString(days[0])] + DayTexts(days[1..])
  }

  /** The form default of `_tariff_schema`: the days joined by commas. */
  function DaysText(days: seq<nat>): string {
    Join(DayTexts(days), ',')
  }

  /** `Join` puts the separator between the first part and the rest. */
  lemma JoinCons(parts: seq<string>)
    requires |parts| > 1
    ensures Join(parts, ',') == parts[0] + [','] + Join(parts[1..], ',')
  {
  }

  /** Splitting at the first separator. */
  lemma SplitCons(a: string, rest: string)
    requires ',' !in a
    ensures Split(a + [','] + rest, ',') == [a] + Split(rest, ',')
  {
    var s := a + [','] + rest;
    assert s[|a|] == ',';
    assert s[..|a|] == a;
    assert FirstIndex(s, ',') == |a|;
    assert s[|a| + 1..] == rest;
  }

  lemma {:induction false} SplitJoin(parts: seq<string>)
    requires |parts| > 0
    requires forall k :: 0 <= k < |parts| ==> ',' !in parts[k]
    ensures Split(Join(parts, ','), ',') == parts
    decreases |parts|
  {
    if |parts| > 1 {
      JoinCons(parts);
      SplitCons(parts[0], Join(parts[1..], ','));
      SplitJoin(parts[1..]);
      assert parts == [parts[0]] + parts[1..];
    }
  }

  /** A number's text is one digit-only part that reads back as the number. */
  lemma DayTextReads(n: nat)
    ensures Strip(NatToString(n)) == NatToString(n)
    ensures IsDigitString(NatToString(n)) && DigitsValue(NatToString(n)) == n
  {
    StripDigits(NatToString(n));
    NatToStringRoundTrip(n);
  }

  lemma DigitPartsCons(p: string, rest: seq<string>)
    ensures DigitParts([p] + rest)
            == (if IsDigitString(Strip(p)) then [DigitsValue(Strip(p)) as int] else []) + DigitParts(rest)
  {
    assert ([p] + rest)[1..] == rest;
  }

  lemma {:induction false} DigitPartsOfDays(days: seq<nat>)
    ensures DigitParts(DayTexts(days)) == days
    decreases |days|
  {
    if |days| > 0 {
      DigitPartsOfDaysCons(days);
      DigitPartsOfDays(days[1..]);
      assert days == [days[0]] + days[1..];
    }
  }

  lemma DigitPartsOfDaysCons(days: seq<nat>)
    requires |days| > 0
    ensures DigitParts(DayTexts(days)) == [days[0] as int] + DigitParts(DayTexts(days[1..]))
  {
    var t, rest := NatToString(days[0]), DayTexts(days[1..]);
    DayTextReads(days[0]);
    assert DayTexts(days) == [t] + rest;
    DigitPartsCons(t, rest);
  }

  /** Text that opens with a digit does not strip to nothing. */
  lemma DigitLeadNotBlank(s: string)
    requires |s| > 0 && IsDigit(s[0])
    ensures |Strip(s)| > 0
  {
    assert TrimLeft(s) == s;
    TrimRightRemovesTrailing(s);
  }

  /** The edit form's round trip: the weekday list a custom tariff shows as
      its default text parses back to the same list. */
  lemma DaysOfWeekRoundTrip(days: seq<nat>)
    ensures ParseDaysOfWeekStr(DaysText(days)) == days
  {
    if |days| > 0 {
      var parts := DayTexts(days);
      assert forall k :: 0 <= k < |parts| ==> ',' !in parts[k] by {
        forall k | 0 <= k < |parts|
          ensures ',' !in parts[k]
        {
          assert AllDigits(parts[k]);
        }
      }
      SplitJoin(parts);
      DigitPartsOfDays(days);
      var s := DaysText(days);
      if |parts| == 1 {
        assert s == parts[0];
      } else {
        assert s == parts[0] + [','] + Join(parts[1..], ',');
      }
      assert s[0] == parts[0][0];
      DigitLeadNotBlank(s);
    }
  }

  // ---------------------------------------------------------------------
  // Tariffs from the form

  /** The fields of the tariff form. The form's schema makes the first six
      present; the weekday fields may be absent. */
  datatype TariffInput = TariffInput(
    name: string,
    importPrice: real,
    feedInPrice: real,
    frequency: string,
    windowStart: string,
    windowEnd: string,
    dayOfWeek: Option<int>,
    daysOfWeekStr: Option<string>)

  /** A tariff as the options store it: a name, two prices and a
      recurrence. */
  datatype ConfigTariff = ConfigTariff(name: string, importPrice: real, feedInPrice: real, recurrence: Rule)

  /** `_build_tariff_dict`. */
  function BuildTariffDict(u: TariffInput): (t: ConfigTariff)
    ensures t.name == u.name && t.importPrice == u.importPrice && t.feedInPrice == u.feedInPrice
    ensures t.recurrence.frequency == Some(u.frequency)
    ensures t.recurrence.windowStart == Some(u.windowStart) && t.recurrence.windowEnd == Some(u.windowEnd)
    ensures t.recurrence.dayOfWeek.Some? <==> u.frequency == "weekly"
    ensures t.recurrence.dayOfWeek.Some? ==> t.recurrence.dayOfWeek.value == u.dayOfWeek.GetOr(0)
    ensures t.recurrence.daysOfWeek.Some? <==> u.frequency == "custom"
    ensures t.recurrence.daysOfWeek.Some? ==> t.recurrence.daysOfWeek.value == ParseDaysOfWeekStr(u.daysOfWeekStr.GetOr(""))
    ensures t.recurrence.maximumDuration.None? && t.recurrence.minimumDuration.None? && t.recurrence.minimumBurst.None?
  {
    var rule := Rule(Some(u.frequency), Some(u.windowStart), Some(u.windowEnd), None, None, None, None, None);
    var rule' :=
      if u.frequency == "weekly" then rule.(dayOfWeek := Some(u.dayOfWeek.GetOr(0)))
      else if u.frequency == "custom" then rule.(daysOfWeek := Some(ParseDaysOfWeekStr(u.daysOfWeekStr.GetOr(""))))
      else rule;
    ConfigTariff(u.name, u.importPrice, u.feedInPrice, rule')
  }

  /** Saving the edit form unchanged keeps a custom tariff's weekdays: the
      default text the form shows builds back the same list. */
  lemma EditKeepsCustomDays(u: TariffInput, days: seq<nat>)
    requires u.frequency == "custom" && u.daysOfWeekStr == Some(DaysText(days))
    ensures BuildTariffDict(u).recurrence.daysOfWeek == Some(days)
  {
    DaysOfWeekRoundTrip(days);
  }

  // ---------------------------------------------------------------------
  // Time fields of the YAML import

  /** `_TIME_IMPORT_RE`: two-digit hour 00-23, a colon, two-digit minute
      00-59, and nothing else. */
  predicate TimeImportOk(s: string) {
    |s| == 5
    && (((s[0] == '0' || s[0] == '1') && IsDigit(s[1])) || (s[0] == '2' && '0' <= s[1] <= '3'))
    && s[2] == ':' && '0' <= s[3] <= '5' && IsDigit(s[4])
  }

  /** A two-digit text reads as tens and units. */
  lemma TwoDigitValue(a: string)
    requires |a| == 2 && AllDigits(a)
    ensures DigitsValue(a) == DigitValue(a[0]) * 10 + DigitValue(a[1])
  {
    assert a[..1][..0] == [];
    assert a[..1][0] == a[0];
    assert DigitsValue(a[..1]) == DigitValue(a[0]);
  }

  lemma DigitCharOfValue(c: char)
    requires IsDigit(c)
    ensures DigitChar(DigitValue(c)) == c
  {
  }

  lemma TwoDigitsOfValue(a: string)
    requires |a| == 2 && AllDigits(a)
    ensures DigitsValue(a) < 100 && TwoDigits(DigitsValue(a)) == a
  {
    TwoDigitValue(a);
    var v := DigitsValue(a);
    assert v / 10 == DigitValue(a[0]) && v % 10 == DigitValue(a[1]);
    DigitCharOfValue(a[0]);
    DigitCharOfValue(a[1]);
  }

  /** The accepted times are exactly the "HH:MM" renderings of the hours and
      minutes of a day. */
  lemma TimeImportOkIsClockText(s: string)
    ensures TimeImportOk(s) <==> exists h, m :: 0 <= h < 24 && 0 <= m < 60 && s == ClockText(h, m)
  {
    if TimeImportOk(s) {
      var a, b := s[..2], s[3..];
      TwoDigitsOfValue(a);
      TwoDigitsOfValue(b);
      TwoDigitValue(a);
      TwoDigitValue(b);
      assert DigitsValue(a) < 24 && DigitsValue(b) < 60;
      assert s == a + ":" + b;
      assert s == ClockText(DigitsValue(a), DigitsValue(b));
    }
    if exists h, m :: 0 <= h < 24 && 0 <= m < 60 && s == ClockText(h, m) {
      var h, m :| 0 <= h < 24 && 0 <= m < 60 && s == ClockText(h, m);
      ClockTextShape(h, m);
    }
  }

  lemma ClockTextShape(h: nat, m: nat)
    requires h < 24 && m < 60
    ensures TimeImportOk(ClockText(h, m))
  {
    var s := ClockText(h, m);
    assert s[0] == DigitChar(h / 10) && s[1] == DigitChar(h % 10);
    assert s[3] == DigitChar(m / 10) && s[4] == DigitChar(m % 10);
    assert h / 10 == 2 ==> h % 10 <= 3;
  }

  /** Every accepted time is one the recurrence expansion reads without
      raising: an imported tariff's window always parses. */
  lemma TimeImportParses(s: string)
    requires TimeImportOk(s)
    ensures ParseTime(s).Some?
  {
    var a, b := s[..2], s[3..];
    assert s == a + ":" + b;
    TwoDigitValue(a);
    TwoDigitValue(b);
    ParseClockDigits(a, b);
  }

  // ---------------------------------------------------------------------
  // YAML tariff import

  /** The value `yaml.safe_load` returns, as far as the import looks at it;
      a mapping's keys are taken as text. */
  datatype Yaml =
    | YNull
    | YBool(b: bool)
    | YInt(i: int)
    | YFloat(f: real)
    | YStr(s: string)
    | YList(items: seq<Yaml>)
    | YMap(entries: map<string, Yaml>)

  const InvalidYaml: string := "invalid_yaml"
  const InvalidYamlTime: string := "invalid_yaml_time"
  const InvalidYamlPrice: string := "invalid_yaml_price"

  /** `dict.get(key, default)`. */
  function Lookup(entries: map<string, Yaml>, key: string, default: Yaml): Yaml {
    if key in entries then entries[key] else default
  }

  /** Python's `str()` of a value: text stays text; `render` gives the
      rendering of anything else. */
  function Str(v: Yaml, render: Yaml -> string): string {
    if v.YStr? then v.s else render(v)
  }

  /** Python's `float()` of a value; `None` where it raises. `parseFloat`
      reads text the way `float` does. */
  function ToFloat(v: Yaml, parseFloat: string -> Option<real>): (r: Option<real>)
    ensures v.YInt? ==> r == Some(v.i as real)
    ensures v.YFloat? ==> r == Some(v.f)
    ensures v.YBool? ==> r == Some(if v.b then 1.0 else 0.0)
    ensures v.YStr? ==> r == parseFloat(v.s)
    ensures v.YNull? || v.YList? || v.YMap? ==> r.None?
  {
    match v
    case YInt(i) => Some(i as real)
    case YFloat(f) => Some(f)
    case YBool(b) => Some(if b then 1.0 else 0.0)
    case YStr(s) => parseFloat(s)
    case _ => None
  }

  /** The name an unnamed imported period gets: "Tariff {i+1} ({start}-{end})". */
  function DefaultName(i: nat, start: string, end: string): (r: string)
    ensures |r| > 0 && r[0] == 'T'
  {
    "Tariff " + NatToString(i + 1) + " (" + start + "-" + end + ")"
  }

  /** The stripped text of a period's field, empty when absent. */
  function Field(entries: map<string, Yaml>, key: string, render: Yaml -> string): string {
    Strip(Str(Lookup(entries, key, YStr("")), render))
  }

  /** One pass of the import loop for the period at index `i`. */
  function ConvertPeriod(i: nat, p: Yaml, render: Yaml -> string, parseFloat: string -> Option<real>): (r: Result<ConfigTariff>)
    ensures !p.YMap? ==> r == Err(InvalidYaml)
    ensures (p.YMap? && !(TimeImportOk(Field(p.entries, "start", render)) && TimeImportOk(Field(p.entries, "end", render))))
              ==> r == Err(InvalidYamlTime)
    ensures r.Err? ==> r.error == InvalidYaml || r.error == InvalidYamlTime || r.error == InvalidYamlPrice
    ensures r.Ok? ==>
              p.YMap?
              && r.value.recurrence == DailyRule(Field(p.entries, "start", render), Field(p.entries, "end", render))
              && TimeImportOk(Field(p.entries, "start", render)) && TimeImportOk(Field(p.entries, "end", render))
              && Some(r.value.importPrice) == ToFloat(Lookup(p.entries, "import_price", YInt(0)), parseFloat)
              && Some(r.value.feedInPrice) == ToFloat(Lookup(p.entries, "feed_in_price", YInt(0)), parseFloat)
              && |r.value.name| > 0
    ensures p.YMap? && TimeImportOk(Field(p.entries, "start", render)) && TimeImportOk(Field(p.entries, "end", render)) ==>
              (r.Ok? <==> ToFloat(Lookup(p.entries, "import_price", YInt(0)), parseFloat).Some?
                          && ToFloat(Lookup(p.entries, "feed_in_price", YInt(0)), parseFloat).Some?)
  {
    if !p.YMap? then Err(InvalidYaml)
    else
      var start := Field(p.entries, "start", render);
      var end := Field(p.entries, "end", render);
      if !TimeImportOk(start) || !TimeImportOk(end) then Err(InvalidYamlTime)
      else
        var importPrice := ToFloat(Lookup(p.entries, "import_price", YInt(0)), parseFloat);
        var feedInPrice := ToFloat(Lookup(p.entries, "feed_in_price", YInt(0)), parseFloat);
        if importPrice.None? || feedInPrice.None? then Err(InvalidYamlPrice)
        else
          var name := Field(p.entries, "name", render);
          var name' := if |name| == 0 then DefaultName(i, start, end) else name;
          Ok(ConfigTariff(name', importPrice.value, feedInPrice.value, DailyRule(start, end)))
  }

  /** The outcome of every period, in order. */
  function Converted(periods: seq<Yaml>, render: Yaml -> string, parseFloat: string -> Option<real>): (r: seq<Result<ConfigTariff>>)
    ensures |r| == |periods|
    ensures forall k :: 0 <= k < |r| ==> r[k] == ConvertPeriod(k, periods[k], render, parseFloat)
  {
    seq(|periods|, k requires 0 <= k < |periods| => ConvertPeriod(k, periods[k], render, parseFloat))
  }

  /** The import loop over the outcomes: every value, in order, or the first
      error. */
  function Collect<T>(rs: seq<Result<T>>): (r: Result<seq<T>>)
    ensures r.Ok? <==> forall k :: 0 <= k < |rs| ==> rs[k].Ok?
    ensures r.Ok? ==> |r.value| == |rs| && forall k :: 0 <= k < |rs| ==> rs[k] == Ok(r.value[k])
  {
    if |rs| == 0 then Ok([])
    else if rs[0].Err? then Err(rs[0].error)
    else
      var rest := Collect(rs[1..]);
      if rest.Err? then Err(rest.error)
      else
        assert forall k :: 1 <= k < |rs| ==> rs[k] == rs[1..][k - 1];
        Ok([rs[0].value] + rest.value)
  }

  /** The error of a failed loop is the error of the first failing period. */
  lemma {:induction false} CollectFirstError<T>(rs: seq<Result<T>>)
    requires Collect(rs).Err?
    ensures exists k :: 0 <= k < |rs| && rs[k] == Err(Collect(rs).error) && forall j :: 0 <= j < k ==> rs[j].Ok?
    decreases |rs|
  {
    if rs[0].Ok? {
      CollectFirstError(rs[1..]);
      var k :| 0 <= k < |rs[1..]| && rs[1..][k] == Err(Collect(rs[1..]).error) && forall j :: 0 <= j < k ==> rs[1..][j].Ok?;
      assert rs[k + 1] == Err(Collect(rs).error);
      assert forall j :: 1 <= j < k + 1 ==> rs[j] == rs[1..][j - 1];
    }
  }

  /** The period list of a loaded document: the `periods` entry of a
      mapping, or a bare list; `None` for anything else, and for an empty
      list or a `periods` that is not a list. */
  function PeriodList(data: Yaml): (r: Option<seq<Yaml>>)
    ensures r.Some? ==> |r.value| > 0
    ensures data.YList? && |data.items| > 0 ==> r == Some(data.items)
    ensures data.YList? && |data.items| == 0 ==> r.None?
    ensures data.YMap? ==>
              (r.Some? <==> "periods" in data.entries && data.entries["periods"].YList?
                            && |data.entries["periods"].items| > 0)
    ensures data.YMap? && r.Some? ==> r.value == data.entries["periods"].items
    ensures !data.YList? && !data.YMap? ==> r.None?
  {
    var periods :=
      if data.YMap? then (if "periods" in data.entries then data.entries["periods"] else YNull)
      else if data.YList? then data
      else YNull;
    if periods.YList? && |periods.items| > 0 then Some(periods.items) else None
  }

  /** `_parse_tariff_yaml` after loading: `load` is `yaml.safe_load`, with
      `None` where it raises. All or nothing: an error leaves no tariffs. */
  function ParseTariffYaml(text: string, load: string -> Option<Yaml>, render: Yaml -> string,
                           parseFloat: string -> Option<real>): (r: Result<seq<ConfigTariff>>)
    ensures |Strip(text)| == 0 ==> r == Err(InvalidYaml)
    ensures r.Err? ==> r.error == InvalidYaml || r.error == InvalidYamlTime || r.error == InvalidYamlPrice
    ensures |Strip(text)| > 0 && (load(text).None? || PeriodList(load(text).value).None?) ==> r == Err(InvalidYaml)
    ensures r.Ok? ==>
              |Strip(text)| > 0 && load(text).Some? && PeriodList(load(text).value).Some?
              && |r.value| == |PeriodList(load(text).value).value| > 0
              && forall k :: 0 <= k < |r.value| ==>
                   ConvertPeriod(k, PeriodList(load(text).value).value[k], render, parseFloat).Ok?
                   && r.value[k] == ConvertPeriod(k, PeriodList(load(text).value).value[k], render, parseFloat).value
  {
    if |text| == 0 || |Strip(text)| == 0 then Err(InvalidYaml)
    else
      match load(text)
      case None => Err(InvalidYaml)
      case Some(data) =>
        match PeriodList(data)
        case None => Err(InvalidYaml)
        case Some(periods) => ImportPeriods(periods, render, parseFloat)
  }

  /** The import loop over a period list: every period converted, in order,
      or the error of the first that fails. */
  function ImportPeriods(periods: seq<Yaml>, render: Yaml -> string, parseFloat: string -> Option<real>)
    : (r: Result<seq<ConfigTariff>>)
    ensures r.Err? ==> r.error == InvalidYaml || r.error == InvalidYamlTime || r.error == InvalidYamlPrice
    ensures r.Ok? ==>
              |r.value| == |periods|
              && forall k :: 0 <= k < |r.value| ==>
                   ConvertPeriod(k, periods[k], render, parseFloat).Ok?
                   && r.value[k] == ConvertPeriod(k, periods[k], render, parseFloat).value
  {
    var rs := Converted(periods, render, parseFloat);
    var r := Collect(rs);
    if r.Err? then
      CollectFirstError(rs);
      r
    else r
  }

  /** Every imported tariff is a named daily tariff whose window the
      recurrence expansion reads without raising. */
  lemma ImportedTariffsExpand(text: string, load: string -> Option<Yaml>, render: Yaml -> string,
                              parseFloat: string -> Option<real>, k: nat)
    requires ParseTariffYaml(text, load, render, parseFloat).Ok?
    requires k < |ParseTariffYaml(text, load, render, parseFloat).value|
    ensures var t := ParseTariffYaml(text, load, render, parseFloat).value[k];
            t.recurrence.frequency == Some("daily") && |t.name| > 0
            && ParseTime(t.recurrence.windowStart.value).Some? && ParseTime(t.recurrence.windowEnd.value).Some?
  {
    var periods := PeriodList(load(text).value).value;
    var r := ConvertPeriod(k, periods[k], render, parseFloat);
    assert r.Ok?;
    TimeImportParses(Field(periods[k].entries, "start", render));
    TimeImportParses(Field(periods[k].entries, "end", render));
  }

  /** A bare list and the same list under `periods` import alike. */
  lemma BareListLikePeriods(items: seq<Yaml>, other: map<string, Yaml>)
    ensures PeriodList(YList(items)) == PeriodList(YMap(other["periods" := YList(items)]))
  {
  }

  // ---------------------------------------------------------------------
  // The tariff list's menu

  /** `delete_<i>`: the tariff at `idx` goes; any other index leaves the
      list alone. */
  function DeleteTariff(ts: seq<ConfigTariff>, idx: int): (r: seq<ConfigTariff>)
    ensures 0 <= idx < |ts| ==> |r| == |ts| - 1 && r[..idx] == ts[..idx] && r[idx..] == ts[idx + 1..]
    ensures !(0 <= idx < |ts|) ==> r == ts
  {
    if 0 <= idx < |ts| then ts[..idx] + ts[idx + 1..] else ts
  }

  /** `edit_<i>` followed by a valid form: the tariff at `idx` is replaced;
      an index out of range changes nothing. */
  function EditTariff(ts: seq<ConfigTariff>, idx: int, t: ConfigTariff): (r: seq<ConfigTariff>)
    ensures |r| == |ts|
    ensures forall k :: 0 <= k < |ts| ==> r[k] == (if k == idx then t else ts[k])
  {
    if 0 <= idx < |ts| then ts[idx := t] else ts
  }

  /** A delete loses exactly the deleted tariff. */
  lemma DeleteLosesOne(ts: seq<ConfigTariff>, idx: int)
    requires 0 <= idx < |ts|
    ensures multiset(DeleteTariff(ts, idx)) + multiset{ts[idx]} == multiset(ts)
  {
    assert ts == ts[..idx] + [ts[idx]] + ts[idx + 1..];
  }

  /** Editing a tariff and then deleting it is deleting it. */
  lemma EditThenDelete(ts: seq<ConfigTariff>, idx: int, t: ConfigTariff)
    ensures DeleteTariff(EditTariff(ts, idx, t), idx) == DeleteTariff(ts, idx)
  {
    if 0 <= idx < |ts| {
      var e := EditTariff(ts, idx, t);
      assert e[..idx] == ts[..idx];
      assert e[idx + 1..] == ts[idx + 1..];
    }
  }

  /** The index in a menu action `<verb>_<i>`: `int()` of the text after the
      first underscore. */
  function ActionIndex(action: string): (r: Option<int>)
    ensures '_' !in action ==> r.None?
  {
    if '_' !in action then None else ParseInt(action[FirstIndex(action, '_') + 1..])
  }

  /** The menu offers `edit_<i>` and `delete_<i>` for each listed tariff;
      reading the index back gives that tariff's position. */
  lemma MenuActionIndex(verb: string, i: nat)
    requires '_' !in verb
    ensures ActionIndex(verb + "_" + NatToString(i)) == Some(i)
  {
    var a := verb + "_" + NatToString(i);
    assert a[|verb|] == '_';
    assert a[..|verb|] == verb;
    assert FirstIndex(a, '_') == |verb|;
    assert a[|verb| + 1..] == NatToString(i);
    StripDigits(NatToString(i));
    NatToStringRoundTrip(i);
  }
}

=== FILE: coordinator.dfy ===
/** One refresh of the coordinator (`coordinator.py` `_async_update_data`):
    the horizon, the battery reading, the assembled request and the
    reconciled response. Home Assistant's state machine, the job registry,
    the solar forecast and the optimizer are parameters. */
module Coordinator {
  import opened Common
  import opened Duration
  import opened Schedule
  import opened Tariffs
  import opened Jobs
  import opened Solar
  import opened Elapsed
  import opened ActiveRuns
  import opened Adjust

  const DefaultSlotDuration: string := "5m"
  const DefaultHorizonHours: int := 24
  const DefaultUpdateIntervalMinutes: nat := 15

  /** `resolve_soc_kwh`: a percentage is read against the battery capacity;
      any other unit is taken to be kWh already. */
  function ResolveSocKwh(soc: real, unit: string, capacity: real): real {
    if unit == "%" then (soc / 100.0) * capacity else soc
  }

  /** A percentage reading lands between empty and full, and a kWh reading
      is taken as it is. */
  lemma ResolveSocKwhRange(soc: real, unit: string, capacity: real)
    ensures unit != "%" ==> ResolveSocKwh(soc, unit, capacity) == soc
    ensures unit == "%" ==> ResolveSocKwh(soc, unit, capacity) * 100.0 == soc * capacity
    ensures unit == "%" && 0.0 <= soc <= 100.0 && capacity >= 0.0 ==>
              0.0 <= ResolveSocKwh(soc, unit, capacity) <= capacity
  {
    if unit == "%" && 0.0 <= soc <= 100.0 && capacity >= 0.0 {
      assert (soc / 100.0) * capacity <= 1.0 * capacity;
    }
  }

  /** The state of the configured battery sensor: its state text, the value
      `float()` gives for it (`None` when it raises) and its unit. */
  datatype SocState = SocState(state: string, asNumber: Option<real>, unit: Option<string>)

  /** Step 1: the state of charge in kWh, 0 when no sensor is configured,
      the sensor is missing, unknown or unavailable, or its state is not a
      number. */
  function ReadSoc(socEntity: string, st: Option<SocState>, capacity: real): (r: real)
    ensures socEntity == "" || st.None? ==> r == 0.0
    ensures st.Some? && (st.value.state == "unknown" || st.value.state == "unavailable") ==> r == 0.0
    ensures st.Some? && st.value.asNumber.None? ==> r == 0.0
    ensures socEntity != "" && st.Some? && st.value.state != "unknown" && st.value.state != "unavailable"
            && st.value.asNumber.Some? ==>
              r == ResolveSocKwh(st.value.asNumber.value, st.value.unit.GetOr(""), capacity)
  {
    if socEntity == "" || st.None? then 0.0
    else if st.value.state == "unknown" || st.value.state == "unavailable" then 0.0
    else if st.value.asNumber.None? then 0.0
    else ResolveSocKwh(st.value.asNumber.value, st.value.unit.GetOr(""), capacity)
  }

  /** The horizon end: `hours` after now, or when extending, the midnight
      that ends the day the plain horizon ends in. */
  function HorizonEnd(now: int, hours: int, extend: bool): (he: int)
    ensures !extend ==> he == now + hours * HourSeconds
    ensures extend ==> he % DaySeconds == 0
    ensures extend ==> now + hours * HourSeconds < he <= now + hours * HourSeconds + DaySeconds
    ensures extend ==> DayOf(he) == DayOf(now + hours * HourSeconds) + 1
  {
    var plain := now + hours * HourSeconds;
    if extend then Midnight(DayOf(plain + DaySeconds)) else plain
  }

  /** The options the refresh reads; `None` marks an absent option. The
      default of `extend_to_end_of_day` is not visible, so it is given
      resolved. */
  datatype Options = Options(
    slotDuration: Option<string>,
    horizonHours: Option<int>,
    extendToEndOfDay: bool,
    updateInterval: Option<nat>,
    batteryCapacity: Option<real>,
    socEntity: Option<string>,
    tariffPeriods: Option<seq<TariffDef>>,
    solarProvider: Option<string>)

  /** What the refresh reads from its surroundings: the instant, the battery
      sensor, the solar forecast (`None` when fetching it raised), the job
      definitions and registry entries, and the entities' states. */
  datatype Env = Env(
    now: int,
    soc: Option<SocState>,
    forecast: Option<map<int, real>>,
    jobs: seq<JobDef>,
    loads: seq<LoadEntity>,
    states: map<string, string>)

  /** The parts of the optimizer request the model follows. */
  datatype Request = Request(
    stateOfCharge: real,
    batteryCapacity: real,
    periods: seq<TariffPeriod>,
    boxes: seq<PowerBox>,
    horizonStart: int,
    horizonEnd: int,
    slotDuration: string)

  function SlotSeconds(opts: Options): nat {
    ParseSlotDurationSeconds(opts.slotDuration.GetOr(DefaultSlotDuration))
  }

  /** Step 3: the solar boxes, none when no provider is configured or the
      forecast could not be fetched. */
  function SolarPart(opts: Options, env: Env, hs: int, he: int): (r: seq<PowerBox>)
    ensures forall k :: 0 <= k < |r| ==> r[k].entity == SolarEntity && BoxInHorizon(r[k], hs, he)
  {
    if opts.solarProvider.GetOr("none") != "none" && env.forecast.Some? then SolarBoxes(env.forecast.value, hs, he)
    else []
  }

  /** Steps 1 to 6 after the tracker update: the request, or the error the
      tariff or job expansion raised. */
  function BuildRequest(tr: Tracker, data: Option<Response>, opts: Options, env: Env): (r: Result<Request>)
    ensures r.Ok? ==> r.value.horizonStart == env.now
    ensures r.Ok? ==> r.value.horizonEnd == HorizonEnd(env.now, opts.horizonHours.GetOr(DefaultHorizonHours), opts.extendToEndOfDay)
    ensures r.Ok? ==> r.value.slotDuration == opts.slotDuration.GetOr(DefaultSlotDuration)
  {
    var slot := SlotSeconds(opts);
    var hs := env.now;
    var he := HorizonEnd(env.now, opts.horizonHours.GetOr(DefaultHorizonHours), opts.extendToEndOfDay);
    var capacity := opts.batteryCapacity.GetOr(0.0);
    var soc := ReadSoc(opts.socEntity.GetOr(""), env.soc, capacity);
    var periods :- ExpandTariffs(opts.tariffPeriods.GetOr([]), hs, he);
    var jobBoxes :- ExpandJobs(env.jobs, hs, he);
    var boxes := RequestBoxes(tr, data, opts, env, he, jobBoxes);
    Ok(Request(soc, capacity, periods, boxes, hs, he, opts.slotDuration.GetOr(DefaultSlotDuration)))
  }

  /** Steps 5 to 5c: solar boxes then job boxes, adjusted, then the injected
      loads. */
  function RequestBoxes(tr: Tracker, data: Option<Response>, opts: Options, env: Env, he: int, jobBoxes: seq<PowerBox>): seq<PowerBox> {
    var slot := SlotSeconds(opts);
    var runs := FindActiveRuns(data, env.now, slot);
    var adjusted := AdjustBoxes(SolarPart(opts, env, env.now, he) + jobBoxes, tr, runs, slot);
    var interval := opts.updateInterval.GetOr(DefaultUpdateIntervalMinutes) * 60;
    Inject(adjusted, env.loads, env.states, env.now, interval)
  }

  /** The result of one refresh: the tracker afterwards and the new data or
      the failure. */
  datatype Cycle = Cycle(tracker: Tracker, outcome: Result<Response>)

  /** `_async_update_data` with the optimizer as `api`. */
  function Refresh(tr: Tracker, data: Option<Response>, opts: Options, env: Env, api: Request -> Result<Response>): (c: Cycle)
    ensures c.tracker.trackingDay == Some(DayOf(env.now)) && c.tracker.lastUpdate == Some(env.now)
  {
    var slot := SlotSeconds(opts);
    var tr' := UpdateElapsed(tr, data, env.now, slot);
    match BuildRequest(tr', data, opts, env)
    case Err(e) => Cycle(tr', Err(e))
    case Ok(req) =>
      match api(req)
      case Err(e) => Cycle(tr', Err(e))
      case Ok(resp) => Cycle(tr', Ok(MergeResponse(resp, FindActiveRuns(data, env.now, slot), slot)))
  }

  /** The elapsed counts are updated before the optimizer is called, so a
      failed call does not roll them back: whatever the optimizer does, the
      tracker after a refresh is the updated one. */
  lemma ElapsedSurvivesFailure(tr: Tracker, data: Option<Response>, opts: Options, env: Env, api: Request -> Result<Response>, entity: string)
    ensures Refresh(tr, data, opts, env, api).tracker == UpdateElapsed(tr, data, env.now, SlotSeconds(opts))
    ensures !Rollover(tr, env.now) ==>
              GetElapsed(tr, entity) <= GetElapsed(Refresh(tr, data, opts, env, api).tracker, entity)
  {
    if !Rollover(tr, env.now) {
      UpdateMonotone(tr, data, env.now, SlotSeconds(opts), entity);
    }
  }

  /** A refresh fails exactly when an expansion raises or the optimizer
      call fails; otherwise the data is the optimizer's response with the
      preserved runs merged in. */
  lemma RefreshOutcome(tr: Tracker, data: Option<Response>, opts: Options, env: Env, api: Request -> Result<Response>)
    ensures var tr' := UpdateElapsed(tr, data, env.now, SlotSeconds(opts));
            var req := BuildRequest(tr', data, opts, env);
            var c := Refresh(tr, data, opts, env, api);
            c.outcome.Ok? <==> req.Ok? && api(req.value).Ok?
    ensures var tr' := UpdateElapsed(tr, data, env.now, SlotSeconds(opts));
            var req := BuildRequest(tr', data, opts, env);
            var c := Refresh(tr, data, opts, env, api);
            c.outcome.Ok? ==>
              c.outcome.value
              == MergeResponse(api(req.value).value, FindActiveRuns(data, env.now, SlotSeconds(opts)), SlotSeconds(opts))
  {
  }

  /** The request opens with the solar boxes, unadjusted and in forecast
      order. */
  lemma SolarBoxesLeadRequest(tr: Tracker, data: Option<Response>, opts: Options, env: Env)
    ensures var he := HorizonEnd(env.now, opts.horizonHours.GetOr(DefaultHorizonHours), opts.extendToEndOfDay);
            var s := SolarPart(opts, env, env.now, he);
            var req := BuildRequest(tr, data, opts, env);
            req.Ok? ==> |s| <= |req.value.boxes| && req.value.boxes[..|s|] == s
  {
    if BuildRequest(tr, data, opts, env).Err? {
      return;
    }
    var he := HorizonEnd(env.now, opts.horizonHours.GetOr(DefaultHorizonHours), opts.extendToEndOfDay);
    var jobBoxes := ExpandJobs(env.jobs, env.now, he).value;
    assert BuildRequest(tr, data, opts, env).value.boxes == RequestBoxes(tr, data, opts, env, he, jobBoxes);
    SolarLeads(tr, data, opts, env, he, jobBoxes);
  }

  lemma SolarLeads(tr: Tracker, data: Option<Response>, opts: Options, env: Env, he: int, jobBoxes: seq<PowerBox>)
    ensures var s := SolarPart(opts, env, env.now, he);
            var boxes := RequestBoxes(tr, data, opts, env, he, jobBoxes);
            |s| <= |boxes| && boxes[..|s|] == s
  {
    var slot := SlotSeconds(opts);
    var s := SolarPart(opts, env, env.now, he);
    var runs := FindActiveRuns(data, env.now, slot);
    AdjustBoxesAppend(s, jobBoxes, tr, runs, slot);
    assert forall k :: 0 <= k < |s| ==> Untouched(s[k], tr);
    UntouchedPassThrough(s, tr, runs, slot);
    var adjusted := AdjustBoxes(s + jobBoxes, tr, runs, slot);
    assert adjusted[..|s|] == s;
    var interval := opts.updateInterval.GetOr(DefaultUpdateIntervalMinutes) * 60;
    var boxes := Inject(adjusted, env.loads, env.states, env.now, interval);
    assert boxes[..|s|] == boxes[..|adjusted|][..|s|];
  }
}

=== FILE: duration.dfy ===
/** Compact duration strings (`const.py`): the `[Nh][Nm][Ns]` grammar, its
    parser, and `parse_slot_duration_seconds` with its 300-second fallback. */
module Duration {
  import opened Common

  const DefaultSeconds: nat := 300

  /** The three optional capture groups of the duration pattern: each is
      absent or a non-empty run of decimal digits. */
  datatype Groups = Groups(hours: Option<string>, minutes: Option<string>, seconds: Option<string>)

  predicate GroupOk(g: Option<string>) {
    g.Some? ==> |g.value| > 0 && AllDigits(g.value)
  }

  predicate WellFormed(g: Groups) {
    GroupOk(g.hours) && GroupOk(g.minutes) && GroupOk(g.seconds)
  }

  function Part(g: Option<string>, unit: char): string {
    if g.Some? then g.value + [unit] else ""
  }

  /** The language of the anchored pattern `(?:(\d+)h)?(?:(\d+)m)?(?:(\d+)s)?$`:
      a string matches with groups `g` exactly when it is `Render(g)`. */
  function Render(g: Groups): string {
    Part(g.hours, 'h') + Part(g.minutes, 'm') + Part(g.seconds, 's')
  }

  /** Number of leading ASCII digits of `s`. */
  function LeadingDigits(s: string): (k: nat)
    ensures k <= |s|
    ensures AllDigits(s[..k])
    ensures k < |s| ==> !IsDigit(s[k])
  {
    if |s| > 0 && IsDigit(s[0]) then
      var k := 1 + LeadingDigits(s[1..]);
      assert s[..k] == [s[0]] + s[1..][..k - 1];
      k
    else 0
  }

  /** One optional `(\d+)<unit>` component at the front of `s`: the digits
      and the rest, or nothing consumed. */
  function Component(s: string, unit: char): (r: (Option<string>, string))
    requires !IsDigit(unit)
    ensures GroupOk(r.0)
    ensures s == Part(r.0, unit) + r.1
  {
    var k := LeadingDigits(s);
    if 0 < k < |s| && s[k] == unit then
      assert s == s[..k] + [unit] + s[k + 1..];
      (Some(s[..k]), s[k + 1..])
    else (None, s)
  }

  /** The groups of a full match of the duration pattern, or None when the
      string does not match as a whole. */
  function ParseGroups(s: string): (r: Option<Groups>)
    ensures r.Some? ==> WellFormed(r.value) && Render(r.value) == s
  {
    var c1 := Component(s, 'h');
    var c2 := Component(c1.1, 'm');
    var c3 := Component(c2.1, 's');
    if c3.1 == "" then
      JoinThree(s, Part(c1.0, 'h'), c1.1, Part(c2.0, 'm'), c2.1, Part(c3.0, 's'));
      Some(Groups(c1.0, c2.0, c3.0))
    else None
  }

  /** Whether `s` opens with a `(\d+)<unit>` component. */
  predicate OpensWith(s: string, unit: char) {
    var k := LeadingDigits(s);
    0 < k < |s| && s[k] == unit
  }

  lemma PartOpens(g: Option<string>, unit: char, rest: string)
    requires GroupOk(g) && !IsDigit(unit) && g.Some?
    ensures LeadingDigits(Part(g, unit) + rest) == |g.value|
    ensures OpensWith(Part(g, unit) + rest, unit)
  {
    var d := g.value;
    var s := Part(g, unit) + rest;
    var k := LeadingDigits(s);
    assert s == d + [unit] + rest;
    assert s[..|d|] == d;
    assert k >= |d|;
    assert s[|d|] == unit;
    assert forall i :: 0 <= i < k ==> IsDigit(s[i]) by {
      forall i | 0 <= i < k
        ensures IsDigit(s[i])
      {
        assert s[..k][i] == s[i];
      }
    }
  }

  lemma JoinThree(s: string, a: string, s1: string, b: string, s2: string, c: string)
    requires s == a + s1 && s1 == b + s2 && s2 == c + ""
    ensures s == a + b + c
  {
    assert s2 == c;
  }

  lemma ComponentOfPart(g: Option<string>, unit: char, rest: string)
    requires GroupOk(g) && !IsDigit(unit)
    requires g.None? ==> !OpensWith(rest, unit)
    ensures Component(Part(g, unit) + rest, unit) == (g, rest)
  {
    var s := Part(g, unit) + rest;
    if g.Some? {
      PartOpens(g, unit, rest);
      var d := g.value;
      assert s == d + [unit] + rest;
      assert s[|d| + 1..] == rest;
      assert s[..|d|] == d;
    } else {
      assert s == rest;
    }
  }

  /** Every well-formed group triple is recovered from its rendering, so the
      parser accepts exactly the pattern's language. */
  lemma {:induction false} ParseRender(g: Groups)
    requires WellFormed(g)
    ensures ParseGroups(Render(g)) == Some(g)
  {
    HoursComponent(g);
    MinutesComponent(g);
    SecondsComponent(g);
  }

  lemma HoursComponent(g: Groups)
    requires WellFormed(g)
    ensures Component(Render(g), 'h') == (g.hours, Part(g.minutes, 'm') + Part(g.seconds, 's'))
  {
    var sTail := Part(g.seconds, 's');
    var mTail := Part(g.minutes, 'm') + sTail;
    assert Render(g) == Part(g.hours, 'h') + mTail;
    if g.minutes.Some? {
      PartOpens(g.minutes, 'm', sTail);
    } else if g.seconds.Some? {
      assert mTail == sTail + "";
      PartOpens(g.seconds, 's', "");
    }
    ComponentOfPart(g.hours, 'h', mTail);
  }

  lemma MinutesComponent(g: Groups)
    requires WellFormed(g)
    ensures Component(Part(g.minutes, 'm') + Part(g.seconds, 's'), 'm') == (g.minutes, Part(g.seconds, 's'))
  {
    var sTail := Part(g.seconds, 's');
    if g.seconds.Some? {
      assert sTail == sTail + "";
      PartOpens(g.seconds, 's', "");
    }
    ComponentOfPart(g.minutes, 'm', sTail);
  }

  lemma SecondsComponent(g: Groups)
    requires WellFormed(g)
    ensures Component(Part(g.seconds, 's'), 's') == (g.seconds, "")
  {
    assert Part(g.seconds, 's') == Part(g.seconds, 's') + "";
    ComponentOfPart(g.seconds, 's', "");
  }

  /** `ParseGroups(s) == Some(g)` exactly when `s` is the rendering of the
      well-formed groups `g`. */
  lemma ParseGroupsCharacterized(s: string, g: Groups)
    ensures ParseGroups(s) == Some(g) <==> WellFormed(g) && s == Render(g)
  {
    if WellFormed(g) && s == Render(g) {
      ParseRender(g);
    }
  }

  function GroupValue(g: Option<string>): nat
    requires GroupOk(g)
  {
    if g.Some? then DigitsValue(g.value) else 0
  }

  function TotalSeconds(g: Groups): nat
    requires WellFormed(g)
  {
    GroupValue(g.hours) * 3600 + GroupValue(g.minutes) * 60 + GroupValue(g.seconds)
  }

  predicate NoGroups(g: Groups) {
    g.hours.None? && g.minutes.None? && g.seconds.None?
  }

  /** `parse_slot_duration_seconds`: the empty string, a non-match after
      stripping, a match with no component, and a zero total all give 300;
      otherwise the total of the components. The result is always positive. */
  function ParseSlotDurationSeconds(s: string): (r: nat)
    ensures r > 0
    ensures s == "" ==> r == DefaultSeconds
    ensures ParseGroups(Strip(s)).None? ==> r == DefaultSeconds
    ensures forall g :: s != "" && ParseGroups(Strip(s)) == Some(g) ==>
              r == (if NoGroups(g) || TotalSeconds(g) == 0 then DefaultSeconds else TotalSeconds(g))
  {
    if s == "" then DefaultSeconds
    else
      match ParseGroups(Strip(s))
      case None => DefaultSeconds
      case Some(g) =>
        if NoGroups(g) then DefaultSeconds
        else
          var total := TotalSeconds(g);
          if total > 0 then total else DefaultSeconds
  }

  lemma StripUnchanged(s: string)
    requires |s| > 0 && !IsSpace(s[0]) && !IsSpace(s[|s| - 1])
    ensures Strip(s) == s
  {
  }

  /** Any rendering with at least one component parses to its total, or to
      the 300-second fallback when the total is zero. */
  lemma ParseRendered(g: Groups)
    requires WellFormed(g) && !NoGroups(g)
    ensures ParseSlotDurationSeconds(Render(g))
            == (if TotalSeconds(g) > 0 then TotalSeconds(g) else DefaultSeconds)
  {
    var s := Render(g);
    var first := if g.hours.Some? then g.hours else if g.minutes.Some? then g.minutes else g.seconds;
    assert s[0] == first.value[0];
    var last := if g.seconds.Some? then 's' else if g.minutes.Some? then 'm' else 'h';
    assert s[|s| - 1] == last;
    StripUnchanged(s);
    ParseRender(g);
  }

  /** A rendered `<N>s` string (the form solar boxes use) parses back to N
      when N is positive. */
  lemma SecondsTextRoundTrip(n: nat)
    requires n > 0
    ensures ParseSlotDurationSeconds(NatToString(n) + "s") == n
  {
    var g := Groups(None, None, Some(NatToString(n)));
    assert Render(g) == NatToString(n) + "s";
    ParseRendered(g);
    NatToStringRoundTrip(n);
  }

  /** A full `<H>h<M>m<S>s` rendering parses to H*3600 + M*60 + S, or to the
      300-second fallback when that total is zero. */
  lemma HmsRoundTrip(h: nat, m: nat, x: nat)
    ensures ParseSlotDurationSeconds(NatToString(h) + "h" + NatToString(m) + "m" + NatToString(x) + "s")
            == (if h * 3600 + m * 60 + x > 0 then h * 3600 + m * 60 + x else DefaultSeconds)
  {
    var g := Groups(Some(NatToString(h)), Some(NatToString(m)), Some(NatToString(x)));
    var total := h * 3600 + m * 60 + x;
    assert WellFormed(g) && !NoGroups(g);
    HmsTotal(h, m, x);
    assert ParseSlotDurationSeconds(Render(g)) == (if total > 0 then total else DefaultSeconds) by {
      ParseRendered(g);
    }
    HmsRender(h, m, x);
  }

  lemma HmsRender(h: nat, m: nat, x: nat)
    ensures Render(Groups(Some(NatToString(h)), Some(NatToString(m)), Some(NatToString(x))))
            == NatToString(h) + "h" + NatToString(m) + "m" + NatToString(x) + "s"
  {
    RenderAll(NatToString(h), NatToString(m), NatToString(x));
  }

  lemma RenderAll(a: string, b: string, c: string)
    ensures Render(Groups(Some(a), Some(b), Some(c))) == a + "h" + b + "m" + c + "s"
  {
    assert Part(Some(a), 'h') == a + "h";
    assert Part(Some(b), 'm') == b + "m";
    assert Part(Some(c), 's') == c + "s";
  }

  lemma HmsTotal(h: nat, m: nat, x: nat)
    ensures TotalSeconds(Groups(Some(NatToString(h)), Some(NatToString(m)), Some(NatToString(x))))
            == h * 3600 + m * 60 + x
  {
    NatToStringRoundTrip(h);
    NatToStringRoundTrip(m);
    NatToStringRoundTrip(x);
  }
}

=== FILE: elapsed.dfy ===
/** The per-day elapsed-run tracker of the coordinator (`coordinator.py`
    `get_elapsed`, `set_elapsed`, `_update_elapsed`): how many seconds each
    entity has already run today according to the previous schedule. */
module Elapsed {
  import opened Common
  import opened Schedule

  /** `_elapsed_today`, `_tracking_date` and `_last_elapsed_update`. */
  datatype Tracker = Tracker(elapsed: map<string, real>, trackingDay: Option<int>, lastUpdate: Option<int>)

  /** The tracker of a coordinator that has not refreshed yet. */
  const Initial: Tracker := Tracker(map[], None, None)

  /** `get_elapsed`: an entity without an entry has run 0 seconds. */
  function GetElapsed(tr: Tracker, entity: string): real {
    if entity in tr.elapsed then tr.elapsed[entity] else 0.0
  }

  /** `set_elapsed`: overwrite one entity's count. */
  function SetElapsed(tr: Tracker, entity: string, seconds: real): (r: Tracker)
    ensures GetElapsed(r, entity) == seconds
    ensures forall other :: other != entity ==> GetElapsed(r, other) == GetElapsed(tr, other)
    ensures r.trackingDay == tr.trackingDay && r.lastUpdate == tr.lastUpdate
  {
    tr.(elapsed := tr.elapsed[entity := seconds])
  }

  /** The slot starting at `s` ended inside the window `(lo, hi]`. */
  predicate EndsIn(s: int, lo: int, hi: int, slot: nat) {
    lo < s + slot <= hi
  }

  /** How many of `slots` ended inside `(lo, hi]`. */
  function CountEnding(slots: seq<int>, lo: int, hi: int, slot: nat): (n: nat)
    ensures n <= |slots|
    ensures hi <= lo ==> n == 0
  {
    if |slots| == 0 then 0
    else (if EndsIn(slots[0], lo, hi, slot) then 1 else 0) + CountEnding(slots[1..], lo, hi, slot)
  }

  /** The slots an entity is credited with: those of every assignment for it
      that ended inside the window, unless the entity is an internal one. */
  function Credit(assignments: seq<Assignment>, entity: string, lo: int, hi: int, slot: nat): (n: nat)
    ensures IsSentinel(entity) ==> n == 0
    ensures hi <= lo ==> n == 0
  {
    if |assignments| == 0 then 0
    else
      var a := assignments[0];
      (if a.entity == entity && !IsSentinel(entity) then CountEnding(a.slots, lo, hi, slot) else 0)
      + Credit(assignments[1..], entity, lo, hi, slot)
  }

  /** The inner loop over one assignment's slots: each slot ending inside the
      window adds `slot` seconds to the entity's count. */
  function CreditSlots(el: map<string, real>, entity: string, slots: seq<int>, lo: int, hi: int, slot: nat): map<string, real>
    decreases |slots|
  {
    if |slots| == 0 then el
    else
      var el' := if EndsIn(slots[0], lo, hi, slot) then el[entity := (if entity in el then el[entity] else 0.0) + slot as real] else el;
      CreditSlots(el', entity, slots[1..], lo, hi, slot)
  }

  /** The outer loop over the previous schedule's assignments. */
  function Accumulate(el: map<string, real>, assignments: seq<Assignment>, lo: int, hi: int, slot: nat): map<string, real>
    decreases |assignments|
  {
    if |assignments| == 0 then el
    else
      var a := assignments[0];
      var el' := if IsSentinel(a.entity) then el else CreditSlots(el, a.entity, a.slots, lo, hi, slot);
      Accumulate(el', assignments[1..], lo, hi, slot)
  }

  function Get(el: map<string, real>, entity: string): real {
    if entity in el then el[entity] else 0.0
  }

  lemma {:induction false} CreditSlotsExact(el: map<string, real>, entity: string, slots: seq<int>, lo: int, hi: int, slot: nat)
    ensures Get(CreditSlots(el, entity, slots, lo, hi, slot), entity)
            == Get(el, entity) + (CountEnding(slots, lo, hi, slot) * slot) as real
    ensures forall other :: other != entity ==>
              Get(CreditSlots(el, entity, slots, lo, hi, slot), other) == Get(el, other)
    ensures forall other :: other in el ==> other in CreditSlots(el, entity, slots, lo, hi, slot)
    decreases |slots|
  {
    if |slots| > 0 {
      var el' := if EndsIn(slots[0], lo, hi, slot) then el[entity := Get(el, entity) + slot as real] else el;
      CreditSlotsExact(el', entity, slots[1..], lo, hi, slot);
    }
  }

  /** Every entity's count grows by exactly its credited slots. */
  lemma {:induction false} AccumulateExact(el: map<string, real>, assignments: seq<Assignment>, lo: int, hi: int, slot: nat, entity: string)
    ensures Get(Accumulate(el, assignments, lo, hi, slot), entity)
            == Get(el, entity) + (Credit(assignments, entity, lo, hi, slot) * slot) as real
    decreases |assignments|
  {
    if |assignments| > 0 {
      var a := assignments[0];
      var el' := if IsSentinel(a.entity) then el else CreditSlots(el, a.entity, a.slots, lo, hi, slot);
      var c0 := if a.entity == entity && !IsSentinel(entity) then CountEnding(a.slots, lo, hi, slot) else 0;
      var c1 := Credit(assignments[1..], entity, lo, hi, slot);
      if !IsSentinel(a.entity) {
        CreditSlotsExact(el, a.entity, a.slots, lo, hi, slot);
      }
      assert Get(el', entity) == Get(el, entity) + (c0 * slot) as real;
      AccumulateExact(el', assignments[1..], lo, hi, slot, entity);
      assert Credit(assignments, entity, lo, hi, slot) == c0 + c1;
      SplitProduct(c0, c1, slot);
    }
  }

  lemma SplitProduct(a: nat, b: nat, k: nat)
    ensures ((a + b) * k) as real == (a * k) as real + (b * k) as real
  {
    assert (a + b) * k == a * k + b * k;
  }

  /** Accumulation only ever adds entries. */
  lemma {:induction false} AccumulateKeepsKeys(el: map<string, real>, assignments: seq<Assignment>, lo: int, hi: int, slot: nat)
    ensures forall e :: e in el ==> e in Accumulate(el, assignments, lo, hi, slot)
    decreases |assignments|
  {
    if |assignments| > 0 {
      var a := assignments[0];
      var el' := if IsSentinel(a.entity) then el else CreditSlots(el, a.entity, a.slots, lo, hi, slot);
      if !IsSentinel(a.entity) {
        CreditSlotsExact(el, a.entity, a.slots, lo, hi, slot);
      }
      AccumulateKeepsKeys(el', assignments[1..], lo, hi, slot);
    }
  }

  /** A new day, or the first refresh ever, resets the tracker. */
  predicate Rollover(tr: Tracker, now: int) {
    tr.trackingDay.None? || tr.trackingDay.value != DayOf(now)
  }

  /** `_update_elapsed`. On a new day the counts are cleared and nothing is
      credited; without a previous schedule or previous update only the
      update time moves; otherwise every slot of the previous schedule that
      ended since the last update is credited. */
  function UpdateElapsed(tr: Tracker, data: Option<Response>, now: int, slot: nat): (r: Tracker)
    ensures r.trackingDay == Some(DayOf(now)) && r.lastUpdate == Some(now)
    ensures Rollover(tr, now) ==> r.elapsed == map[]
    ensures !Rollover(tr, now) && (data.None? || tr.lastUpdate.None?) ==> r.elapsed == tr.elapsed
  {
    if Rollover(tr, now) then Tracker(map[], Some(DayOf(now)), Some(now))
    else if data.None? || tr.lastUpdate.None? then tr.(lastUpdate := Some(now))
    else
      Tracker(Accumulate(tr.elapsed, data.value.assignments, tr.lastUpdate.value, now, slot), tr.trackingDay, Some(now))
  }

  /** Within a day, every count grows by exactly `slot` seconds per slot of
      that entity which ended after the last update and no later than now;
      internal entities are never credited. */
  lemma UpdateCredits(tr: Tracker, data: Option<Response>, now: int, slot: nat, entity: string)
    requires !Rollover(tr, now) && data.Some? && tr.lastUpdate.Some?
    ensures GetElapsed(UpdateElapsed(tr, data, now, slot), entity)
            == GetElapsed(tr, entity) + (Credit(data.value.assignments, entity, tr.lastUpdate.value, now, slot) * slot) as real
    ensures IsSentinel(entity) ==> GetElapsed(UpdateElapsed(tr, data, now, slot), entity) == GetElapsed(tr, entity)
  {
    AccumulateExact(tr.elapsed, data.value.assignments, tr.lastUpdate.value, now, slot, entity);
  }

  /** Within a day the counts never decrease, and no entry disappears. */
  lemma UpdateMonotone(tr: Tracker, data: Option<Response>, now: int, slot: nat, entity: string)
    requires !Rollover(tr, now)
    ensures GetElapsed(tr, entity) <= GetElapsed(UpdateElapsed(tr, data, now, slot), entity)
    ensures entity in tr.elapsed ==> entity in UpdateElapsed(tr, data, now, slot).elapsed
  {
    if data.Some? && tr.lastUpdate.Some? {
      UpdateCredits(tr, data, now, slot, entity);
      AccumulateKeepsKeys(tr.elapsed, data.value.assignments, tr.lastUpdate.value, now, slot);
    }
  }

  /** Once a day has been tracked, a later refresh on the same day never
      resets it again. */
  lemma NoSecondReset(tr: Tracker, data: Option<Response>, now: int, data2: Option<Response>, later: int, slot: nat, entity: string)
    requires DayOf(later) == DayOf(now)
    ensures var r := UpdateElapsed(tr, data, now, slot);
            !Rollover(r, later)
            && GetElapsed(r, entity) <= GetElapsed(UpdateElapsed(r, data2, later, slot), entity)
  {
    var r := UpdateElapsed(tr, data, now, slot);
    UpdateMonotone(r, data2, later, slot, entity);
  }

  /** A second update at the same instant credits nothing: the window
      `(now, now]` is empty. */
  lemma UpdateTwiceSameInstant(tr: Tracker, data: Option<Response>, now: int, slot: nat, entity: string)
    ensures var r := UpdateElapsed(tr, data, now, slot);
            GetElapsed(UpdateElapsed(r, data, now, slot), entity) == GetElapsed(r, entity)
  {
    var r := UpdateElapsed(tr, data, now, slot);
    if data.Some? {
      UpdateCredits(r, data, now, slot, entity);
    }
  }
}

=== FILE: executor.dfy ===
/** The schedule executor (`executor.py`): a small lifecycle record for the
    periodic tick, and the decision a tick takes for each assignment. The
    entity states a tick reads are a snapshot passed in as a map; the
    service calls it makes are returned as a list. */
module Executor {
  import opened Common
  import opened Duration
  import opened Schedule

  /** Whether a tick callback is registered (`_unsub` is set) and whether
      execution is paused. */
  datatype Lifecycle = Lifecycle(subscribed: bool, paused: bool)

  /** A freshly constructed executor. */
  const Initial: Lifecycle := Lifecycle(false, false)

  /** `start`: the lifecycle after the call, and whether it registered a new
      periodic callback. */
  function Start(l: Lifecycle): (r: (Lifecycle, bool))
    ensures r.0.subscribed && r.0.paused == l.paused
    ensures r.1 <==> !l.subscribed
    ensures l.subscribed ==> r.0 == l
  {
    if l.subscribed then (l, false) else (l.(subscribed := true), true)
  }

  /** `stop`: the lifecycle after the call, and whether it unsubscribed a
      registered callback. */
  function Stop(l: Lifecycle): (r: (Lifecycle, bool))
    ensures !r.0.subscribed && r.0.paused == l.paused
    ensures r.1 <==> l.subscribed
    ensures !l.subscribed ==> r.0 == l
  {
    if l.subscribed then (l.(subscribed := false), true) else (l, false)
  }

  /** `pause`: stays subscribed, stops acting. */
  function Pause(l: Lifecycle): (r: Lifecycle)
    ensures r.paused && r.subscribed == l.subscribed
  {
    l.(paused := true)
  }

  /** `resume`. */
  function Resume(l: Lifecycle): (r: Lifecycle)
    ensures !r.paused && r.subscribed == l.subscribed
  {
    l.(paused := false)
  }

  /** Starting twice registers once: the second start changes nothing and
      registers nothing, and a stop after a start from scratch returns the
      executor to where it was. */
  lemma StartOnce(l: Lifecycle)
    ensures Start(Start(l).0) == (Start(l).0, false)
    ensures !l.subscribed ==> Stop(Start(l).0) == (l, true)
    ensures Stop(Stop(l).0) == (Stop(l).0, false)
  {
  }

  /** Pausing and resuming touch nothing but the pause flag, and undo each
      other. */
  lemma PauseResume(l: Lifecycle)
    ensures !l.paused ==> Resume(Pause(l)) == l
    ensures l.paused ==> Pause(Resume(l)) == l
    ensures Start(Pause(l)).1 == Start(l).1
  {
  }

  /** The Home Assistant service an executor calls. */
  datatype Service = TurnOn | TurnOff

  /** One `homeassistant.turn_on`/`turn_off` call. */
  datatype Call = Call(service: Service, entity: string)

  /** The state an entity is left in by a successful call. */
  function AfterCall(s: Service): string {
    match s
    case TurnOn => "on"
    case TurnOff => "off"
  }

  /** States the executor leaves alone: no entity, or one Home Assistant
      cannot currently read. */
  predicate Untouchable(state: Option<string>) {
    state.None? || state.value == "unavailable" || state.value == "unknown"
  }

  /** `_apply_state` without the call itself: which service, if any, brings
      the entity to the wanted state. */
  function Decide(state: Option<string>, shouldBeOn: bool): (r: Option<Service>)
    ensures Untouchable(state) ==> r.None?
    ensures r == Some(TurnOn) <==> !Untouchable(state) && shouldBeOn && state.value != "on"
    ensures r == Some(TurnOff) <==> !Untouchable(state) && !shouldBeOn && state.value == "on"
  {
    if Untouchable(state) then None
    else if shouldBeOn && state.value != "on" then Some(TurnOn)
    else if !shouldBeOn && state.value == "on" then Some(TurnOff)
    else None
  }

  /** A decision settles: once its call has taken effect, the same wish
      calls for nothing more, so repeated ticks do not toggle an entity. */
  lemma DecideSettles(state: Option<string>, shouldBeOn: bool)
    ensures Decide(state, shouldBeOn).Some? ==>
              Decide(Some(AfterCall(Decide(state, shouldBeOn).value)), shouldBeOn).None?
  {
  }

  function StateOf(states: map<string, string>, entity: string): Option<string> {
    if entity in states then Some(states[entity]) else None
  }

  /** The call one assignment gives rise to, if any: internal `__` entities
      are skipped, and the wanted state is whether a slot contains `now`. */
  function CallFor(a: Assignment, now: int, dur: nat, states: map<string, string>): (r: Option<Call>)
    ensures IsSentinel(a.entity) ==> r.None?
    ensures r.Some? ==> r.value.entity == a.entity
    ensures !IsSentinel(a.entity) ==>
              (r.Some? <==> Decide(StateOf(states, a.entity), AnyActive(a.slots, now, dur)).Some?)
  {
    if IsSentinel(a.entity) then None
    else
      match Decide(StateOf(states, a.entity), AnyActive(a.slots, now, dur))
      case None => None
      case Some(s) => Some(Call(s, a.entity))
  }

  /** The calls for a list of assignments, in list order. */
  function Calls(assignments: seq<Assignment>, now: int, dur: nat, states: map<string, string>): (r: seq<Call>)
    ensures |r| <= |assignments|
  {
    if |assignments| == 0 then []
    else
      var c := CallFor(assignments[0], now, dur, states);
      (if c.Some? then [c.value] else []) + Calls(assignments[1..], now, dur, states)
  }

  /** Some assignment, not internal, asks for `c` on its own: its entity is
      `c.entity` and the decision on its own slots is `c.service`. */
  predicate CallWanted(assignments: seq<Assignment>, now: int, dur: nat, states: map<string, string>, c: Call) {
    exists k :: 0 <= k < |assignments| && !IsSentinel(assignments[k].entity)
                && c.entity == assignments[k].entity
                && Decide(StateOf(states, c.entity), AnyActive(assignments[k].slots, now, dur)) == Some(c.service)
  }

  /** `_async_tick`: nothing while paused or without a schedule; otherwise
      the calls for every assignment, with the slot length parsed from the
      configured duration. */
  function Tick(l: Lifecycle, data: Option<Response>, now: int, slotDuration: string,
                states: map<string, string>): (r: seq<Call>)
    ensures l.paused || data.None? ==> r == []
    ensures !l.paused && data.Some? ==> |r| <= |data.value.assignments|
    ensures !l.paused && data.Some? ==>
              forall c :: c in r <==> CallWanted(data.value.assignments, now, ParseSlotDurationSeconds(slotDuration), states, c)
  {
    if l.paused || data.None? then []
    else
      var dur := ParseSlotDurationSeconds(slotDuration);
      CallsCharacterizedAll(data.value.assignments, now, dur, states);
      Calls(data.value.assignments, now, dur, states)
  }

  lemma CallsCharacterizedAll(assignments: seq<Assignment>, now: int, dur: nat, states: map<string, string>)
    ensures forall c :: c in Calls(assignments, now, dur, states) <==> CallWanted(assignments, now, dur, states, c)
  {
    forall c
      ensures c in Calls(assignments, now, dur, states) <==> CallWanted(assignments, now, dur, states, c)
    {
      CallsCharacterized(assignments, now, dur, states, c);
    }
  }

  /** A call is made exactly for an assignment whose entity is not internal
      and whose decision asks for that service. */
  lemma {:induction false} CallsCharacterized(assignments: seq<Assignment>, now: int, dur: nat,
                                              states: map<string, string>, c: Call)
    ensures c in Calls(assignments, now, dur, states) <==>
              exists k :: 0 <= k < |assignments| && !IsSentinel(assignments[k].entity)
                          && c.entity == assignments[k].entity
                          && Decide(StateOf(states, c.entity), AnyActive(assignments[k].slots, now, dur)) == Some(c.service)
    decreases |assignments|
  {
    if |assignments| > 0 {
      var a := assignments[0];
      var tail := assignments[1..];
      CallsCharacterized(tail, now, dur, states, c);
      assert forall k :: 1 <= k < |assignments| ==> assignments[k] == tail[k - 1];
      if c in Calls(assignments, now, dur, states) && c !in Calls(tail, now, dur, states) {
        assert CallFor(a, now, dur, states) == Some(c);
      }
      if !IsSentinel(a.entity) && c.entity == a.entity
         && Decide(StateOf(states, c.entity), AnyActive(a.slots, now, dur)) == Some(c.service) {
        assert CallFor(a, now, dur, states) == Some(c);
      }
    }
  }

  /** When all of an entity's assignments want it on, a tick never turns
      it off. The premise matters: see `SplitAssignmentsTurnOff`. */
  lemma NoConflictingCalls(assignments: seq<Assignment>, now: int, dur: nat, states: map<string, string>, e: string)
    requires forall k :: 0 <= k < |assignments| && assignments[k].entity == e ==> AnyActive(assignments[k].slots, now, dur)
    ensures Call(TurnOff, e) !in Calls(assignments, now, dur, states)
  {
    CallsCharacterized(assignments, now, dur, states, Call(TurnOff, e));
  }

  /** Each assignment is decided on its own slots, so an entity with one
      assignment active now and another not (a recurring job spanning two
      days has one assignment per day) is turned off by the inactive one
      while the active one wants it on. */
  lemma SplitAssignmentsTurnOff()
    ensures var today := Assignment("switch.pump", [50], None, None, None, None);
            var tomorrow := Assignment("switch.pump", [86450], None, None, None, None);
            AnyActive(today.slots, 100, 300)
            && Call(TurnOff, "switch.pump") in Calls([today, tomorrow], 100, 300, map["switch.pump" := "on"])
  {
    var today := Assignment("switch.pump", [50], None, None, None, None);
    var tomorrow := Assignment("switch.pump", [86450], None, None, None, None);
    var states := map["switch.pump" := "on"];
    assert "switch.pump"[..2][0] == 's';
    assert !IsSentinel("switch.pump");
    assert AnyActive(today.slots, 100, 300);
    assert !AnyActive(tomorrow.slots, 100, 300);
    assert CallFor(tomorrow, 100, 300, states) == Some(Call(TurnOff, "switch.pump"));
    CallsCharacterized([today, tomorrow], 100, 300, states, Call(TurnOff, "switch.pump"));
  }

  /** The per-entity wish the tick evidently means: an entity should be on
      when any of its assignments has a slot containing `now`. */
  predicate WantsOn(assignments: seq<Assignment>, e: string, now: int, dur: nat) {
    exists k :: 0 <= k < |assignments| && assignments[k].entity == e && AnyActive(assignments[k].slots, now, dur)
  }

  /** The calls of the assignments from index `i`, each decided on its
      entity's wish over the whole list `all`. */
  function EntityCallsFrom(all: seq<Assignment>, i: nat, now: int, dur: nat, states: map<string, string>): seq<Call>
    requires i <= |all|
    decreases |all| - i
  {
    if i == |all| then []
    else
      var a := all[i];
      var c := if IsSentinel(a.entity) then None
               else match Decide(StateOf(states, a.entity), WantsOn(all, a.entity, now, dur))
                    case None => None
                    case Some(s) => Some(Call(s, a.entity));
      (if c.Some? then [c.value] else []) + EntityCallsFrom(all, i + 1, now, dur, states)
  }

  /** The tick's calls with the per-entity decision. */
  function EntityCalls(assignments: seq<Assignment>, now: int, dur: nat, states: map<string, string>): seq<Call> {
    EntityCallsFrom(assignments, 0, now, dur, states)
  }

  /** A per-entity call is made exactly for a non-internal entity with an
      assignment from `i` on, when the decision on the entity's wish asks
      for that service. */
  lemma {:induction false} EntityCallsFromCharacterized(all: seq<Assignment>, i: nat, now: int, dur: nat,
                                                        states: map<string, string>, c: Call)
    requires i <= |all|
    ensures c in EntityCallsFrom(all, i, now, dur, states) <==>
              (exists k :: i <= k < |all| && !IsSentinel(all[k].entity) && c.entity == all[k].entity)
              && Decide(StateOf(states, c.entity), WantsOn(all, c.entity, now, dur)) == Some(c.service)
    decreases |all| - i
  {
    if i < |all| {
      EntityCallsFromCharacterized(all, i + 1, now, dur, states, c);
      var a := all[i];
      if !IsSentinel(a.entity) && c.entity == a.entity
         && Decide(StateOf(states, c.entity), WantsOn(all, c.entity, now, dur)) == Some(c.service) {
        assert c in EntityCallsFrom(all, i, now, dur, states);
      }
    }
  }

  /** With the per-entity decision, an entity is turned off only when none
      of its assignments is active, turned on only when one is, and never
      both in one tick. */
  lemma EntityCallsConsistent(assignments: seq<Assignment>, now: int, dur: nat, states: map<string, string>, e: string)
    ensures Call(TurnOff, e) in EntityCalls(assignments, now, dur, states) ==> !WantsOn(assignments, e, now, dur)
    ensures Call(TurnOn, e) in EntityCalls(assignments, now, dur, states) ==> WantsOn(assignments, e, now, dur)
    ensures !(Call(TurnOn, e) in EntityCalls(assignments, now, dur, states)
              && Call(TurnOff, e) in EntityCalls(assignments, now, dur, states))
  {
    EntityCallsFromCharacterized(assignments, 0, now, dur, states, Call(TurnOff, e));
    EntityCallsFromCharacterized(assignments, 0, now, dur, states, Call(TurnOn, e));
  }

  /** On the two-day input of `SplitAssignmentsTurnOff` the per-entity
      decision leaves the running pump alone. */
  lemma SplitAssignmentsKeptOn()
    ensures var today := Assignment("switch.pump", [50], None, None, None, None);
            var tomorrow := Assignment("switch.pump", [86450], None, None, None, None);
            EntityCalls([today, tomorrow], 100, 300, map["switch.pump" := "on"]) == []
  {
    var today := Assignment("switch.pump", [50], None, None, None, None);
    var tomorrow := Assignment("switch.pump", [86450], None, None, None, None);
    assert "switch.pump"[..2][0] == 's';
    assert !IsSentinel("switch.pump");
    assert AnyActive(today.slots, 100, 300);
    assert WantsOn([today, tomorrow], "switch.pump", 100, 300) by {
      assert [today, tomorrow][0] == today;
    }
  }
}

=== FILE: jobentities.dfy ===
/** Job definitions stored as flat entity attributes (`job_entities.py`):
    flattening a nested job dictionary into attributes, rebuilding the
    nested form the expander reads, the entity's state, and attribute
    updates. */
module JobEntities {
  import opened Common
  import opened Recurrence
  import opened Schedule
  import opened Jobs

  /** The flat attribute dictionary of a job entity; `None` marks a missing
      key. `start` and `finish` hold the one-shot bounds as parsed stamps. */
  datatype Attrs = Attrs(
    entityId: Option<string>,
    acPower: Option<real>,
    dcPower: Option<real>,
    force: Option<bool>,
    benefit: Option<real>,
    enabled: Option<bool>,
    jobType: Option<string>,
    frequency: Option<string>,
    windowStart: Option<string>,
    windowEnd: Option<string>,
    maximumDuration: Option<string>,
    minimumDuration: Option<string>,
    minimumBurst: Option<string>,
    dayOfWeek: Option<int>,
    daysOfWeek: Option<seq<int>>,
    start: Option<Stamp>,
    finish: Option<Stamp>)

  /** An attribute dictionary with no keys. */
  const NoAttrs: Attrs := Attrs(None, None, None, None, None, None, None, None, None, None,
                                None, None, None, None, None, None, None)

  /** `from_job_dict`: the common fields with their defaults, then either the
      recurrence flattened into top-level keys with `job_type` "recurring",
      or the one-shot fields with `job_type` "oneshot". The weekday keys are
      copied only for the frequency that reads them, as the rule names it. */
  function FromJobDict(j: JobDef): (a: Attrs)
    ensures a.entityId == Some(j.entityId)
    ensures a.acPower == Some(j.acPower.GetOr(0.0)) && a.dcPower == Some(j.dcPower.GetOr(0.0))
    ensures a.force == Some(j.force.GetOr(false)) && a.benefit == Some(j.benefit.GetOr(0.0))
    ensures a.enabled == Some(j.enabled.GetOr(true))
    ensures a.jobType == Some(if j.recurrence.Some? then "recurring" else "oneshot")
    ensures j.recurrence.Some? ==>
              var rule := j.recurrence.value;
              a.frequency == Some(rule.frequency.GetOr("daily"))
              && a.windowStart == Some(rule.windowStart.GetOr("09:00"))
              && a.windowEnd == Some(rule.windowEnd.GetOr("17:00"))
              && a.maximumDuration == Some(rule.maximumDuration.GetOr("1h"))
              && a.minimumDuration == Some(rule.minimumDuration.GetOr("0s"))
              && a.minimumBurst == Some(rule.minimumBurst.GetOr("0s"))
              && (a.dayOfWeek.Some? <==> rule.frequency == Some("weekly"))
              && (a.dayOfWeek.Some? ==> a.dayOfWeek.value == rule.dayOfWeek.GetOr(0))
              && (a.daysOfWeek.Some? <==> rule.frequency == Some("custom"))
              && (a.daysOfWeek.Some? ==> a.daysOfWeek.value == rule.daysOfWeek.GetOr([]))
              && a.start.None? && a.finish.None?
    ensures j.recurrence.None? ==>
              a.start == Some(j.start.GetOr(Blank)) && a.finish == Some(j.finish.GetOr(Blank))
              && a.maximumDuration == Some(j.maximumDuration.GetOr("1h"))
              && a.minimumDuration == Some(j.minimumDuration.GetOr("0s"))
              && a.minimumBurst == Some(j.minimumBurst.GetOr("0s"))
              && a.frequency.None? && a.windowStart.None? && a.windowEnd.None?
              && a.dayOfWeek.None? && a.daysOfWeek.None?
  {
    var base := NoAttrs.(
      entityId := Some(j.entityId),
      acPower := Some(j.acPower.GetOr(0.0)),
      dcPower := Some(j.dcPower.GetOr(0.0)),
      force := Some(j.force.GetOr(false)),
      benefit := Some(j.benefit.GetOr(0.0)),
      enabled := Some(j.enabled.GetOr(true)));
    if j.recurrence.Some? then
      var rule := j.recurrence.value;
      base.(
        jobType := Some("recurring"),
        frequency := Some(rule.frequency.GetOr("daily")),
        windowStart := Some(rule.windowStart.GetOr("09:00")),
        windowEnd := Some(rule.windowEnd.GetOr("17:00")),
        maximumDuration := Some(rule.maximumDuration.GetOr("1h")),
        minimumDuration := Some(rule.minimumDuration.GetOr("0s")),
        minimumBurst := Some(rule.minimumBurst.GetOr("0s")),
        dayOfWeek := if rule.frequency == Some("weekly") then Some(rule.dayOfWeek.GetOr(0)) else None,
        daysOfWeek := if rule.frequency == Some("custom") then Some(rule.daysOfWeek.GetOr([])) else None)
    else
      base.(
        jobType := Some("oneshot"),
        start := Some(j.start.GetOr(Blank)),
        finish := Some(j.finish.GetOr(Blank)),
        maximumDuration := Some(j.maximumDuration.GetOr("1h")),
        minimumDuration := Some(j.minimumDuration.GetOr("0s")),
        minimumBurst := Some(j.minimumBurst.GetOr("0s")))
  }

  /** `job_entity_to_dict`: the nested job dictionary rebuilt from the flat
      attributes. A `job_type` other than "recurring", or none, is rebuilt as
      a one-shot job; a missing `entity_id` raises. */
  function JobEntityToDict(a: Attrs): (r: Result<JobDef>)
    ensures r.Ok? <==> a.entityId.Some?
    ensures r.Ok? ==> r.value.entityId == a.entityId.value
    ensures r.Ok? ==> r.value.acPower == Some(a.acPower.GetOr(0.0)) && r.value.dcPower == Some(a.dcPower.GetOr(0.0))
    ensures r.Ok? ==> r.value.force == Some(a.force.GetOr(false)) && r.value.benefit == Some(a.benefit.GetOr(0.0))
    ensures r.Ok? ==> r.value.enabled == Some(a.enabled.GetOr(true))
    ensures r.Ok? ==> (r.value.recurrence.Some? <==> a.jobType == Some("recurring"))
    ensures r.Ok? && r.value.recurrence.Some? ==>
              var rule := r.value.recurrence.value;
              rule.frequency == Some(a.frequency.GetOr("daily"))
              && rule.windowStart == Some(a.windowStart.GetOr("09:00"))
              && rule.windowEnd == Some(a.windowEnd.GetOr("17:00"))
              && rule.maximumDuration == Some(a.maximumDuration.GetOr("1h"))
              && rule.minimumDuration == Some(a.minimumDuration.GetOr("0s"))
              && rule.minimumBurst == Some(a.minimumBurst.GetOr("0s"))
              && (rule.dayOfWeek.Some? <==> a.frequency == Some("weekly"))
              && (rule.dayOfWeek.Some? ==> rule.dayOfWeek.value == a.dayOfWeek.GetOr(0))
              && (rule.daysOfWeek.Some? <==> a.frequency == Some("custom"))
              && (rule.daysOfWeek.Some? ==> rule.daysOfWeek.value == a.daysOfWeek.GetOr([]))
              && r.value.start.None? && r.value.finish.None? && r.value.maximumDuration.None?
    ensures r.Ok? && r.value.recurrence.None? ==>
              r.value.start == Some(a.start.GetOr(Blank)) && r.value.finish == Some(a.finish.GetOr(Blank))
              && r.value.maximumDuration == Some(a.maximumDuration.GetOr("1h"))
              && r.value.minimumDuration == Some(a.minimumDuration.GetOr("0s"))
              && r.value.minimumBurst == Some(a.minimumBurst.GetOr("0s"))
  {
    if a.entityId.None? then Err("KeyError: entity_id")
    else
      var acPower := Some(a.acPower.GetOr(0.0));
      var dcPower := Some(a.dcPower.GetOr(0.0));
      var force := Some(a.force.GetOr(false));
      var benefit := Some(a.benefit.GetOr(0.0));
      var enabled := Some(a.enabled.GetOr(true));
      if a.jobType == Some("recurring") then
        var rule := Rule(
          Some(a.frequency.GetOr("daily")),
          Some(a.windowStart.GetOr("09:00")),
          Some(a.windowEnd.GetOr("17:00")),
          Some(a.maximumDuration.GetOr("1h")),
          Some(a.minimumDuration.GetOr("0s")),
          Some(a.minimumBurst.GetOr("0s")),
          if a.frequency == Some("weekly") then Some(a.dayOfWeek.GetOr(0)) else None,
          if a.frequency == Some("custom") then Some(a.daysOfWeek.GetOr([])) else None);
        Ok(JobDef(a.entityId.value, acPower, dcPower, force, benefit, enabled, Some(rule),
                  None, None, None, None, None))
      else
        Ok(JobDef(a.entityId.value, acPower, dcPower, force, benefit, enabled, None,
                  Some(a.start.GetOr(Blank)), Some(a.finish.GetOr(Blank)),
                  Some(a.maximumDuration.GetOr("1h")), Some(a.minimumDuration.GetOr("0s")),
                  Some(a.minimumBurst.GetOr("0s"))))
  }

  /** Flatten then rebuild. */
  function RoundTrip(j: JobDef): JobDef {
    var r := JobEntityToDict(FromJobDict(j));
    if r.Ok? then r.value else j
  }

  /** Rebuilding a flattened job never fails and gives back the job with
      every default made explicit: the id, powers, force, benefit and
      enabled flag, and either the rule (frequency, window, budget, and the
      weekday key its frequency reads) or no rule with the one-shot bounds
      and budget. */
  lemma FlattenRebuild(j: JobDef)
    ensures JobEntityToDict(FromJobDict(j)).Ok?
    ensures var k := RoundTrip(j);
            k.entityId == j.entityId
            && k.acPower.GetOr(0.0) == j.acPower.GetOr(0.0) && k.dcPower.GetOr(0.0) == j.dcPower.GetOr(0.0)
            && k.force.GetOr(false) == j.force.GetOr(false) && k.benefit.GetOr(0.0) == j.benefit.GetOr(0.0)
            && IsEnabled(k) == IsEnabled(j)
            && k.recurrence.Some? == j.recurrence.Some?
    ensures j.recurrence.Some? ==>
              var rule := j.recurrence.value;
              var back := RoundTrip(j).recurrence.value;
              back.frequency == Some(rule.frequency.GetOr("daily"))
              && back.windowStart == Some(rule.windowStart.GetOr("09:00"))
              && back.windowEnd == Some(rule.windowEnd.GetOr("17:00"))
              && back.maximumDuration == Some(rule.maximumDuration.GetOr("1h"))
              && back.minimumDuration.GetOr("0s") == rule.minimumDuration.GetOr("0s")
              && back.minimumBurst.GetOr("0s") == rule.minimumBurst.GetOr("0s")
              && (rule.frequency == Some("weekly") ==> back.dayOfWeek == Some(rule.dayOfWeek.GetOr(0)))
              && (rule.frequency == Some("custom") ==> back.daysOfWeek == Some(rule.daysOfWeek.GetOr([])))
    ensures j.recurrence.None? ==>
              var k := RoundTrip(j);
              k.start.GetOr(Blank) == j.start.GetOr(Blank) && k.finish.GetOr(Blank) == j.finish.GetOr(Blank)
              && k.maximumDuration.GetOr("1h") == j.maximumDuration.GetOr("1h")
              && k.minimumDuration.GetOr("0s") == j.minimumDuration.GetOr("0s")
              && k.minimumBurst.GetOr("0s") == j.minimumBurst.GetOr("0s")
  {
  }

  /** Flattening a rebuilt job's attributes is stable: a second round trip
      gives the same job as the first. */
  lemma RoundTripIdempotent(j: JobDef)
    ensures RoundTrip(RoundTrip(j)) == RoundTrip(j)
  {
    FlattenRebuild(j);
    FlattenRebuild(RoundTrip(j));
  }

  /** The rebuilt job expands to the same boxes over any horizon as the
      original, whenever the original expands at all. Where the rule names
      its frequency and both window times the defaults the round trip fills
      in are the ones the expander would have used; where it lacks one, the
      original expands only when no day of the horizon needs the missing
      key, and then both give no box. */
  lemma RoundTripExpandsAlike(j: JobDef, hs: int, he: int)
    requires ExpandJob(j, hs, he).Ok?
    ensures ExpandJob(RoundTrip(j), hs, he) == ExpandJob(j, hs, he)
  {
    FlattenRebuild(j);
    var k := RoundTrip(j);
    if IsEnabled(j) {
      if j.recurrence.None? {
        assert forall s, e :: OneShotBox(k, s, e) == OneShotBox(j, s, e);
      } else {
        var rule := j.recurrence.value;
        var back := k.recurrence.value;
        if rule.frequency.None? || rule.windowStart.None? || rule.windowEnd.None? {
          ClippedWindowsMissingKey(rule, back, hs, he);
          return;
        }
        assert SameSchedule(rule, back);
        ClippedWindowsSameSchedule(rule, back, hs, he);
        var ws := ClippedWindows(rule, hs, he).value;
        if |ws| > 0 {
          assert rule.maximumDuration.Some?;
          assert forall w :: RecurringBox(k, back, w) == RecurringBox(j, rule, w);
          assert RecurringBoxes(k, back, ws) == RecurringBoxes(j, rule, ws);
        }
      }
    }
  }

  /** `native_value`: the entity's state text. */
  function NativeValue(a: Attrs): (s: string)
    ensures s == "enabled" || s == "disabled"
  {
    if a.enabled.GetOr(true) then "enabled" else "disabled"
  }

  /** The state shows "disabled" exactly when the rebuilt job is one the
      expander skips. */
  lemma NativeValueMatchesExpansion(a: Attrs, hs: int, he: int)
    requires a.entityId.Some?
    ensures NativeValue(a) == "disabled" <==> !IsEnabled(JobEntityToDict(a).value)
    ensures NativeValue(a) == "disabled" ==> ExpandJob(JobEntityToDict(a).value, hs, he) == Ok([])
  {
  }

  /** `extra_state_attributes`: a copy of the stored attributes. */
  function StateAttributes(a: Attrs): (c: Attrs)
    ensures JobEntityToDict(c) == JobEntityToDict(a) && NativeValue(c) == NativeValue(a)
  {
    a
  }

  function Override<T>(prev: Option<T>, given: Option<T>): Option<T> {
    if given.Some? then given else prev
  }

  /** The `dict.update` rule for one key: a key given in the update takes
      the given value, a key not given keeps its previous value (absent
      when it was absent). */
  predicate KeyRule<T(==)>(prev: Option<T>, given: Option<T>, now: Option<T>) {
    (given.Some? ==> now == given) && (given.None? ==> now == prev)
  }

  /** Every key of `r` follows the update rule from `a` under `n`. */
  predicate UpdatedBy(a: Attrs, n: Attrs, r: Attrs) {
    KeyRule(a.entityId, n.entityId, r.entityId) && KeyRule(a.acPower, n.acPower, r.acPower)
    && KeyRule(a.dcPower, n.dcPower, r.dcPower) && KeyRule(a.force, n.force, r.force)
    && KeyRule(a.benefit, n.benefit, r.benefit) && KeyRule(a.enabled, n.enabled, r.enabled)
    && KeyRule(a.jobType, n.jobType, r.jobType) && KeyRule(a.frequency, n.frequency, r.frequency)
    && KeyRule(a.windowStart, n.windowStart, r.windowStart) && KeyRule(a.windowEnd, n.windowEnd, r.windowEnd)
    && KeyRule(a.maximumDuration, n.maximumDuration, r.maximumDuration)
    && KeyRule(a.minimumDuration, n.minimumDuration, r.minimumDuration)
    && KeyRule(a.minimumBurst, n.minimumBurst, r.minimumBurst)
    && KeyRule(a.dayOfWeek, n.dayOfWeek, r.dayOfWeek) && KeyRule(a.daysOfWeek, n.daysOfWeek, r.daysOfWeek)
    && KeyRule(a.start, n.start, r.start) && KeyRule(a.finish, n.finish, r.finish)
  }

  /** `update_attributes`: `dict.update` with the given keys. */
  function UpdateAttributes(a: Attrs, n: Attrs): (r: Attrs)
    ensures UpdatedBy(a, n, r)
  {
    Attrs(
      Override(a.entityId, n.entityId), Override(a.acPower, n.acPower), Override(a.dcPower, n.dcPower),
      Override(a.force, n.force), Override(a.benefit, n.benefit), Override(a.enabled, n.enabled),
      Override(a.jobType, n.jobType), Override(a.frequency, n.frequency),
      Override(a.windowStart, n.windowStart), Override(a.windowEnd, n.windowEnd),
      Override(a.maximumDuration, n.maximumDuration), Override(a.minimumDuration, n.minimumDuration),
      Override(a.minimumBurst, n.minimumBurst), Override(a.dayOfWeek, n.dayOfWeek),
      Override(a.daysOfWeek, n.daysOfWeek), Override(a.start, n.start), Override(a.finish, n.finish))
  }

  /** Updating with no keys changes nothing; updating with every key of the
      current attributes again changes nothing. */
  lemma UpdateNeutral(a: Attrs)
    ensures UpdateAttributes(a, NoAttrs) == a
    ensures UpdateAttributes(a, a) == a
  {
  }

  /** Only given keys change: a key absent from the update keeps its value,
      a given key takes the update's value, and applying the same update
      twice is the same as applying it once. */
  lemma UpdateOnlyGivenKeys(a: Attrs, n: Attrs)
    ensures n.enabled.None? ==> UpdateAttributes(a, n).enabled == a.enabled
    ensures n.enabled.Some? ==> UpdateAttributes(a, n).enabled == n.enabled
    ensures n.entityId.None? ==> UpdateAttributes(a, n).entityId == a.entityId
    ensures UpdateAttributes(UpdateAttributes(a, n), n) == UpdateAttributes(a, n)
  {
  }

  /** Successive updates compose: the later one wins key by key. */
  lemma UpdatesCompose(a: Attrs, n1: Attrs, n2: Attrs)
    ensures UpdateAttributes(UpdateAttributes(a, n1), n2) == UpdateAttributes(a, UpdateAttributes(n1, n2))
  {
  }

  /** Switching a job off through an update makes it yield no boxes, and
      switching it on restores the expansion of the same attributes. */
  lemma DisableByUpdate(a: Attrs, hs: int, he: int)
    requires a.entityId.Some?
    ensures var off := UpdateAttributes(a, NoAttrs.(enabled := Some(false)));
            NativeValue(off) == "disabled" && ExpandJob(JobEntityToDict(off).value, hs, he) == Ok([])
  {
  }

  /** The entity's unique id: the entry id, "_job_", then the sanitized
      target entity id. */
  function UniqueId(entryId: string, entityId: string): (u: string)
    ensures |u| == |entryId| + 5 + |entityId|
    ensures u[..|entryId|] == entryId && u[|entryId|..|entryId| + 5] == "_job_"
  {
    entryId + "_job_" + ReplaceAll(entityId, '.', '_')
  }

  /** Two ids that agree except where one has "." and the other "_". */
  predicate SameUpToDots(a: string, b: string) {
    |a| == |b| && forall i :: 0 <= i < |a| ==> a[i] == b[i] || (a[i] in "._" && b[i] in "._")
  }

  /** Sanitizing merges "." and "_": ids differing only there share a
      unique id, so two such jobs collide. */
  lemma SanitizeMerges(entryId: string, a: string, b: string)
    requires SameUpToDots(a, b)
    ensures UniqueId(entryId, a) == UniqueId(entryId, b)
  {
    var x, y := ReplaceAll(a, '.', '_'), ReplaceAll(b, '.', '_');
    assert |x| == |y|;
    forall i | 0 <= i < |x|
      ensures x[i] == y[i]
    {
      assert a[i] == b[i] || (a[i] in "._" && b[i] in "._");
    }
    assert x == y;
  }
}

=== FILE: jobs.dfy ===
/** Job definitions and their expansion into power boxes (`jobs.py`
    `expand_recurring_jobs`, `_make_box`, `_make_box_from_recurrence`). */
module Jobs {
  import opened Common
  import opened Recurrence
  import opened Schedule

  /** A job definition dictionary; `None` marks a missing key. `start` and
      `finish` are the one-shot bounds, the durations the one-shot budget. */
  datatype JobDef = JobDef(
    entityId: string,
    acPower: Option<real>,
    dcPower: Option<real>,
    force: Option<bool>,
    benefit: Option<real>,
    enabled: Option<bool>,
    recurrence: Option<Rule>,
    start: Option<Stamp>,
    finish: Option<Stamp>,
    maximumDuration: Option<string>,
    minimumDuration: Option<string>,
    minimumBurst: Option<string>)

  /** A box for `j` over `[s, e)` with the given durations and the job's
      power, force and benefit (defaults 0, 0, false, 0). */
  function JobBox(j: JobDef, s: int, e: int, maxDur: string, minDur: string, burst: string): PowerBox {
    PowerBox(j.entityId, s, e, Text(maxDur), Text(minDur), Text(burst),
             j.acPower.GetOr(0.0), j.dcPower.GetOr(0.0), j.force.GetOr(false), j.benefit.GetOr(0.0))
  }

  /** `_make_box`: the one-shot durations default to "1h", "0s" and "0s". */
  function OneShotBox(j: JobDef, s: int, e: int): (b: PowerBox)
    ensures b.entity == j.entityId && b.start == s && b.finish == e
    ensures b.maximumDuration == Text(j.maximumDuration.GetOr("1h"))
    ensures b.minimumDuration == Text(j.minimumDuration.GetOr("0s"))
    ensures b.minimumBurst == Text(j.minimumBurst.GetOr("0s"))
  {
    JobBox(j, s, e, j.maximumDuration.GetOr("1h"), j.minimumDuration.GetOr("0s"), j.minimumBurst.GetOr("0s"))
  }

  /** `_make_box_from_recurrence`: the budget comes from the rule, where
      `maximum_duration` is required; minimum and burst default to "0s". */
  function RecurringBox(j: JobDef, rule: Rule, w: Interval): (b: PowerBox)
    requires rule.maximumDuration.Some?
    ensures b.entity == j.entityId && b.start == w.start && b.finish == w.end
    ensures b.maximumDuration == Text(rule.maximumDuration.value)
  {
    JobBox(j, w.start, w.end, rule.maximumDuration.value,
           rule.minimumDuration.GetOr("0s"), rule.minimumBurst.GetOr("0s"))
  }

  predicate IsEnabled(j: JobDef) {
    j.enabled.GetOr(true)
  }

  /** The boxes of one recurring job, one per clipped window. */
  function RecurringBoxes(j: JobDef, rule: Rule, ws: seq<Interval>): (bs: seq<PowerBox>)
    requires rule.maximumDuration.Some?
    ensures |bs| == |ws|
    ensures forall i :: 0 <= i < |ws| ==> bs[i] == RecurringBox(j, rule, ws[i])
  {
    seq(|ws|, i requires 0 <= i < |ws| => RecurringBox(j, rule, ws[i]))
  }

  /** The boxes one job contributes to the horizon `[hs, he]`. A disabled
      job gives none. A one-shot job without both bounds gives none, else
      its interval clipped to the horizon when that is non-empty. A recurring
      job gives one box per clipped window; a missing frequency, a missing or
      malformed window time, or (once a box is due) a missing
      `maximum_duration` raises. */
  function ExpandJob(j: JobDef, hs: int, he: int): (r: Result<seq<PowerBox>>)
    ensures !IsEnabled(j) ==> r == Ok([])
    ensures r.Ok? ==> forall i :: 0 <= i < |r.value| ==>
              BoxInHorizon(r.value[i], hs, he) && r.value[i].entity == j.entityId
    ensures r.Ok? ==> BoxesOrdered(r.value)
    ensures r.Ok? && j.recurrence.None? ==> |r.value| <= 1
    ensures r.Err? ==> IsEnabled(j) && j.recurrence.Some?
  {
    if !IsEnabled(j) then Ok([])
    else if j.recurrence.None? then
      if j.start.None? || j.start.value.Blank? || j.finish.None? || j.finish.value.Blank? then Ok([])
      else
        var s := Max(j.start.value.t, hs);
        var e := Min(j.finish.value.t, he);
        if e <= s then Ok([]) else Ok([OneShotBox(j, s, e)])
    else
      var rule := j.recurrence.value;
      var ws :- ClippedWindows(rule, hs, he);
      if |ws| == 0 then Ok([])
      else if rule.maximumDuration.None? then Err("KeyError: maximum_duration")
      else Ok(RecurringBoxes(j, rule, ws))
  }

  /** The box belongs to an enabled job of the list. */
  predicate FromEnabledJob(b: PowerBox, jobs: seq<JobDef>) {
    exists k :: 0 <= k < |jobs| && IsEnabled(jobs[k]) && b.entity == jobs[k].entityId
  }

  lemma FromEnabledJobTail(b: PowerBox, jobs: seq<JobDef>)
    requires |jobs| > 0 && FromEnabledJob(b, jobs[1..])
    ensures FromEnabledJob(b, jobs)
  {
    var k :| 0 <= k < |jobs[1..]| && IsEnabled(jobs[1..][k]) && b.entity == jobs[1..][k].entityId;
    assert jobs[1..][k] == jobs[k + 1];
  }

  /** `expand_recurring_jobs`: the jobs' boxes in job order; any job that
      raises makes the whole expansion raise. */
  function ExpandJobs(jobs: seq<JobDef>, hs: int, he: int): (r: Result<seq<PowerBox>>)
    ensures r.Ok? ==> forall i :: 0 <= i < |r.value| ==> BoxInHorizon(r.value[i], hs, he)
    ensures r.Ok? ==> forall i :: 0 <= i < |r.value| ==> FromEnabledJob(r.value[i], jobs)
  {
    if |jobs| == 0 then Ok([])
    else
      var first :- ExpandJob(jobs[0], hs, he);
      var rest :- ExpandJobs(jobs[1..], hs, he);
      ConsFromEnabled(first, rest, jobs);
      Ok(first + rest)
  }

  lemma ConsFromEnabled(first: seq<PowerBox>, rest: seq<PowerBox>, jobs: seq<JobDef>)
    requires |jobs| > 0
    requires forall i :: 0 <= i < |first| ==> IsEnabled(jobs[0]) && first[i].entity == jobs[0].entityId
    requires forall i :: 0 <= i < |rest| ==> FromEnabledJob(rest[i], jobs[1..])
    ensures forall i :: 0 <= i < |first + rest| ==> FromEnabledJob((first + rest)[i], jobs)
  {
    var r := first + rest;
    forall i | 0 <= i < |r|
      ensures FromEnabledJob(r[i], jobs)
    {
      if i < |first| {
        assert r[i] == first[i];
        assert IsEnabled(jobs[0]) && r[i].entity == jobs[0].entityId;
      } else {
        assert r[i] == rest[i - |first|];
        FromEnabledJobTail(r[i], jobs);
      }
    }
  }

  /** Expansion distributes over concatenation of job lists: the boxes of
      `a + b` are those of `a` followed by those of `b`, and it raises exactly
      when one of the halves does. */
  lemma {:induction false} ExpandJobsAppend(a: seq<JobDef>, b: seq<JobDef>, hs: int, he: int)
    ensures ExpandJobs(a + b, hs, he).Ok? <==> ExpandJobs(a, hs, he).Ok? && ExpandJobs(b, hs, he).Ok?
    ensures ExpandJobs(a + b, hs, he).Ok? ==>
              ExpandJobs(a + b, hs, he).value == ExpandJobs(a, hs, he).value + ExpandJobs(b, hs, he).value
  {
    if |a| == 0 {
      assert a + b == b;
    } else {
      TailOfAppend(a, b);
      ExpandJobsAppend(a[1..], b, hs, he);
      var x := ExpandJob(a[0], hs, he);
      if x.Ok? && ExpandJobs(a[1..], hs, he).Ok? && ExpandJobs(b, hs, he).Ok? {
        assert x.value + (ExpandJobs(a[1..], hs, he).value + ExpandJobs(b, hs, he).value)
            == (x.value + ExpandJobs(a[1..], hs, he).value) + ExpandJobs(b, hs, he).value;
      }
    }
  }

  /** The instants the job's own one-shot interval and the horizon share. */
  predicate Shared(j: JobDef, hs: int, he: int, t: int)
    requires j.start.Some? && j.start.value.At? && j.finish.Some? && j.finish.value.At?
  {
    Interval(j.start.value.t, j.finish.value.t).Contains(t) && Interval(hs, he).Contains(t)
  }

  /** A one-shot job with both bounds yields exactly the part of its own
      interval that lies in the horizon: one box covering precisely the
      instants in both, or nothing when they share no instant. */
  lemma OneShotExact(j: JobDef, hs: int, he: int)
    requires IsEnabled(j) && j.recurrence.None?
    requires j.start.Some? && j.start.value.At? && j.finish.Some? && j.finish.value.At?
    ensures ExpandJob(j, hs, he).Ok?
    ensures |ExpandJob(j, hs, he).value| == 0 <==> !exists t :: Shared(j, hs, he, t)
    ensures var bs := ExpandJob(j, hs, he).value;
            |bs| == 1 ==>
              bs[0] == OneShotBox(j, bs[0].start, bs[0].finish)
              && forall t :: Interval(bs[0].start, bs[0].finish).Contains(t) <==> Shared(j, hs, he, t)
  {
    var s := Max(j.start.value.t, hs);
    var e := Min(j.finish.value.t, he);
    if s < e {
      assert Shared(j, hs, he, s);
    }
  }

  /** A one-shot job missing either bound, or with an empty one, yields nothing. */
  lemma OneShotWithoutBounds(j: JobDef, hs: int, he: int)
    requires IsEnabled(j) && j.recurrence.None?
    requires j.start.None? || j.start.value.Blank? || j.finish.None? || j.finish.value.Blank?
    ensures ExpandJob(j, hs, he) == Ok([])
  {
  }

  /** A recurring job yields one box per clipped window of its rule, in day
      order, each carrying the rule's budget with minimum and burst
      defaulting to "0s" and the job's power, force and benefit. */
  lemma RecurringBoxesFromWindows(j: JobDef, hs: int, he: int)
    requires IsEnabled(j) && j.recurrence.Some?
    requires ExpandJob(j, hs, he).Ok?
    ensures ClippedWindows(j.recurrence.value, hs, he).Ok?
    ensures var ws := ClippedWindows(j.recurrence.value, hs, he).value;
            var bs := ExpandJob(j, hs, he).value;
            |bs| == |ws|
            && forall i :: 0 <= i < |bs| ==>
                 bs[i].start == ws[i].start && bs[i].finish == ws[i].end
                 && bs[i].maximumDuration == Text(j.recurrence.value.maximumDuration.value)
                 && bs[i].minimumDuration == Text(j.recurrence.value.minimumDuration.GetOr("0s"))
                 && bs[i].minimumBurst == Text(j.recurrence.value.minimumBurst.GetOr("0s"))
                 && bs[i].acPower == j.acPower.GetOr(0.0) && bs[i].dcPower == j.dcPower.GetOr(0.0)
                 && bs[i].force == j.force.GetOr(false) && bs[i].benefit == j.benefit.GetOr(0.0)
  {
  }

  /** A recurring job raises for want of `maximum_duration` exactly when it
      would otherwise emit a box. */
  lemma MissingBudget(j: JobDef, hs: int, he: int)
    requires IsEnabled(j) && j.recurrence.Some? && j.recurrence.value.maximumDuration.None?
    requires ClippedWindows(j.recurrence.value, hs, he).Ok?
    ensures ExpandJob(j, hs, he).Err? <==> |ClippedWindows(j.recurrence.value, hs, he).value| > 0
  {
  }

  /** A recurring job emits at most one box per matching day of the horizon. */
  lemma AtMostOnePerMatchingDay(j: JobDef, hs: int, he: int)
    requires IsEnabled(j) && j.recurrence.Some? && DayOf(hs) <= DayOf(he)
    requires ExpandJob(j, hs, he).Ok?
    ensures j.recurrence.value.frequency.Some?
    ensures |ExpandJob(j, hs, he).value| <= MatchingDays(j.recurrence.value, DayOf(hs), DayOf(he))
  {
    var ws := ClippedWindows(j.recurrence.value, hs, he);
    assert ws.Ok?;
  }
}

=== FILE: number.dfy ===
/** The number entities of a job (`number.py`): the numeric attributes of
    the job entity, and the elapsed-today counter shown in minutes over the
    coordinator's seconds, with the rule for restoring it after a restart. */
module Number {
  import opened Common
  import opened Elapsed
  import JobEntities
  import Schedule

  /** The numeric attributes a job number edits. */
  datatype NumericKey = AcPower | DcPower | Benefit

  function Field(a: JobEntities.Attrs, key: NumericKey): Option<real> {
    match key
    case AcPower => a.acPower
    case DcPower => a.dcPower
    case Benefit => a.benefit
  }

  /** The update `async_set_native_value` hands to the job entity: only the
      edited key is given. */
  function Given(key: NumericKey, value: real): (n: JobEntities.Attrs)
    ensures Field(n, key) == Some(value)
    ensures forall other :: other != key ==> Field(n, other).None?
  {
    match key
    case AcPower => JobEntities.NoAttrs.(acPower := Some(value))
    case DcPower => JobEntities.NoAttrs.(dcPower := Some(value))
    case Benefit => JobEntities.NoAttrs.(benefit := Some(value))
  }

  /** `ErgJobNumber.native_value`: unknown while the attribute is absent. */
  function NumberValue(a: JobEntities.Attrs, key: NumericKey): (r: Option<real>)
    ensures r.None? <==> Field(a, key).None?
    ensures r.Some? ==> Field(a, key) == Some(r.value)
  {
    Field(a, key)
  }

  /** `ErgJobNumber.async_set_native_value` on the job's attributes. */
  function SetNumber(a: JobEntities.Attrs, key: NumericKey, value: real): (r: JobEntities.Attrs)
    ensures Field(r, key) == Some(value)
    ensures forall other :: other != key ==> Field(r, other) == Field(a, other)
    ensures r.entityId == a.entityId && r.enabled == a.enabled && r.jobType == a.jobType
  {
    JobEntities.UpdateAttributes(a, Given(key, value))
  }

  /** Setting a job number reads back as the value set, and leaves the other
      numeric attributes as they were. */
  lemma SetThenReadNumber(a: JobEntities.Attrs, key: NumericKey, value: real)
    ensures NumberValue(SetNumber(a, key, value), key) == Some(value)
    ensures forall other :: other != key ==> NumberValue(SetNumber(a, key, value), other) == NumberValue(a, other)
  {
  }

  /** `ErgJobElapsedNumber.native_value`: elapsed seconds shown as minutes. */
  function ElapsedMinutes(tr: Tracker, entity: string): (m: real)
    ensures m * 60.0 == GetElapsed(tr, entity)
  {
    GetElapsed(tr, entity) / 60.0
  }

  /** `ErgJobElapsedNumber.async_set_native_value`: minutes stored as
      seconds. */
  function SetElapsedMinutes(tr: Tracker, entity: string, minutes: real): (r: Tracker)
    ensures GetElapsed(r, entity) == minutes * 60.0
    ensures forall other :: other != entity ==> GetElapsed(r, other) == GetElapsed(tr, other)
    ensures r.trackingDay == tr.trackingDay && r.lastUpdate == tr.lastUpdate
  {
    SetElapsed(tr, entity, minutes * 60.0)
  }

  /** Setting the elapsed number reads back as the minutes set. */
  lemma ElapsedMinutesRoundTrip(tr: Tracker, entity: string, minutes: real)
    ensures ElapsedMinutes(SetElapsedMinutes(tr, entity, minutes), entity) == minutes
  {
  }

  /** The state saved before a restart: its text and the day of its
      `last_updated`. */
  datatype LastState = LastState(state: string, lastUpdatedDay: int)

  /** The saved state is worth reading: it exists, Home Assistant knew it,
      and it was saved today. */
  predicate Fresh(last: Option<LastState>, today: int) {
    last.Some? && last.value.state != "unknown" && last.value.state != "unavailable"
    && last.value.lastUpdatedDay == today
  }

  /** `async_added_to_hass`: re-seed today's elapsed seconds from the saved
      minutes. `parseFloat` is Python's `float` on the saved text, `None`
      where it raises. */
  function Restore(tr: Tracker, entity: string, last: Option<LastState>, today: int,
                   parseFloat: string -> Option<real>): (r: Tracker)
    ensures !Fresh(last, today) ==> r == tr
    ensures Fresh(last, today) && parseFloat(last.value.state).None? ==> r == tr
    ensures Fresh(last, today) && parseFloat(last.value.state).Some? && parseFloat(last.value.state).value <= 0.0 ==> r == tr
    ensures Fresh(last, today) && parseFloat(last.value.state).Some? && parseFloat(last.value.state).value > 0.0 ==>
              GetElapsed(r, entity) == parseFloat(last.value.state).value * 60.0
    ensures forall other :: other != entity ==> GetElapsed(r, other) == GetElapsed(tr, other)
    ensures r.trackingDay == tr.trackingDay && r.lastUpdate == tr.lastUpdate
  {
    if last.None? || last.value.state == "unknown" || last.value.state == "unavailable" then tr
    else if last.value.lastUpdatedDay != today then tr
    else
      match parseFloat(last.value.state)
      case None => tr
      case Some(minutes) => if minutes > 0.0 then SetElapsedMinutes(tr, entity, minutes) else tr
  }

  /** A restored value shows again as the minutes that were saved: the
      restore undoes the display's conversion. */
  lemma RestoreShowsSaved(tr: Tracker, entity: string, last: Option<LastState>, today: int,
                          parseFloat: string -> Option<real>)
    requires Fresh(last, today) && parseFloat(last.value.state).Some? && parseFloat(last.value.state).value > 0.0
    ensures ElapsedMinutes(Restore(tr, entity, last, today, parseFloat), entity) == parseFloat(last.value.state).value
  {
  }

  /** A value saved on another day never carries over, whatever it says. */
  lemma StaleNeverRestored(tr: Tracker, entity: string, state: string, savedDay: int, today: int,
                           parseFloat: string -> Option<real>)
    requires savedDay != today
    ensures Restore(tr, entity, Some(LastState(state, savedDay)), today, parseFloat) == tr
  {
  }

  /** Restoring once the coordinator already tracks today keeps the restored
      seconds through every later same-day update: the tracker never resets
      twice in a day and only adds to a count. */
  lemma RestoreSurvivesSameDayUpdate(tr: Tracker, entity: string, last: Option<LastState>, today: int,
                                     parseFloat: string -> Option<real>, data: Option<Schedule.Response>, now: int, slot: nat)
    requires tr.trackingDay == Some(today) && DayOf(now) == today
    ensures GetElapsed(Restore(tr, entity, last, today, parseFloat), entity)
            <= GetElapsed(UpdateElapsed(Restore(tr, entity, last, today, parseFloat), data, now, slot), entity)
  {
    var r := Restore(tr, entity, last, today, parseFloat);
    assert !Rollover(r, now);
    UpdateMonotone(r, data, now, slot, entity);
  }
}

=== FILE: recurrence.dfy ===
/** Recurrence rules shared by jobs and tariffs (`jobs.py` `day_matches`,
    `_parse_time`, and the day loop both expanders run): which days match,
    the daily window with its overnight wrap, and clipping to the horizon. */
module Recurrence {
  import opened Common

  /** A recurrence sub-dictionary; `None` marks a missing key. Tariff rules
      leave the duration fields absent. */
  datatype Rule = Rule(
    frequency: Option<string>,
    windowStart: Option<string>,
    windowEnd: Option<string>,
    maximumDuration: Option<string>,
    minimumDuration: Option<string>,
    minimumBurst: Option<string>,
    dayOfWeek: Option<int>,
    daysOfWeek: Option<seq<int>>)

  /** `day_matches` on a weekday (0 = Monday): unknown frequencies never match. */
  predicate WeekdayMatches(w: int, frequency: string, rule: Rule) {
    if frequency == "daily" then true
    else if frequency == "weekdays" then w <= 4
    else if frequency == "weekends" then w >= 5
    else if frequency == "weekly" then w == rule.dayOfWeek.GetOr(0)
    else if frequency == "custom" then w in rule.daysOfWeek.GetOr([])
    else false
  }

  /** `day_matches(day, recurrence)`; the source indexes `frequency`
      directly, so a rule without it cannot be asked. */
  predicate DayMatches(day: int, rule: Rule)
    requires rule.frequency.Some?
  {
    WeekdayMatches(Weekday(day), rule.frequency.value, rule)
  }

  /** Number of matching days in `day..endDay` inclusive. */
  function MatchingDays(rule: Rule, day: int, endDay: int): nat
    requires rule.frequency.Some?
    decreases endDay - day + 1
  {
    if day > endDay then 0
    else (if DayMatches(day, rule) then 1 else 0) + MatchingDays(rule, day + 1, endDay)
  }

  function Indicator(b: bool): nat {
    if b then 1 else 0
  }

  /** How many days of any seven consecutive days a rule matches. */
  function PerWeek(rule: Rule): nat
    requires rule.frequency.Some?
  {
    var f := rule.frequency.value;
    if f == "daily" then 7
    else if f == "weekdays" then 5
    else if f == "weekends" then 2
    else if f == "weekly" then Indicator(0 <= rule.dayOfWeek.GetOr(0) <= 6)
    else if f == "custom" then
      var ds := rule.daysOfWeek.GetOr([]);
      Indicator(0 in ds) + Indicator(1 in ds) + Indicator(2 in ds) + Indicator(3 in ds)
      + Indicator(4 in ds) + Indicator(5 in ds) + Indicator(6 in ds)
    else 0
  }

  function WeekSum(rule: Rule): nat
    requires rule.frequency.Some?
  {
    var f := rule.frequency.value;
    Indicator(WeekdayMatches(0, f, rule)) + Indicator(WeekdayMatches(1, f, rule))
    + Indicator(WeekdayMatches(2, f, rule)) + Indicator(WeekdayMatches(3, f, rule))
    + Indicator(WeekdayMatches(4, f, rule)) + Indicator(WeekdayMatches(5, f, rule))
    + Indicator(WeekdayMatches(6, f, rule))
  }

  lemma MatchingStep(rule: Rule, day: int, endDay: int)
    requires rule.frequency.Some? && day <= endDay
    ensures MatchingDays(rule, day, endDay)
            == Indicator(DayMatches(day, rule)) + MatchingDays(rule, day + 1, endDay)
  {
  }

  lemma WeekdayShift(day: int, i: int)
    requires 0 <= i < 7
    ensures Weekday(day + i) == (Weekday(day) + i) % 7
  {
    var q := (day + 3) / 7;
    var w0 := Weekday(day);
    assert day + 3 == 7 * q + w0;
    if w0 + i >= 7 {
      assert day + i + 3 == 7 * (q + 1) + (w0 + i - 7);
    } else {
      assert day + i + 3 == 7 * q + (w0 + i);
    }
  }

  function Sum7(v: seq<nat>): nat
    requires |v| == 7
  {
    v[0] + v[1] + v[2] + v[3] + v[4] + v[5] + v[6]
  }

  /** Reading seven values cyclically from any offset visits each once. */
  lemma Rotation(v: seq<nat>, w0: int)
    requires |v| == 7 && 0 <= w0 < 7
    ensures v[(w0 + 0) % 7] + v[(w0 + 1) % 7] + v[(w0 + 2) % 7] + v[(w0 + 3) % 7]
            + v[(w0 + 4) % 7] + v[(w0 + 5) % 7] + v[(w0 + 6) % 7] == Sum7(v)
  {
    if w0 == 0 {
    } else if w0 == 1 {
    } else if w0 == 2 {
    } else if w0 == 3 {
    } else if w0 == 4 {
    } else if w0 == 5 {
    } else {
    }
  }

  lemma DayIndicator(rule: Rule, day: int, i: int)
    requires rule.frequency.Some? && 0 <= i < 7
    ensures Indicator(DayMatches(day + i, rule))
            == Indicator(WeekdayMatches((Weekday(day) + i) % 7, rule.frequency.value, rule))
  {
    WeekdayShift(day, i);
  }

  lemma PerWeekIsWeekSum(rule: Rule)
    requires rule.frequency.Some?
    ensures PerWeek(rule) == WeekSum(rule)
  {
  }

  /** Any seven consecutive days contain each weekday once, so every rule
      matches a fixed number of days per week: 7 daily, 5 on weekdays, 2 on
      weekends, 1 weekly (0 when `day_of_week` is outside 0..6), one per
      listed weekday for custom, and none for an unknown frequency. */
  lemma {:induction false} MatchesPerWeek(rule: Rule, day: int)
    requires rule.frequency.Some?
    ensures MatchingDays(rule, day, day + 6) == PerWeek(rule)
  {
    WeekUnrolled(rule, day);
    WeekByWeekday(rule, day);
    PerWeekIsWeekSum(rule);
  }

  /** The count over seven days, day by day. */
  lemma WeekUnrolled(rule: Rule, day: int)
    requires rule.frequency.Some?
    ensures MatchingDays(rule, day, day + 6)
            == Indicator(DayMatches(day + 0, rule)) + Indicator(DayMatches(day + 1, rule))
               + Indicator(DayMatches(day + 2, rule)) + Indicator(DayMatches(day + 3, rule))
               + Indicator(DayMatches(day + 4, rule)) + Indicator(DayMatches(day + 5, rule))
               + Indicator(DayMatches(day + 6, rule))
  {
    MatchingStep(rule, day, day + 6);
    MatchingStep(rule, day + 1, day + 6);
    MatchingStep(rule, day + 2, day + 6);
    MatchingStep(rule, day + 3, day + 6);
    MatchingStep(rule, day + 4, day + 6);
    MatchingStep(rule, day + 5, day + 6);
    MatchingStep(rule, day + 6, day + 6);
    assert MatchingDays(rule, day + 7, day + 6) == 0;
  }

  /** Seven consecutive days meet every weekday once. */
  lemma WeekByWeekday(rule: Rule, day: int)
    requires rule.frequency.Some?
    ensures Indicator(DayMatches(day + 0, rule)) + Indicator(DayMatches(day + 1, rule))
            + Indicator(DayMatches(day + 2, rule)) + Indicator(DayMatches(day + 3, rule))
            + Indicator(DayMatches(day + 4, rule)) + Indicator(DayMatches(day + 5, rule))
            + Indicator(DayMatches(day + 6, rule))
            == WeekSum(rule)
  {
    var f := rule.frequency.value;
    var v: seq<nat> := seq(7, w => Indicator(WeekdayMatches(w, f, rule)));
    DayIsRotated(rule, day, 0, v);
    DayIsRotated(rule, day, 1, v);
    DayIsRotated(rule, day, 2, v);
    DayIsRotated(rule, day, 3, v);
    DayIsRotated(rule, day, 4, v);
    DayIsRotated(rule, day, 5, v);
    DayIsRotated(rule, day, 6, v);
    Rotation(v, Weekday(day));
    assert Sum7(v) == WeekSum(rule);
  }

  /** The match of the `i`-th day after `day`, read off the weekday table. */
  lemma DayIsRotated(rule: Rule, day: int, i: int, v: seq<nat>)
    requires rule.frequency.Some? && 0 <= i < 7 && |v| == 7
    requires forall w :: 0 <= w < 7 ==> v[w] == Indicator(WeekdayMatches(w, rule.frequency.value, rule))
    ensures Indicator(DayMatches(day + i, rule)) == v[(Weekday(day) + i) % 7]
  {
    DayIndicator(rule, day, i);
  }

  /** `_parse_time`: split on ':' and read hours and minutes with `int()`;
      `time()` rejects hours outside 0..23 and minutes outside 0..59. A
      parsed time is given as seconds after midnight. */
  function ParseTime(s: string): (r: Option<int>)
    ensures r.Some? ==> 0 <= r.value < DaySeconds && r.value % 60 == 0
  {
    ClockFields(Split(s, ':'))
  }

  /** The time of day the first two colon-separated fields denote, if any. */
  function ClockFields(parts: seq<string>): (r: Option<int>)
    ensures r.Some? ==> 0 <= r.value < DaySeconds && r.value % 60 == 0
  {
    if |parts| < 2 then None
    else
      var h := ParseInt(parts[0]);
      var m := ParseInt(parts[1]);
      if h.Some? && m.Some? && 0 <= h.value <= 23 && 0 <= m.value <= 59 then
        Some(ClockSeconds(h.value, m.value))
      else None
  }

  /** Seconds after midnight of hour `h` and minute `m`. */
  function ClockSeconds(h: int, m: int): (r: int)
    requires 0 <= h <= 23 && 0 <= m <= 59
    ensures 0 <= r < DaySeconds && r % 60 == 0
  {
    var minutes := h * 60 + m;
    assert minutes * 60 % 60 == 0;
    minutes * 60
  }

  /** Two-digit rendering of an hour or minute, as in "07:05". */
  function TwoDigits(n: nat): (s: string)
    requires n < 100
    ensures |s| == 2 && AllDigits(s) && DigitsValue(s) == n
  {
    var s := [DigitChar(n / 10), DigitChar(n % 10)];
    assert s[..1] == [DigitChar(n / 10)];
    assert s[..1][..0] == [];
    assert DigitsValue(s[..1]) == n / 10;
    assert DigitsValue(s) == (n / 10) * 10 + n % 10;
    s
  }

  function ClockText(h: nat, m: nat): string
    requires h < 24 && m < 60
  {
    TwoDigits(h) + ":" + TwoDigits(m)
  }

  /** Two two-digit fields around a colon parse to that hour and minute
      when both are in range. */
  lemma ParseClockDigits(a: string, b: string)
    requires |a| == 2 && |b| == 2 && AllDigits(a) && AllDigits(b)
    requires DigitsValue(a) <= 23 && DigitsValue(b) <= 59
    ensures ParseTime(a + ":" + b) == Some(DigitsValue(a) * 3600 + DigitsValue(b) * 60)
  {
    SplitClock(a, b);
    DigitFields(a, b);
  }

  /** Two fields of digits in range denote that hour and minute. */
  lemma DigitFields(a: string, b: string)
    requires |a| > 0 && |b| > 0 && AllDigits(a) && AllDigits(b)
    requires DigitsValue(a) <= 23 && DigitsValue(b) <= 59
    ensures ClockFields([a, b]) == Some(DigitsValue(a) * 3600 + DigitsValue(b) * 60)
  {
    DigitsField(a);
    DigitsField(b);
    var h, m := DigitsValue(a), DigitsValue(b);
    assert ClockSeconds(h, m) == h * 3600 + m * 60;
  }

  /** A field of digits reads as its decimal value. */
  lemma DigitsField(a: string)
    requires |a| > 0 && AllDigits(a)
    ensures ParseInt(a) == Some(DigitsValue(a))
  {
    StripDigits(a);
  }

  lemma SplitClock(a: string, b: string)
    requires |a| == 2 && AllDigits(a) && AllDigits(b)
    ensures Split(a + ":" + b, ':') == [a, b]
  {
    var s := a + ":" + b;
    assert s == a + [':'] + b;
    assert ':' !in a;
    assert FirstIndex(s, ':') == 2;
    assert s[..2] == a;
    assert s[3..] == b;
    assert ':' !in b;
  }

  /** Every "HH:MM" text with a valid hour and minute parses back. */
  lemma ClockTextParses(h: nat, m: nat)
    requires h < 24 && m < 60
    ensures ParseTime(ClockText(h, m)) == Some(h * 3600 + m * 60)
  {
    ParseClockDigits(TwoDigits(h), TwoDigits(m));
  }

  lemma StripDigits(s: string)
    requires |s| > 0 && AllDigits(s)
    ensures Strip(s) == s
  {
    assert !IsSpace(s[0]) && !IsSpace(s[|s| - 1]);
  }

  /** Seconds after midnight of the window's start, when it parses. */
  function StartOffset(rule: Rule): int {
    if rule.windowStart.Some? && ParseTime(rule.windowStart.value).Some? then
      ParseTime(rule.windowStart.value).value
    else 0
  }

  /** The window of one day: `day@start` to `day@end`, moved one day on when
      the end is not after the start. Missing or unparseable times raise. */
  function Window(day: int, rule: Rule): (r: Result<Interval>)
    ensures r.Ok? ==> Midnight(day) <= r.value.start < Midnight(day + 1)
    ensures r.Ok? ==> r.value.start == Midnight(day) + StartOffset(rule)
    ensures r.Ok? ==> r.value.start < r.value.end <= r.value.start + DaySeconds
    ensures r.Ok? ==> r.value.end <= Midnight(day + 1) + StartOffset(rule)
  {
    WindowOf(day, rule.windowStart, rule.windowEnd)
  }

  /** The window from the two time fields alone. */
  function WindowOf(day: int, windowStart: Option<string>, windowEnd: Option<string>): Result<Interval> {
    if windowStart.None? || windowEnd.None? then Err("KeyError: time window")
    else
      var st := ParseTime(windowStart.value);
      var et := ParseTime(windowEnd.value);
      if st.None? || et.None? then Err("ValueError: time window")
      else
        var ws := Midnight(day) + st.value;
        var we := Midnight(day) + et.value;
        Ok(Interval(ws, if we <= ws then we + DaySeconds else we))
  }

  /** The interval clipped to the horizon `[hs, he]`. */
  function Clip(w: Interval, hs: int, he: int): (c: Interval)
    ensures c.start >= hs && c.end <= he
    ensures c.start >= w.start && c.end <= w.end
  {
    Interval(Max(w.start, hs), Min(w.end, he))
  }

  predicate NonEmpty(w: Interval) {
    w.start < w.end
  }

  predicate InHorizon(w: Interval, hs: int, he: int) {
    hs <= w.start < w.end <= he
  }

  /** Windows that neither overlap nor go backwards. */
  predicate SortedDisjoint(ws: seq<Interval>) {
    forall i, j :: 0 <= i < j < |ws| ==> ws[i].end <= ws[j].start
  }

  /** The window a matching day contributes once clipped to the horizon. */
  predicate FromDay(w: Interval, rule: Rule, d: int, hs: int, he: int) {
    rule.frequency.Some? && DayMatches(d, rule) && Window(d, rule).Ok?
    && w == Clip(Window(d, rule).value, hs, he)
  }

  /** What one day contributes: nothing when it does not match or its
      clipped window is empty, else the clipped window. */
  function DayWindows(rule: Rule, day: int, hs: int, he: int): (r: Result<seq<Interval>>)
    requires rule.frequency.Some?
    ensures r.Ok? ==> |r.value| <= Indicator(DayMatches(day, rule))
    ensures r.Ok? ==> forall i :: 0 <= i < |r.value| ==>
              InHorizon(r.value[i], hs, he) && FromDay(r.value[i], rule, day, hs, he)
    ensures r.Ok? ==> forall i :: 0 <= i < |r.value| ==>
              Midnight(day) + StartOffset(rule) <= r.value[i].start
              && r.value[i].end <= Midnight(day + 1) + StartOffset(rule)
    ensures r.Ok? && DayMatches(day, rule) ==>
              Window(day, rule).Ok?
              && (NonEmpty(Clip(Window(day, rule).value, hs, he)) ==>
                    r.value == [Clip(Window(day, rule).value, hs, he)])
    ensures r.Err? ==> DayMatches(day, rule) && Window(day, rule).Err?
  {
    if !DayMatches(day, rule) then Ok([])
    else
      var w :- Window(day, rule);
      var c := Clip(w, hs, he);
      Ok(if NonEmpty(c) then [c] else [])
  }

  lemma AppendSortedDisjoint(a: seq<Interval>, b: seq<Interval>, mid: int)
    requires SortedDisjoint(a) && SortedDisjoint(b)
    requires forall i :: 0 <= i < |a| ==> a[i].end <= mid
    requires forall i :: 0 <= i < |b| ==> mid <= b[i].start
    ensures SortedDisjoint(a + b)
  {
  }

  /** The clipped windows of the matching days `day..endDay`, in day order. */
  function WindowsFrom(rule: Rule, day: int, endDay: int, hs: int, he: int): (r: Result<seq<Interval>>)
    ensures r.Ok? ==> forall i :: 0 <= i < |r.value| ==> InHorizon(r.value[i], hs, he)
    ensures r.Ok? ==> forall i :: 0 <= i < |r.value| ==> r.value[i].start >= Midnight(day) + StartOffset(rule)
    ensures r.Ok? ==> SortedDisjoint(r.value)
    ensures r.Ok? && day <= endDay ==> rule.frequency.Some? && |r.value| <= MatchingDays(rule, day, endDay)
    ensures day > endDay ==> r == Ok([])
    decreases endDay - day + 1
  {
    if day > endDay then Ok([])
    else if rule.frequency.None? then Err("KeyError: frequency")
    else
      var here :- DayWindows(rule, day, hs, he);
      var rest :- WindowsFrom(rule, day + 1, endDay, hs, he);
      AppendSortedDisjoint(here, rest, Midnight(day + 1) + StartOffset(rule));
      Ok(here + rest)
  }

  /** Soundness: each window is the clipped window of a matching day in range. */
  lemma {:induction false} WindowsFromSound(rule: Rule, day: int, endDay: int, hs: int, he: int)
    requires WindowsFrom(rule, day, endDay, hs, he).Ok?
    ensures forall w :: w in WindowsFrom(rule, day, endDay, hs, he).value ==>
              exists d :: day <= d <= endDay && FromDay(w, rule, d, hs, he)
    decreases endDay - day + 1
  {
    if day <= endDay {
      var here := DayWindows(rule, day, hs, he).value;
      var rest := WindowsFrom(rule, day + 1, endDay, hs, he).value;
      WindowsFromSound(rule, day + 1, endDay, hs, he);
      assert WindowsFrom(rule, day, endDay, hs, he).value == here + rest;
      forall w | w in here + rest
        ensures exists d :: day <= d <= endDay && FromDay(w, rule, d, hs, he)
      {
        if w in here {
          var i :| 0 <= i < |here| && here[i] == w;
          assert FromDay(w, rule, day, hs, he);
        } else {
          assert w in rest;
          var d :| day + 1 <= d <= endDay && FromDay(w, rule, d, hs, he);
        }
      }
    }
  }

  /** Completeness: every matching day in range whose clipped window is
      non-empty contributes that window. */
  lemma {:induction false} WindowsFromComplete(rule: Rule, day: int, endDay: int, hs: int, he: int, d: int)
    requires WindowsFrom(rule, day, endDay, hs, he).Ok?
    requires day <= d <= endDay && rule.frequency.Some? && DayMatches(d, rule)
    ensures Window(d, rule).Ok?
    ensures NonEmpty(Clip(Window(d, rule).value, hs, he)) ==>
              Clip(Window(d, rule).value, hs, he) in WindowsFrom(rule, day, endDay, hs, he).value
    decreases endDay - day + 1
  {
    var here := DayWindows(rule, day, hs, he).value;
    var rest := WindowsFrom(rule, day + 1, endDay, hs, he).value;
    assert WindowsFrom(rule, day, endDay, hs, he).value == here + rest;
    if d > day {
      WindowsFromComplete(rule, day + 1, endDay, hs, he, d);
    }
  }

  /** All clipped windows of a rule over the horizon: every calendar day from
      the horizon start's date to the horizon end's date inclusive. */
  function ClippedWindows(rule: Rule, hs: int, he: int): (r: Result<seq<Interval>>)
    ensures r.Ok? ==> forall i :: 0 <= i < |r.value| ==> InHorizon(r.value[i], hs, he)
    ensures r.Ok? ==> SortedDisjoint(r.value)
    ensures r.Ok? && DayOf(hs) <= DayOf(he) ==>
              rule.frequency.Some? && |r.value| <= MatchingDays(rule, DayOf(hs), DayOf(he))
  {
    WindowsFrom(rule, DayOf(hs), DayOf(he), hs, he)
  }

  /** The expansion over the horizon is exactly the clipped, non-empty
      windows of the matching days from the horizon start's date to its end's
      date: a window is present if and only if such a day produces it. */
  lemma ClippedWindowsCharacterized(rule: Rule, hs: int, he: int, w: Interval)
    requires ClippedWindows(rule, hs, he).Ok?
    ensures w in ClippedWindows(rule, hs, he).value <==>
              NonEmpty(w) && exists d :: DayOf(hs) <= d <= DayOf(he) && FromDay(w, rule, d, hs, he)
  {
    var ws := ClippedWindows(rule, hs, he).value;
    WindowsFromSound(rule, DayOf(hs), DayOf(he), hs, he);
    if w in ws {
      var i :| 0 <= i < |ws| && ws[i] == w;
      assert InHorizon(ws[i], hs, he);
    }
    if NonEmpty(w) && exists d :: DayOf(hs) <= d <= DayOf(he) && FromDay(w, rule, d, hs, he) {
      var d :| DayOf(hs) <= d <= DayOf(he) && FromDay(w, rule, d, hs, he);
      WindowsFromComplete(rule, DayOf(hs), DayOf(he), hs, he, d);
    }
  }

  /** Two rules that agree on everything the day matcher and the window
      construction read: the frequency, the two times, and the weekday
      fields the frequency consults (with their defaults applied). */
  predicate SameSchedule(r1: Rule, r2: Rule) {
    r1.frequency == r2.frequency
    && r1.windowStart == r2.windowStart && r1.windowEnd == r2.windowEnd
    && (r1.frequency == Some("weekly") ==> r1.dayOfWeek.GetOr(0) == r2.dayOfWeek.GetOr(0))
    && (r1.frequency == Some("custom") ==> r1.daysOfWeek.GetOr([]) == r2.daysOfWeek.GetOr([]))
  }

  /** Rules with the same schedule expand to the same windows, or raise alike. */
  lemma {:induction false} WindowsFromSameSchedule(r1: Rule, r2: Rule, day: int, endDay: int, hs: int, he: int)
    requires SameSchedule(r1, r2)
    ensures WindowsFrom(r1, day, endDay, hs, he) == WindowsFrom(r2, day, endDay, hs, he)
    decreases endDay - day + 1
  {
    if day <= endDay && r1.frequency.Some? {
      DayWindowsSameSchedule(r1, r2, day, hs, he);
      WindowsFromSameSchedule(r1, r2, day + 1, endDay, hs, he);
    }
  }

  lemma DayWindowsSameSchedule(r1: Rule, r2: Rule, day: int, hs: int, he: int)
    requires SameSchedule(r1, r2) && r1.frequency.Some?
    ensures DayWindows(r1, day, hs, he) == DayWindows(r2, day, hs, he)
  {
    assert DayMatches(day, r1) == DayMatches(day, r2);
    assert Window(day, r1) == Window(day, r2);
  }

  /** Two rules that match the same days: the frequency and the weekday
      fields it consults agree, whatever their window times. */
  predicate SameDays(r1: Rule, r2: Rule) {
    r1.frequency == r2.frequency
    && (r1.frequency == Some("weekly") ==> r1.dayOfWeek.GetOr(0) == r2.dayOfWeek.GetOr(0))
    && (r1.frequency == Some("custom") ==> r1.daysOfWeek.GetOr([]) == r2.daysOfWeek.GetOr([]))
  }

  /** A rule lacking a window time expands without raising only when no day
      of the range matches, and then it yields no window. */
  lemma {:induction false} WindowsFromMissingTime(rule: Rule, day: int, endDay: int, hs: int, he: int)
    requires rule.windowStart.None? || rule.windowEnd.None?
    requires WindowsFrom(rule, day, endDay, hs, he).Ok?
    ensures WindowsFrom(rule, day, endDay, hs, he) == Ok([])
    ensures day <= endDay ==> rule.frequency.Some? && forall d :: day <= d <= endDay ==> !DayMatches(d, rule)
    decreases endDay - day + 1
  {
    if day <= endDay {
      var here := DayWindows(rule, day, hs, he);
      assert here.Ok?;
      assert !DayMatches(day, rule) by {
        assert Window(day, rule).Err?;
      }
      assert here.value == [];
      WindowsFromMissingTime(rule, day + 1, endDay, hs, he);
    }
  }

  /** A range without a matching day yields no window. */
  lemma {:induction false} WindowsFromNoMatch(rule: Rule, day: int, endDay: int, hs: int, he: int)
    requires rule.frequency.Some?
    requires forall d :: day <= d <= endDay ==> !DayMatches(d, rule)
    ensures WindowsFrom(rule, day, endDay, hs, he) == Ok([])
    decreases endDay - day + 1
  {
    if day <= endDay {
      assert !DayMatches(day, rule);
      WindowsFromNoMatch(rule, day + 1, endDay, hs, he);
    }
  }

  /** Rules matching the same days agree on every day. */
  lemma DayMatchesSameDays(r1: Rule, r2: Rule, d: int)
    requires SameDays(r1, r2) && r1.frequency.Some?
    ensures DayMatches(d, r1) == DayMatches(d, r2)
  {
  }

  /** A rule missing its frequency or a window time expands without raising
      only to no window, and then any rule matching the same days, with
      frequency defaulted if missing, expands to no window either. */
  lemma ClippedWindowsMissingKey(rule: Rule, other: Rule, hs: int, he: int)
    requires rule.frequency.None? || rule.windowStart.None? || rule.windowEnd.None?
    requires other.frequency.Some?
    requires rule.frequency.Some? ==> SameDays(rule, other)
    requires ClippedWindows(rule, hs, he).Ok?
    ensures ClippedWindows(rule, hs, he) == Ok([])
    ensures ClippedWindows(other, hs, he) == Ok([])
  {
    if DayOf(hs) <= DayOf(he) {
      assert rule.frequency.Some?;
      WindowsFromMissingTime(rule, DayOf(hs), DayOf(he), hs, he);
      forall d | DayOf(hs) <= d <= DayOf(he)
        ensures !DayMatches(d, other)
      {
        DayMatchesSameDays(rule, other, d);
      }
      WindowsFromNoMatch(other, DayOf(hs), DayOf(he), hs, he);
    }
  }

  lemma ClippedWindowsSameSchedule(r1: Rule, r2: Rule, hs: int, he: int)
    requires SameSchedule(r1, r2)
    ensures ClippedWindows(r1, hs, he) == ClippedWindows(r2, hs, he)
  {
    WindowsFromSameSchedule(r1, r2, DayOf(hs), DayOf(he), hs, he);
  }

  /** Any daily rule with the given window times. */
  function DailyRule(windowStart: string, windowEnd: string): Rule {
    Rule(Some("daily"), Some(windowStart), Some(windowEnd), None, None, None, None, None)
  }

  /** The window of a day from the two parsed times: an end not after the
      start moves to the next day. */
  lemma WindowFromTimes(day: int, windowStart: string, windowEnd: string, st: int, et: int)
    ensures ParseTime(windowStart) == Some(st) && ParseTime(windowEnd) == Some(et) ==>
              Window(day, DailyRule(windowStart, windowEnd))
              == Ok(Interval(Midnight(day) + st,
                             if et <= st then Midnight(day) + et + DaySeconds else Midnight(day) + et))
  {
    assert Window(day, DailyRule(windowStart, windowEnd)) == WindowOf(day, Some(windowStart), Some(windowEnd));
  }

  /** Equal start and end times make a window of a whole day, as with
      "00:00" to "00:00". */
  lemma EqualTimesWholeDay(day: int, t: string, st: int)
    requires ParseTime(t) == Some(st)
    ensures Window(day, DailyRule(t, t)) == Ok(Interval(Midnight(day) + st, Midnight(day) + st + DaySeconds))
  {
    WindowFromTimes(day, t, t, st, st);
  }

  /** An end time before the start time makes an overnight window lasting
      from the start to the end the next morning, as with "22:00" to
      "06:00". */
  lemma OvernightSpan(day: int, windowStart: string, windowEnd: string, st: int, et: int)
    ensures ParseTime(windowStart) == Some(st) && ParseTime(windowEnd) == Some(et) && et < st ==>
              var w := Window(day, DailyRule(windowStart, windowEnd));
              w.Ok? && w.value.start == Midnight(day) + st && w.value.end - w.value.start == DaySeconds - (st - et)
  {
    if ParseTime(windowStart) == Some(st) && ParseTime(windowEnd) == Some(et) && et < st {
      WindowFromTimes(day, windowStart, windowEnd, st, et);
    }
  }
}

=== FILE: schedule.dfy ===
/** The records exchanged with the optimizer: the power boxes the request
    carries, and the assignments and battery profile of its response. */
module Schedule {
  import opened Common
  import opened Duration

  /** A duration field of a box: text copied from a definition, or the
      rendering of a whole number of seconds by the integration's formatter. */
  datatype Dur = Text(text: string) | Seconds(n: nat)

  /** The seconds a duration field stands for when read back with
      `parse_slot_duration_seconds`. A formatted duration is read as its
      seconds; a zero falls back to 300 as every zero total does. */
  function DurSeconds(d: Dur): (r: nat)
    ensures r > 0
    ensures d.Text? ==> r == ParseSlotDurationSeconds(d.text)
    ensures d.Seconds? && d.n > 0 ==> r == d.n
  {
    match d
    case Text(s) => ParseSlotDurationSeconds(s)
    case Seconds(n) => if n > 0 then n else DefaultSeconds
  }

  /** One entry of the request's `boxes`: a window in which `entity` may
      (or, when forced, must) draw power for up to `maximumDuration`. */
  datatype PowerBox = PowerBox(
    entity: string,
    start: int,
    finish: int,
    maximumDuration: Dur,
    minimumDuration: Dur,
    minimumBurst: Dur,
    acPower: real,
    dcPower: real,
    force: bool,
    benefit: real)

  predicate BoxInHorizon(b: PowerBox, hs: int, he: int) {
    hs <= b.start < b.finish <= he
  }

  /** Boxes that neither overlap nor go backwards. */
  predicate BoxesOrdered(bs: seq<PowerBox>) {
    forall i, j :: 0 <= i < j < |bs| ==> bs[i].finish <= bs[j].start
  }

  /** One entry of the response's `assignments`; `None` marks an absent key. */
  datatype Assignment = Assignment(
    entity: string,
    slots: seq<int>,
    runTimeSeconds: Option<real>,
    energyCost: Option<real>,
    acPower: Option<real>,
    dcPower: Option<real>)

  /** One entry of the response's `battery_profile`. */
  datatype ProfileEntry = ProfileEntry(
    time: Option<int>,
    socKwh: Option<real>,
    gridImport: Option<real>,
    gridExport: Option<real>)

  /** The parts of the optimizer's response the integration reads; an absent
      list is read as empty everywhere. */
  datatype Response = Response(assignments: seq<Assignment>, batteryProfile: seq<ProfileEntry>)

  /** Slots are half open: a slot starting at `start` covers
      `start <= now < start + dur`. */
  predicate SlotActive(start: int, now: int, dur: int) {
    start <= now < start + dur
  }

  /** The scan every reader performs: is some slot active now? */
  function AnyActive(slots: seq<int>, now: int, dur: int): (b: bool)
    ensures b <==> exists i :: 0 <= i < |slots| && SlotActive(slots[i], now, dur)
  {
    if |slots| == 0 then false
    else if SlotActive(slots[0], now, dur) then true
    else
      var b := AnyActive(slots[1..], now, dur);
      assert forall i :: 1 <= i < |slots| ==> slots[i] == slots[1..][i - 1];
      b
  }
}

=== FILE: sensor.dfy ===
/** The schedule sensors (`sensor.py`): the next job, the per-job next
    start, run time and energy cost read from the merged assignments of an
    entity, the battery state-of-charge forecast, and the unique ids of job
    entities restored from the registry. */
module Sensor {
  import opened Common
  import opened Schedule
  import JobEntities

  /** Index of the first slot strictly after `now`, or the length. */
  function FirstAfterIndex(slots: seq<int>, now: int): (i: nat)
    ensures i <= |slots|
    ensures forall j :: 0 <= j < i ==> slots[j] <= now
    ensures i < |slots| ==> slots[i] > now
  {
    if |slots| == 0 then 0
    else if slots[0] > now then 0
    else 1 + FirstAfterIndex(slots[1..], now)
  }

  /** The first slot in list order strictly after `now`. */
  function FirstAfter(slots: seq<int>, now: int): (r: Option<int>)
    ensures r.None? <==> forall j :: 0 <= j < |slots| ==> slots[j] <= now
    ensures r.Some? ==> exists i :: 0 <= i < |slots| && slots[i] == r.value && r.value > now
                                    && forall j :: 0 <= j < i ==> slots[j] <= now
  {
    var i := FirstAfterIndex(slots, now);
    if i < |slots| then Some(slots[i]) else None
  }

  /** The time an assignment offers to the next-job search: none for an
      internal entity, else its first slot after `now`. */
  function Candidate(a: Assignment, now: int): Option<int> {
    if IsSentinel(a.entity) then None else FirstAfter(a.slots, now)
  }

  /** Assignment `k` wins the search: it offers a time no later than any
      other offer, and strictly earlier than every offer listed before it. */
  predicate IsWinner(assignments: seq<Assignment>, now: int, k: int) {
    0 <= k < |assignments| && Candidate(assignments[k], now).Some?
    && forall j :: 0 <= j < |assignments| && Candidate(assignments[j], now).Some? ==>
         Candidate(assignments[k], now).value <= Candidate(assignments[j], now).value
         && (j < k ==> Candidate(assignments[k], now).value < Candidate(assignments[j], now).value)
  }

  /** `_find_next_job_entity`: the entity of the earliest first-future slot
      among non-internal assignments; on a tie the assignment listed first. */
  method FindNextJobEntity(assignments: seq<Assignment>, now: int) returns (r: Option<string>)
    ensures r.None? <==> forall k :: 0 <= k < |assignments| ==> Candidate(assignments[k], now).None?
    ensures r.Some? ==> exists k :: IsWinner(assignments, now, k) && r.value == assignments[k].entity
  {
    var bestTime: Option<int> := None;
    var bestIndex: nat := 0;
    r := None;
    var i := 0;
    while i < |assignments|
      invariant 0 <= i <= |assignments|
      invariant bestTime.None? <==> forall k :: 0 <= k < i ==> Candidate(assignments[k], now).None?
      invariant bestTime.None? ==> r.None?
      invariant bestTime.Some? ==>
                  bestIndex < i && Candidate(assignments[bestIndex], now) == bestTime
                  && r == Some(assignments[bestIndex].entity)
                  && forall k :: 0 <= k < i && Candidate(assignments[k], now).Some? ==>
                       bestTime.value <= Candidate(assignments[k], now).value
                       && (k < bestIndex ==> bestTime.value < Candidate(assignments[k], now).value)
    {
      var c := Candidate(assignments[i], now);
      if c.Some? && (bestTime.None? || c.value < bestTime.value) {
        bestTime := c;
        bestIndex := i;
        r := Some(assignments[i].entity);
      }
      i := i + 1;
    }
    if bestTime.Some? {
      assert IsWinner(assignments, now, bestIndex);
    }
  }

  /** The assignments for `entity`, in order. */
  function Matches(assignments: seq<Assignment>, entity: string): (ms: seq<Assignment>)
    ensures |ms| <= |assignments|
    ensures forall k :: 0 <= k < |ms| ==> ms[k].entity == entity && ms[k] in assignments
    ensures |ms| == 0 <==> forall k :: 0 <= k < |assignments| ==> assignments[k].entity != entity
  {
    if |assignments| == 0 then []
    else
      var rest := Matches(assignments[1..], entity);
      assert forall k :: 1 <= k < |assignments| ==> assignments[k] == assignments[1..][k - 1];
      if assignments[0].entity == entity then [assignments[0]] + rest else rest
  }

  function ConcatSlots(ms: seq<Assignment>): seq<int> {
    if |ms| == 0 then [] else ms[0].slots + ConcatSlots(ms[1..])
  }

  function SumRunTime(ms: seq<Assignment>): real {
    if |ms| == 0 then 0.0 else ms[0].runTimeSeconds.GetOr(0.0) + SumRunTime(ms[1..])
  }

  function SumEnergyCost(ms: seq<Assignment>): real {
    if |ms| == 0 then 0.0 else ms[0].energyCost.GetOr(0.0) + SumEnergyCost(ms[1..])
  }

  /** Folding one more assignment into the merged one. */
  function MergeInto(m: Assignment, a: Assignment): Assignment {
    m.(slots := m.slots + a.slots,
       runTimeSeconds := Some(m.runTimeSeconds.GetOr(0.0) + a.runTimeSeconds.GetOr(0.0)),
       energyCost := Some(m.energyCost.GetOr(0.0) + a.energyCost.GetOr(0.0)))
  }

  /** The loop after the first match: every later assignment for `entity`
      is folded in. */
  function MergeRest(m: Assignment, rest: seq<Assignment>, entity: string): Assignment
    decreases |rest|
  {
    if |rest| == 0 then m
    else MergeRest(if rest[0].entity == entity then MergeInto(m, rest[0]) else m, rest[1..], entity)
  }

  /** `_get_assignment_for_entity`. */
  function AssignmentFor(assignments: seq<Assignment>, entity: string): (r: Option<Assignment>)
    decreases |assignments|
  {
    if |assignments| == 0 then None
    else if assignments[0].entity == entity then Some(MergeRest(assignments[0], assignments[1..], entity))
    else AssignmentFor(assignments[1..], entity)
  }

  lemma {:induction false} MergeRestExact(m: Assignment, rest: seq<Assignment>, entity: string)
    ensures var r := MergeRest(m, rest, entity);
            r.entity == m.entity && r.acPower == m.acPower && r.dcPower == m.dcPower
            && r.slots == m.slots + ConcatSlots(Matches(rest, entity))
            && r.runTimeSeconds.GetOr(0.0) == m.runTimeSeconds.GetOr(0.0) + SumRunTime(Matches(rest, entity))
            && r.energyCost.GetOr(0.0) == m.energyCost.GetOr(0.0) + SumEnergyCost(Matches(rest, entity))
            && (|Matches(rest, entity)| > 0 ==>
                  r.runTimeSeconds.Some? && r.energyCost.Some?)
            && (|Matches(rest, entity)| == 0 ==> r == m)
    decreases |rest|
  {
    if |rest| > 0 {
      var m' := if rest[0].entity == entity then MergeInto(m, rest[0]) else m;
      MergeRestExact(m', rest[1..], entity);
      if rest[0].entity == entity {
        assert Matches(rest, entity) == [rest[0]] + Matches(rest[1..], entity);
        assert ([rest[0]] + Matches(rest[1..], entity))[1..] == Matches(rest[1..], entity);
        assert m.slots + rest[0].slots + ConcatSlots(Matches(rest[1..], entity))
            == m.slots + (rest[0].slots + ConcatSlots(Matches(rest[1..], entity)));
      } else {
        assert Matches(rest, entity) == Matches(rest[1..], entity);
      }
    }
  }

  /** The merged assignment exists exactly when some assignment is for the
      entity; it takes its other fields from the first, its slots are all
      the matching slots in order, and its run time and energy cost are
      the sums over the matches. */
  lemma {:induction false} AssignmentForCharacterized(assignments: seq<Assignment>, entity: string)
    ensures var r := AssignmentFor(assignments, entity);
            var ms := Matches(assignments, entity);
            (r.None? <==> |ms| == 0)
            && (r.Some? ==>
                  r.value.entity == entity && r.value.acPower == ms[0].acPower && r.value.dcPower == ms[0].dcPower
                  && r.value.slots == ConcatSlots(ms)
                  && r.value.runTimeSeconds.GetOr(0.0) == SumRunTime(ms)
                  && r.value.energyCost.GetOr(0.0) == SumEnergyCost(ms)
                  && (|ms| == 1 ==> r.value == ms[0])
                  && (|ms| > 1 ==> r.value.runTimeSeconds.Some? && r.value.energyCost.Some?))
    decreases |assignments|
  {
    if |assignments| > 0 {
      var a := assignments[0];
      if a.entity == entity {
        var ms := Matches(assignments, entity);
        assert ms == [a] + Matches(assignments[1..], entity);
        assert ms[1..] == Matches(assignments[1..], entity);
        MergeRestExact(a, assignments[1..], entity);
        assert ConcatSlots(ms) == a.slots + ConcatSlots(ms[1..]);
        assert SumRunTime(ms) == a.runTimeSeconds.GetOr(0.0) + SumRunTime(ms[1..]);
        assert SumEnergyCost(ms) == a.energyCost.GetOr(0.0) + SumEnergyCost(ms[1..]);
        if |ms| == 1 {
          assert ConcatSlots(ms[1..]) == [];
          assert a.slots + [] == a.slots;
        }
      } else {
        assert Matches(assignments, entity) == Matches(assignments[1..], entity);
        AssignmentForCharacterized(assignments[1..], entity);
      }
    }
  }

  /** The next-start sensor: the first merged slot strictly after `now`. */
  function NextStart(data: Option<Response>, entity: string, now: int): (r: Option<int>)
    ensures data.None? ==> r.None?
    ensures r.Some? ==> r.value > now
  {
    if data.None? then None
    else
      var m := AssignmentFor(data.value.assignments, entity);
      if m.None? then None else FirstAfter(m.value.slots, now)
  }

  /** The next start is the first slot after `now` across the entity's
      assignments taken in order; none when it has no assignment or every
      such slot has passed. */
  lemma NextStartCharacterized(data: Option<Response>, entity: string, now: int)
    requires data.Some?
    ensures NextStart(data, entity, now) == FirstAfter(ConcatSlots(Matches(data.value.assignments, entity)), now)
  {
    AssignmentForCharacterized(data.value.assignments, entity);
  }

  /** The run-time sensor: the merged run time in hours. */
  function RunTimeHours(data: Option<Response>, entity: string): (r: Option<real>)
    ensures data.None? ==> r.None?
  {
    if data.None? then None
    else
      var m := AssignmentFor(data.value.assignments, entity);
      if m.None? then None else Some(m.value.runTimeSeconds.GetOr(0.0) / 3600.0)
  }

  /** The run time in hours is the entity's total run seconds over 3600,
      present exactly when the entity has an assignment. */
  lemma RunTimeIsTotal(data: Option<Response>, entity: string)
    requires data.Some?
    ensures RunTimeHours(data, entity).Some? <==> |Matches(data.value.assignments, entity)| > 0
    ensures RunTimeHours(data, entity).Some? ==>
              RunTimeHours(data, entity).value * 3600.0 == SumRunTime(Matches(data.value.assignments, entity))
  {
    AssignmentForCharacterized(data.value.assignments, entity);
  }

  /** The energy-cost sensor: the merged cost, absent when the only
      assignment carries none. */
  function EnergyCostValue(data: Option<Response>, entity: string): (r: Option<real>)
    ensures data.None? ==> r.None?
  {
    if data.None? then None
    else
      var m := AssignmentFor(data.value.assignments, entity);
      if m.None? then None else m.value.energyCost
  }

  /** With several assignments the cost is their total; with one it is that
      assignment's own, possibly absent, cost. */
  lemma EnergyCostIsTotal(data: Option<Response>, entity: string)
    requires data.Some?
    ensures var ms := Matches(data.value.assignments, entity);
            (|ms| == 0 ==> EnergyCostValue(data, entity).None?)
            && (|ms| == 1 ==> EnergyCostValue(data, entity) == ms[0].energyCost)
            && (|ms| > 1 ==> EnergyCostValue(data, entity) == Some(SumEnergyCost(ms)))
  {
    AssignmentForCharacterized(data.value.assignments, entity);
  }

  /** The state-of-charge forecast value: the last profile entry's charge. */
  function SocForecastValue(data: Option<Response>): (r: Option<real>)
    ensures data.None? || |data.value.batteryProfile| == 0 ==> r.None?
    ensures data.Some? && |data.value.batteryProfile| > 0 ==>
              r == data.value.batteryProfile[|data.value.batteryProfile| - 1].socKwh
  {
    if data.None? || |data.value.batteryProfile| == 0 then None
    else data.value.batteryProfile[|data.value.batteryProfile| - 1].socKwh
  }

  /** A point of the forecast attribute: epoch milliseconds and charge. */
  datatype Point = Point(epochMs: int, socKwh: real)

  /** Whether an entry contributes a point: it has both a time and a charge. */
  predicate Plotted(e: ProfileEntry) {
    e.time.Some? && e.socKwh.Some?
  }

  /** The point of a plotted entry; instants are local wall-clock seconds at
      the fixed offset `utcOffset` from UTC. */
  function PointOf(e: ProfileEntry, utcOffset: int): Point
    requires Plotted(e)
  {
    Point((e.time.value - utcOffset) * 1000, e.socKwh.value)
  }

  function Points(profile: seq<ProfileEntry>, utcOffset: int): (r: seq<Point>)
    ensures |r| <= |profile|
  {
    if |profile| == 0 then []
    else
      var rest := Points(profile[1..], utcOffset);
      if Plotted(profile[0]) then [PointOf(profile[0], utcOffset)] + rest else rest
  }

  /** The forecast attribute: absent without a schedule or with an empty
      profile; otherwise the points of the plotted entries in profile order. */
  function SocForecastAttribute(data: Option<Response>, utcOffset: int): (r: Option<seq<Point>>)
    ensures r.None? <==> data.None? || |data.value.batteryProfile| == 0
  {
    if data.None? || |data.value.batteryProfile| == 0 then None
    else Some(Points(data.value.batteryProfile, utcOffset))
  }

  /** Exactly the plotted entries give points, in order: the points of a
      split profile are the points of its halves. */
  lemma {:induction false} PointsAppend(a: seq<ProfileEntry>, b: seq<ProfileEntry>, utcOffset: int)
    ensures Points(a + b, utcOffset) == Points(a, utcOffset) + Points(b, utcOffset)
    decreases |a|
  {
    if |a| == 0 {
      assert a + b == b;
    } else {
      TailOfAppend(a, b);
      PointsAppend(a[1..], b, utcOffset);
    }
  }

  lemma PointsSingle(e: ProfileEntry, utcOffset: int)
    ensures Points([e], utcOffset) == (if Plotted(e) then [PointOf(e, utcOffset)] else [])
  {
    assert [e][1..] == [];
  }

  /** `_sanitize_entity`. */
  function SanitizeEntity(entityId: string): (r: string)
    ensures |r| == |entityId| && '.' !in r
    ensures forall i :: 0 <= i < |r| ==> r[i] == (if entityId[i] == '.' then '_' else entityId[i])
  {
    var r := ReplaceAll(entityId, '.', '_');
    assert forall i :: 0 <= i < |r| ==> r[i] != '.';
    r
  }

  /** The registry restore: a unique id under the entry's job prefix gives
      back an entity id by turning the first "_" after the prefix into ".". */
  function RestoredEntityId(entryId: string, uniqueId: string): (r: Option<string>)
    ensures r.Some? <==> StartsWith(uniqueId, entryId + "_job_")
  {
    var prefix := entryId + "_job_";
    if StartsWith(uniqueId, prefix) then Some(ReplaceFirst(uniqueId[|prefix|..], '_', '.'))
    else None
  }

  lemma ReplaceFirstAt(s: string, k: nat)
    requires k < |s| && s[k] == '_' && '_' !in s[..k]
    ensures ReplaceFirst(s, '_', '.') == s[..k] + "." + s[k + 1..]
  {
  }

  /** Restoring a job's own unique id sanitizes the entity id and then
      turns its first "_" into ".". */
  lemma RestoreOfUniqueId(entryId: string, id: string)
    ensures RestoredEntityId(entryId, JobEntities.UniqueId(entryId, id))
            == Some(ReplaceFirst(ReplaceAll(id, '.', '_'), '_', '.'))
  {
    var prefix := entryId + "_job_";
    var u := JobEntities.UniqueId(entryId, id);
    assert u == prefix + ReplaceAll(id, '.', '_');
    assert u[..|prefix|] == prefix;
    assert u[|prefix|..] == ReplaceAll(id, '.', '_');
  }

  /** Sanitizing `head + sep + tail` where only `sep` may be a "." before
      the tail: the head is kept and `sep` becomes "_". */
  lemma SanitizeSplit(head: string, sep: char, tail: string)
    requires '.' !in head && '.' !in tail && (sep == '.' || sep == '_')
    ensures ReplaceAll(head + [sep] + tail, '.', '_') == head + "_" + tail
  {
    var r := ReplaceAll(head + [sep] + tail, '.', '_');
    assert forall i :: 0 <= i < |head| ==> r[i] == head[i];
    assert forall i :: |head| + 1 <= i < |r| ==> r[i] == tail[i - |head| - 1];
  }

  /** The restore inverts the unique id of a job whose target entity id has
      a domain without "_" and an object id without ".". */
  lemma RestoreInverts(entryId: string, domain: string, objectId: string)
    requires '_' !in domain && '.' !in domain && '.' !in objectId
    ensures RestoredEntityId(entryId, JobEntities.UniqueId(entryId, domain + "." + objectId))
            == Some(domain + "." + objectId)
  {
    RestoreOfUniqueId(entryId, domain + "." + objectId);
    assert domain + "." + objectId == domain + ['.'] + objectId;
    SanitizeSplit(domain, '.', objectId);
    var san := domain + "_" + objectId;
    ReplaceFirstAt(san, |domain|);
    assert san[..|domain|] == domain && san[|domain| + 1..] == objectId;
  }

  /** A domain containing "_" is not restored: the first "_" of the domain
      becomes the ".", and the real "." stays a "_". */
  lemma RestoreSplitsDomain(entryId: string, d1: string, d2: string, objectId: string)
    requires '_' !in d1 && '.' !in d1 && '.' !in d2 && '.' !in objectId
    ensures RestoredEntityId(entryId, JobEntities.UniqueId(entryId, d1 + "_" + d2 + "." + objectId))
            == Some(d1 + "." + d2 + "_" + objectId)
  {
    var id := d1 + "_" + d2 + "." + objectId;
    RestoreOfUniqueId(entryId, id);
    var tail := d2 + "_" + objectId;
    SanitizeSplitTail(d1, d2, objectId);
    var san := d1 + "_" + tail;
    ReplaceFirstAt(san, |d1|);
    assert san[..|d1|] == d1 && san[|d1| + 1..] == tail;
    Regroup(d1, ".", d2, "_", objectId);
  }

  lemma Regroup(a: string, b: string, c: string, d: string, e: string)
    ensures a + b + (c + d + e) == a + b + c + d + e
  {
  }

  lemma SanitizeSplitTail(d1: string, d2: string, objectId: string)
    requires '_' !in d1 && '.' !in d1 && '.' !in d2 && '.' !in objectId
    ensures ReplaceAll(d1 + "_" + d2 + "." + objectId, '.', '_') == d1 + "_" + (d2 + "_" + objectId)
  {
    var id := d1 + "_" + d2 + "." + objectId;
    var r := ReplaceAll(id, '.', '_');
    var want := d1 + "_" + (d2 + "_" + objectId);
    assert |r| == |want|;
    forall i | 0 <= i < |r|
      ensures r[i] == want[i]
    {
      if i < |d1| {
        assert id[i] == d1[i];
      } else if i == |d1| {
        assert id[i] == '_';
      } else if i < |d1| + 1 + |d2| {
        assert id[i] == d2[i - |d1| - 1];
      } else if i == |d1| + 1 + |d2| {
        assert id[i] == '.';
      } else {
        assert id[i] == objectId[i - |d1| - 2 - |d2|];
      }
    }
  }

  /** One entry of the registry restore loop over the keys `jobs` of
      `job_entities`: a job-prefixed unique id whose restored entity id is
      not yet a job adds a stub job under that id. */
  function RestoreOne(entryId: string, jobs: set<string>, uniqueId: string): (r: set<string>)
    ensures jobs <= r
    ensures forall x :: x in r && x !in jobs ==> RestoredEntityId(entryId, uniqueId) == Some(x)
  {
    match RestoredEntityId(entryId, uniqueId)
    case None => jobs
    case Some(x) => if x in jobs then jobs else jobs + {x}
  }

  /** The restore loop over the registry's unique ids, in registry order. */
  function RestoreJobs(entryId: string, jobs: set<string>, uniqueIds: seq<string>): (r: set<string>)
    ensures jobs <= r
    decreases |uniqueIds|
  {
    if |uniqueIds| == 0 then jobs
    else RestoreJobs(entryId, RestoreOne(entryId, jobs, uniqueIds[0]), uniqueIds[1..])
  }

  /** The unique ids the job entities of `ids` register under. */
  function UniqueIds(entryId: string, ids: seq<string>): (r: seq<string>)
    ensures |r| == |ids|
    ensures forall k :: 0 <= k < |ids| ==> r[k] == JobEntities.UniqueId(entryId, ids[k])
  {
    if |ids| == 0 then [] else [JobEntities.UniqueId(entryId, ids[0])] + UniqueIds(entryId, ids[1..])
  }

  /** Restoring compares the restored entity id with the job keys, and the
      restore does not invert sanitizing: the registry entry of a job whose
      domain holds a "_", such as "input_boolean.pump", adds a second, stub
      job under the mis-restored id ("input.boolean_pump"). */
  lemma RestoreDuplicatesJob(entryId: string, d1: string, d2: string, objectId: string)
    requires '_' !in d1 && '.' !in d1 && '.' !in d2 && '.' !in objectId
    ensures var job := d1 + "_" + d2 + "." + objectId;
            var stub := d1 + "." + d2 + "_" + objectId;
            stub != job
            && RestoreJobs(entryId, {job}, UniqueIds(entryId, [job])) == {job, stub}
  {
    var job := d1 + "_" + d2 + "." + objectId;
    var stub := d1 + "." + d2 + "_" + objectId;
    var u := JobEntities.UniqueId(entryId, job);
    RestoreSplitsDomain(entryId, d1, d2, objectId);
    assert stub[|d1|] != job[|d1|];
    assert RestoreOne(entryId, {job}, u) == {job, stub};
    var us := UniqueIds(entryId, [job]);
    assert us == [u];
    assert RestoreJobs(entryId, {job}, us) == RestoreJobs(entryId, {job, stub}, []);
  }

  /** The restore as evidently meant: a registry entry that is the unique id
      of a job already present is that job, and adds nothing. */
  function IntendedRestoreOne(entryId: string, jobs: set<string>, uniqueId: string): (r: set<string>)
    ensures jobs <= r
    ensures (exists j :: j in jobs && JobEntities.UniqueId(entryId, j) == uniqueId) ==> r == jobs
    ensures forall x :: x in r && x !in jobs ==> RestoredEntityId(entryId, uniqueId) == Some(x)
  {
    if exists j :: j in jobs && JobEntities.UniqueId(entryId, j) == uniqueId then jobs
    else RestoreOne(entryId, jobs, uniqueId)
  }

  function IntendedRestoreJobs(entryId: string, jobs: set<string>, uniqueIds: seq<string>): (r: set<string>)
    ensures jobs <= r
    decreases |uniqueIds|
  {
    if |uniqueIds| == 0 then jobs
    else IntendedRestoreJobs(entryId, IntendedRestoreOne(entryId, jobs, uniqueIds[0]), uniqueIds[1..])
  }

  /** Restoring the registry entries of jobs already present adds no job. */
  lemma {:induction false} IntendedRestoreKeepsJobs(entryId: string, jobs: set<string>, ids: seq<string>)
    requires forall k :: 0 <= k < |ids| ==> ids[k] in jobs
    ensures IntendedRestoreJobs(entryId, jobs, UniqueIds(entryId, ids)) == jobs
    decreases |ids|
  {
    if |ids| > 0 {
      var u := UniqueIds(entryId, ids);
      assert IntendedRestoreOne(entryId, jobs, u[0]) == jobs by {
        assert ids[0] in jobs && JobEntities.UniqueId(entryId, ids[0]) == u[0];
      }
      assert u[1..] == UniqueIds(entryId, ids[1..]);
      IntendedRestoreKeepsJobs(entryId, jobs, ids[1..]);
    }
  }
}

=== FILE: services.dfy ===
/** The job registry behind the `create_job`, `update_job` and `delete_job`
    services (`services.py`): the maps of one config entry's data, the
    config entry's list of job sub-entries, and how each handler changes
    them. A job entity is represented by its attribute dictionary, and the
    entities made alongside it by the kind of each group. */
module Services {
  import opened Common
  import JobEntities

  /** A value under the integration's domain: a dictionary with the given
      keys, or something else. */
  datatype DomainValue = Dict(keys: set<string>) | Other

  /** `_find_entry_data`: the id of the first entry whose value is a
      dictionary holding a coordinator; raises when there is none. */
  function FindEntryData(domain: seq<(string, DomainValue)>): (r: Result<string>)
    ensures r.Err? <==> forall k :: 0 <= k < |domain| ==> !(domain[k].1.Dict? && "coordinator" in domain[k].1.keys)
    ensures r.Ok? ==>
              exists k :: 0 <= k < |domain| && domain[k].0 == r.value && domain[k].1.Dict? && "coordinator" in domain[k].1.keys
                          && forall j :: 0 <= j < k ==> !(domain[j].1.Dict? && "coordinator" in domain[j].1.keys)
  {
    if |domain| == 0 then Err("No Erg config entry found")
    else if domain[0].1.Dict? && "coordinator" in domain[0].1.keys then Ok(domain[0].0)
    else
      var r := FindEntryData(domain[1..]);
      assert forall k :: 1 <= k < |domain| ==> domain[k] == domain[1..][k - 1];
      if r.Ok? then
        var k :| 0 <= k < |domain[1..]| && domain[1..][k].0 == r.value && domain[1..][k].1.Dict?
                 && "coordinator" in domain[1..][k].1.keys
                 && forall j :: 0 <= j < k ==> !(domain[1..][j].1.Dict? && "coordinator" in domain[1..][j].1.keys);
        assert domain[k + 1].0 == r.value;
        r
      else r
  }

  /** The groups of entities made for a job next to the job entity itself. */
  datatype Child =
    | NextStartSensor | RunTimeSensor | EnergyCostSensor
    | ScheduledSensor
    | Switches | Numbers | Selects | Texts

  /** Which platforms have stored their `add_*` callback, i.e. which
      per-job entities can be made. */
  datatype Platforms = Platforms(
    perJobSensors: bool,
    binarySensors: bool,
    switches: bool,
    numbers: bool,
    selects: bool,
    texts: bool)

  /** The job maps of one entry's data. An absent map is read as empty. */
  datatype Registry = Registry(
    jobs: map<string, JobEntities.Attrs>,
    perJobSensors: map<string, seq<Child>>,
    perJobBinarySensors: map<string, seq<Child>>,
    perJobControls: map<string, seq<Child>>,
    subentryJobs: set<string>,
    subentryIdMap: map<string, string>)

  /** A job sub-entry of the config entry: its id and the entity it is for. */
  datatype Subentry = Subentry(id: string, entityId: string)

  /** Every per-job record belongs to a registered job. */
  predicate Consistent(reg: Registry) {
    (forall e :: e in reg.perJobSensors ==> e in reg.jobs)
    && (forall e :: e in reg.perJobBinarySensors ==> e in reg.jobs)
    && (forall e :: e in reg.perJobControls ==> e in reg.jobs)
    && (forall e :: e in reg.subentryJobs ==> e in reg.jobs)
    && (forall e :: e in reg.subentryIdMap ==> e in reg.jobs)
  }

  /** The control groups `_create_per_job_entities` makes, in its order. */
  function Controls(p: Platforms): (r: seq<Child>)
    ensures Switches in r <==> p.switches
    ensures Numbers in r <==> p.numbers
    ensures Selects in r <==> p.selects
    ensures Texts in r <==> p.texts
  {
    (if p.switches then [Switches] else []) + (if p.numbers then [Numbers] else [])
    + (if p.selects then [Selects] else []) + (if p.texts then [Texts] else [])
  }

  /** `_create_per_job_entities`: sensors and the binary sensor are recorded
      only when their platform can add them; the control list is always
      recorded, empty when no control platform is ready. */
  function AddPerJob(reg: Registry, id: string, p: Platforms): (r: Registry)
    ensures r.jobs == reg.jobs && r.subentryJobs == reg.subentryJobs && r.subentryIdMap == reg.subentryIdMap
    ensures r.perJobControls == reg.perJobControls[id := Controls(p)]
    ensures p.perJobSensors ==> r.perJobSensors == reg.perJobSensors[id := [NextStartSensor, RunTimeSensor, EnergyCostSensor]]
    ensures !p.perJobSensors ==> r.perJobSensors == reg.perJobSensors
    ensures p.binarySensors ==> r.perJobBinarySensors == reg.perJobBinarySensors[id := [ScheduledSensor]]
    ensures !p.binarySensors ==> r.perJobBinarySensors == reg.perJobBinarySensors
  {
    var sensors := if p.perJobSensors then reg.perJobSensors[id := [NextStartSensor, RunTimeSensor, EnergyCostSensor]]
                   else reg.perJobSensors;
    var binary := if p.binarySensors then reg.perJobBinarySensors[id := [ScheduledSensor]]
                  else reg.perJobBinarySensors;
    reg.(perJobSensors := sensors, perJobBinarySensors := binary,
         perJobControls := reg.perJobControls[id := Controls(p)])
  }

  /** `create_job_entity`: whether a job was made, and the registry after.
      An id already registered is left alone. */
  function CreateJobEntity(reg: Registry, attrs: JobEntities.Attrs, p: Platforms): (r: (bool, Registry))
    requires attrs.entityId.Some?
    ensures attrs.entityId.value in reg.jobs ==> r == (false, reg)
    ensures attrs.entityId.value !in reg.jobs ==>
              r.0 && r.1.jobs == reg.jobs[attrs.entityId.value := attrs]
              && r.1.perJobControls == reg.perJobControls[attrs.entityId.value := Controls(p)]
              && r.1.subentryJobs == reg.subentryJobs && r.1.subentryIdMap == reg.subentryIdMap
    ensures attrs.entityId.value !in reg.jobs ==>
              r.1.perJobSensors == (if p.perJobSensors then reg.perJobSensors[attrs.entityId.value := [NextStartSensor, RunTimeSensor, EnergyCostSensor]]
                                    else reg.perJobSensors)
              && r.1.perJobBinarySensors == (if p.binarySensors then reg.perJobBinarySensors[attrs.entityId.value := [ScheduledSensor]]
                                             else reg.perJobBinarySensors)
    ensures Consistent(reg) ==> Consistent(r.1)
  {
    var id := attrs.entityId.value;
    if id in reg.jobs then (false, reg)
    else (true, AddPerJob(reg.(jobs := reg.jobs[id := attrs]), id, p))
  }

  /** `delete_job_entity`: whether the job was there, and the registry
      after. The sub-entry records are left to the service handler. */
  function DeleteJobEntity(reg: Registry, id: string): (r: (bool, Registry))
    ensures id !in reg.jobs ==> r == (false, reg)
    ensures id in reg.jobs ==>
              r.0 && r.1.jobs == reg.jobs - {id}
              && r.1.perJobSensors == reg.perJobSensors - {id}
              && r.1.perJobBinarySensors == reg.perJobBinarySensors - {id}
              && r.1.perJobControls == reg.perJobControls - {id}
              && r.1.subentryJobs == reg.subentryJobs && r.1.subentryIdMap == reg.subentryIdMap
  {
    if id !in reg.jobs then (false, reg)
    else
      (true, reg.(jobs := reg.jobs - {id}, perJobSensors := reg.perJobSensors - {id},
                  perJobBinarySensors := reg.perJobBinarySensors - {id},
                  perJobControls := reg.perJobControls - {id}))
  }

  /** The state a handler works on, and whether it asked for a refresh. */
  datatype Outcome = Outcome(reg: Registry, subentries: seq<Subentry>, refresh: bool)

  /** `async_handle_create_job` once the entry is found: a duplicate does
      nothing; otherwise a sub-entry with the fresh id `sid` is added, the
      job is created under it and recorded against it, and a refresh is
      requested. */
  function HandleCreate(reg: Registry, subentries: seq<Subentry>, data: JobEntities.Attrs, sid: string, p: Platforms): (o: Outcome)
    requires data.entityId.Some?
    ensures data.entityId.value in reg.jobs ==> o == Outcome(reg, subentries, false)
    ensures data.entityId.value !in reg.jobs ==>
              o.refresh && o.subentries == subentries + [Subentry(sid, data.entityId.value)]
              && o.reg.jobs == reg.jobs[data.entityId.value := data]
              && o.reg.subentryJobs == reg.subentryJobs + {data.entityId.value}
              && o.reg.subentryIdMap == reg.subentryIdMap[data.entityId.value := sid]
    ensures data.entityId.value !in reg.jobs ==>
              o.reg.perJobControls == reg.perJobControls[data.entityId.value := Controls(p)]
              && o.reg.perJobSensors == (if p.perJobSensors then reg.perJobSensors[data.entityId.value := [NextStartSensor, RunTimeSensor, EnergyCostSensor]]
                                         else reg.perJobSensors)
              && o.reg.perJobBinarySensors == (if p.binarySensors then reg.perJobBinarySensors[data.entityId.value := [ScheduledSensor]]
                                               else reg.perJobBinarySensors)
    ensures Consistent(reg) ==> Consistent(o.reg)
  {
    var id := data.entityId.value;
    if id in reg.jobs then Outcome(reg, subentries, false)
    else
      var (created, reg') := CreateJobEntity(reg, data, p);
      Outcome(reg'.(subentryJobs := reg'.subentryJobs + {id}, subentryIdMap := reg'.subentryIdMap[id := sid]),
              subentries + [Subentry(sid, id)], true)
  }

  /** `async_handle_update_job`: a missing job changes nothing and asks for
      no refresh; otherwise the given attributes are merged into it. */
  function HandleUpdate(reg: Registry, subentries: seq<Subentry>, jobId: string, data: JobEntities.Attrs): (o: Outcome)
    ensures jobId !in reg.jobs ==> o == Outcome(reg, subentries, false)
    ensures jobId in reg.jobs ==>
              o.refresh && o.subentries == subentries
              && o.reg == reg.(jobs := reg.jobs[jobId := JobEntities.UpdateAttributes(reg.jobs[jobId], data)])
    ensures Consistent(reg) ==> Consistent(o.reg)
  {
    if jobId !in reg.jobs then Outcome(reg, subentries, false)
    else Outcome(reg.(jobs := reg.jobs[jobId := JobEntities.UpdateAttributes(reg.jobs[jobId], data)]), subentries, true)
  }

  /** The index of the first sub-entry for `id`, or `|subs|` when none is. */
  function FirstFor(subs: seq<Subentry>, id: string): (k: nat)
    ensures k <= |subs|
    ensures forall j :: 0 <= j < k ==> subs[j].entityId != id
    ensures k < |subs| ==> subs[k].entityId == id
  {
    if |subs| == 0 then 0
    else if subs[0].entityId == id then 0
    else 1 + FirstFor(subs[1..], id)
  }

  /** The loop of the delete handler over the entry's sub-entries: the first
      for the job goes, the others stay. */
  function RemoveFirstFor(subs: seq<Subentry>, id: string): (r: seq<Subentry>)
    ensures FirstFor(subs, id) == |subs| ==> r == subs
    ensures FirstFor(subs, id) < |subs| ==> |r| == |subs| - 1
    ensures r == subs[..FirstFor(subs, id)] + subs[Min(FirstFor(subs, id) + 1, |subs|)..]
  {
    var k := FirstFor(subs, id);
    if k == |subs| then subs else subs[..k] + subs[k + 1..]
  }

  /** `async_handle_delete_job` once the entry is found: a missing job
      changes nothing; otherwise its entities and its first sub-entry go, it
      leaves the sub-entry records, and a refresh is requested. */
  function HandleDelete(reg: Registry, subentries: seq<Subentry>, jobId: string): (o: Outcome)
    ensures jobId !in reg.jobs ==> o == Outcome(reg, subentries, false)
    ensures jobId in reg.jobs ==>
              o.refresh && o.reg.jobs == reg.jobs - {jobId} && o.reg.perJobControls == reg.perJobControls - {jobId}
              && o.reg.perJobSensors == reg.perJobSensors - {jobId}
              && o.reg.perJobBinarySensors == reg.perJobBinarySensors - {jobId}
              && o.reg.subentryJobs == reg.subentryJobs - {jobId} && o.reg.subentryIdMap == reg.subentryIdMap - {jobId}
              && o.subentries == RemoveFirstFor(subentries, jobId)
    ensures forall e :: e != jobId ==> (e in o.reg.jobs <==> e in reg.jobs)
    ensures forall e :: e != jobId && e in reg.jobs ==> o.reg.jobs[e] == reg.jobs[e]
    ensures Consistent(reg) ==> Consistent(o.reg)
  {
    var (removed, reg') := DeleteJobEntity(reg, jobId);
    if !removed then Outcome(reg, subentries, false)
    else
      Outcome(reg'.(subentryJobs := reg'.subentryJobs - {jobId}, subentryIdMap := reg'.subentryIdMap - {jobId}),
              RemoveFirstFor(subentries, jobId), true)
  }

  /** Creating a job and deleting it restores the registry and the
      sub-entries, for a job unknown to both beforehand. */
  lemma CreateThenDelete(reg: Registry, subentries: seq<Subentry>, data: JobEntities.Attrs, sid: string, p: Platforms)
    requires data.entityId.Some? && Consistent(reg) && data.entityId.value !in reg.jobs
    requires forall k :: 0 <= k < |subentries| ==> subentries[k].entityId != data.entityId.value
    ensures var c := HandleCreate(reg, subentries, data, sid, p);
            var d := HandleDelete(c.reg, c.subentries, data.entityId.value);
            d.reg == reg && d.subentries == subentries && d.refresh
  {
    var id := data.entityId.value;
    var c := HandleCreate(reg, subentries, data, sid, p);
    CreateThenDeleteRegistry(reg, subentries, data, sid, p);
    assert c.subentries == subentries + [Subentry(sid, id)];
    FirstForAppend(subentries, Subentry(sid, id));
    assert (subentries + [Subentry(sid, id)])[..|subentries|] == subentries;
  }

  lemma CreateThenDeleteRegistry(reg: Registry, subentries: seq<Subentry>, data: JobEntities.Attrs, sid: string, p: Platforms)
    requires data.entityId.Some? && Consistent(reg) && data.entityId.value !in reg.jobs
    ensures var c := HandleCreate(reg, subentries, data, sid, p);
            HandleDelete(c.reg, c.subentries, data.entityId.value).reg == reg
  {
    CreateThenDeleteJobs(reg, subentries, data, sid, p);
    CreateThenDeleteSensors(reg, subentries, data, sid, p);
  }

  lemma CreateThenDeleteJobs(reg: Registry, subentries: seq<Subentry>, data: JobEntities.Attrs, sid: string, p: Platforms)
    requires data.entityId.Some? && Consistent(reg) && data.entityId.value !in reg.jobs
    ensures var c := HandleCreate(reg, subentries, data, sid, p);
            var d := HandleDelete(c.reg, c.subentries, data.entityId.value);
            d.reg.jobs == reg.jobs && d.reg.perJobControls == reg.perJobControls
            && d.reg.subentryJobs == reg.subentryJobs && d.reg.subentryIdMap == reg.subentryIdMap
  {
    var id := data.entityId.value;
    PutRemove(reg.jobs, id, data);
    PutRemove(reg.perJobControls, id, Controls(p));
    PutRemove(reg.subentryIdMap, id, sid);
    assert reg.subentryJobs + {id} - {id} == reg.subentryJobs;
  }

  lemma CreateThenDeleteSensors(reg: Registry, subentries: seq<Subentry>, data: JobEntities.Attrs, sid: string, p: Platforms)
    requires data.entityId.Some? && Consistent(reg) && data.entityId.value !in reg.jobs
    ensures var c := HandleCreate(reg, subentries, data, sid, p);
            var d := HandleDelete(c.reg, c.subentries, data.entityId.value);
            d.reg.perJobSensors == reg.perJobSensors && d.reg.perJobBinarySensors == reg.perJobBinarySensors
  {
    var id := data.entityId.value;
    var a := AddPerJob(reg.(jobs := reg.jobs[id := data]), id, p);
    assert HandleCreate(reg, subentries, data, sid, p).reg.perJobSensors == a.perJobSensors;
    assert HandleCreate(reg, subentries, data, sid, p).reg.perJobBinarySensors == a.perJobBinarySensors;
    if p.perJobSensors {
      PutRemove(reg.perJobSensors, id, [NextStartSensor, RunTimeSensor, EnergyCostSensor]);
    } else {
      RemoveAbsent(reg.perJobSensors, id);
    }
    if p.binarySensors {
      PutRemove(reg.perJobBinarySensors, id, [ScheduledSensor]);
    } else {
      RemoveAbsent(reg.perJobBinarySensors, id);
    }
  }

  lemma RemoveAbsent<V>(m: map<string, V>, k: string)
    requires k !in m
    ensures m - {k} == m
  {
  }

  /** Adding a new key and taking it away again. */
  lemma PutRemove<V>(m: map<string, V>, k: string, v: V)
    requires k !in m
    ensures m[k := v] - {k} == m
  {
  }

  lemma {:induction false} FirstForAppend(subs: seq<Subentry>, s: Subentry)
    requires forall k :: 0 <= k < |subs| ==> subs[k].entityId != s.entityId
    ensures FirstFor(subs + [s], s.entityId) == |subs|
    decreases |subs|
  {
    if |subs| > 0 {
      TailOfAppend(subs, [s]);
      FirstForAppend(subs[1..], s);
    }
  }

  /** A second delete finds nothing and changes nothing. */
  lemma DeleteTwice(reg: Registry, subentries: seq<Subentry>, jobId: string)
    ensures var d := HandleDelete(reg, subentries, jobId);
            HandleDelete(d.reg, d.subentries, jobId) == Outcome(d.reg, d.subentries, false)
  {
  }

  /** An update touches only the job it names. */
  lemma UpdateOnlyTarget(reg: Registry, subentries: seq<Subentry>, jobId: string, data: JobEntities.Attrs, other: string)
    requires other != jobId && other in reg.jobs
    ensures var o := HandleUpdate(reg, subentries, jobId, data);
            other in o.reg.jobs && o.reg.jobs[other] == reg.jobs[other]
  {
  }
}

=== FILE: solar.dfy ===
/** Solar forecast to forced generation boxes (`solar.py`
    `solar_forecast_to_boxes`). The forecast is the parsed map from period
    start instants to forecast watt-hours. */
module Solar {
  import opened Common
  import opened Duration
  import opened Schedule

  const SolarEntity: string := "__solar__"

  predicate StrictlySorted(s: seq<int>) {
    forall i, j :: 0 <= i < j < |s| ==> s[i] < s[j]
  }

  /** A set other than the empty one has an element. */
  lemma HasElement(ks: set<int>)
    requires ks != {}
    ensures exists x :: x in ks
  {
    if forall x :: x !in ks {
      assert false;
    }
  }

  predicate IsMin(m: int, ks: set<int>) {
    m in ks && forall y :: y in ks ==> m <= y
  }

  lemma {:induction false} HasMin(ks: set<int>)
    requires ks != {}
    ensures exists m :: IsMin(m, ks)
    decreases |ks|
  {
    HasElement(ks);
    var x :| x in ks;
    var rest := ks - {x};
    assert forall y :: y in ks ==> y == x || y in rest;
    if rest == {} {
      assert IsMin(x, ks);
    } else {
      HasMin(rest);
      var m :| IsMin(m, rest);
      var n := if x < m then x else m;
      assert IsMin(n, ks);
    }
  }

  function SetMin(ks: set<int>): (m: int)
    requires ks != {}
    ensures IsMin(m, ks)
  {
    HasMin(ks);
    var m :| IsMin(m, ks);
    m
  }

  /** `sorted(parsed.keys())`. */
  function SortedKeys(ks: set<int>): (r: seq<int>)
    ensures StrictlySorted(r)
    ensures forall x :: x in ks <==> x in r
    ensures |r| == |ks|
    decreases |ks|
  {
    if ks == {} then []
    else
      var m := SetMin(ks);
      var rest := SortedKeys(ks - {m});
      [m] + rest
  }

  /** Nominal end of the period opening at `keys[i]`: the next forecast
      instant, or one hour on for the last. */
  function PeriodEnd(keys: seq<int>, i: nat): int
    requires i < |keys|
  {
    if i + 1 < |keys| then keys[i + 1] else keys[i] + HourSeconds
  }

  /** Average generation in kW over the clipped part of a period, negated:
      the clipped energy `wh * eff / per` spread over `eff` seconds. */
  function SolarDcPower(wh: real, eff: int, per: int): real
    requires eff > 0 && per > 0
  {
    var effWh := wh * (eff as real) / (per as real);
    var effHours := (eff as real) / 3600.0;
    -((effWh / 1000.0) / effHours)
  }

  /** The box of one clipped period `[s, e)` with `wh` forecast over the
      nominal `per` seconds. */
  function SolarBox(s: int, e: int, wh: real, per: int): (b: PowerBox)
    requires s < e && per > 0
    ensures b.entity == SolarEntity && b.force && b.acPower == 0.0 && b.benefit == 0.0
    ensures b.start == s && b.finish == e
  {
    var d := Text(NatToString(e - s) + "s");
    PowerBox(SolarEntity, s, e, d, d, d, 0.0, SolarDcPower(wh, e - s, per), true, 0.0)
  }

  /** Whether the period opening at `keys[i]` yields a box: its clipped part
      is non-empty and its forecast is positive. */
  predicate Emits(keys: seq<int>, wh: map<int, real>, i: nat, hs: int, he: int)
    requires i < |keys| && keys[i] in wh
  {
    Max(keys[i], hs) < Min(PeriodEnd(keys, i), he) && wh[keys[i]] > 0.0
    && PeriodEnd(keys, i) - keys[i] > 0
  }

  function BoxOf(keys: seq<int>, wh: map<int, real>, i: nat, hs: int, he: int): PowerBox
    requires i < |keys| && keys[i] in wh && Emits(keys, wh, i, hs, he)
  {
    SolarBox(Max(keys[i], hs), Min(PeriodEnd(keys, i), he), wh[keys[i]], PeriodEnd(keys, i) - keys[i])
  }

  /** The boxes of the periods from index `i` on, in key order. */
  function BoxesFrom(keys: seq<int>, wh: map<int, real>, i: nat, hs: int, he: int): seq<PowerBox>
    requires StrictlySorted(keys) && i <= |keys|
    requires forall k :: 0 <= k < |keys| ==> keys[k] in wh
    decreases |keys| - i
  {
    if i == |keys| then []
    else
      var rest := BoxesFrom(keys, wh, i + 1, hs, he);
      if Emits(keys, wh, i, hs, he) then [BoxOf(keys, wh, i, hs, he)] + rest else rest
  }

  /** The boxes from index `i` lie in the horizon, start no earlier than
      `keys[i]`, are solar and forced, and follow one another without
      overlap. */
  lemma {:induction false} BoxesFromShape(keys: seq<int>, wh: map<int, real>, i: nat, hs: int, he: int)
    requires StrictlySorted(keys) && i <= |keys|
    requires forall k :: 0 <= k < |keys| ==> keys[k] in wh
    ensures var r := BoxesFrom(keys, wh, i, hs, he);
            (forall k :: 0 <= k < |r| ==> BoxInHorizon(r[k], hs, he))
            && (forall k :: 0 <= k < |r| ==> i < |keys| && keys[i] <= r[k].start)
            && (forall k :: 0 <= k < |r| ==> r[k].entity == SolarEntity && r[k].force)
            && BoxesOrdered(r)
    decreases |keys| - i
  {
    if i < |keys| {
      BoxesFromShape(keys, wh, i + 1, hs, he);
      var rest := BoxesFrom(keys, wh, i + 1, hs, he);
      if Emits(keys, wh, i, hs, he) {
        var b := BoxOf(keys, wh, i, hs, he);
        assert forall k :: 0 <= k < |rest| ==> b.finish <= rest[k].start;
        PrependOrdered(b, rest);
      }
    }
  }

  lemma PrependOrdered(b: PowerBox, rest: seq<PowerBox>)
    requires BoxesOrdered(rest)
    requires forall k :: 0 <= k < |rest| ==> b.finish <= rest[k].start
    ensures BoxesOrdered([b] + rest)
  {
    var r := [b] + rest;
    forall i, j | 0 <= i < j < |r|
      ensures r[i].finish <= r[j].start
    {
      if i > 0 {
        assert r[i] == rest[i - 1] && r[j] == rest[j - 1];
      } else {
        assert r[j] == rest[j - 1];
      }
    }
  }

  /** `solar_forecast_to_boxes` over the parsed forecast. */
  function SolarBoxes(wh: map<int, real>, hs: int, he: int): (r: seq<PowerBox>)
    ensures |wh| == 0 ==> r == []
    ensures forall k :: 0 <= k < |r| ==> BoxInHorizon(r[k], hs, he)
    ensures forall k :: 0 <= k < |r| ==> r[k].entity == SolarEntity && r[k].force
    ensures BoxesOrdered(r)
  {
    if |wh| == 0 then []
    else
      var keys := SortedKeys(wh.Keys);
      BoxesFromShape(keys, wh, 0, hs, he);
      BoxesFrom(keys, wh, 0, hs, he)
  }

  lemma Cancel(c: real, e: real, k: real)
    requires e != 0.0 && k != 0.0
    ensures (c * e) / (e / k) == c * k
  {
    assert (e / k) * (c * k) == c * e;
  }

  /** The rate does not depend on clipping: the clipped share of the energy
      over the clipped share of the time is the forecast energy in kWh over
      the nominal period in hours. */
  lemma RateIndependentOfClipping(wh: real, eff: int, per: int)
    requires eff > 0 && per > 0
    ensures SolarDcPower(wh, eff, per) == -((wh / 1000.0) / ((per as real) / 3600.0))
  {
    var e := eff as real;
    var p := per as real;
    var c := wh / p / 1000.0;
    assert wh * e / p / 1000.0 == c * e;
    Cancel(c, e, 3600.0);
    Cancel(wh / 1000.0 / p, p, 3600.0);
    assert (wh / 1000.0) == (wh / 1000.0 / p) * p;
    assert c == wh / 1000.0 / p;
  }

  /** Every box of a period carries that period's clipped bounds, the rate of
      its forecast over its nominal length, and duration fields that read
      back as the whole seconds of the clipped interval. */
  lemma SolarBoxFields(s: int, e: int, wh: real, per: int)
    requires s < e && per > 0
    ensures var b := SolarBox(s, e, wh, per);
            b.dcPower == -((wh / 1000.0) / ((per as real) / 3600.0))
            && b.maximumDuration == b.minimumDuration == b.minimumBurst
            && DurSeconds(b.maximumDuration) == e - s
  {
    RateIndependentOfClipping(wh, e - s, per);
    SecondsTextRoundTrip(e - s);
  }

  /** Some period from index `i` on emits `b`. */
  predicate EmittedFrom(keys: seq<int>, wh: map<int, real>, i: nat, hs: int, he: int, b: PowerBox) {
    exists k :: i <= k < |keys| && keys[k] in wh && Emits(keys, wh, k, hs, he) && b == BoxOf(keys, wh, k, hs, he)
  }

  /** Soundness and completeness over the periods from `i`: a box is
      produced exactly for each period that emits, with that period's bounds. */
  lemma {:induction false} BoxesFromCharacterized(keys: seq<int>, wh: map<int, real>, i: nat, hs: int, he: int, b: PowerBox)
    requires StrictlySorted(keys) && i <= |keys|
    requires forall k :: 0 <= k < |keys| ==> keys[k] in wh
    ensures b in BoxesFrom(keys, wh, i, hs, he) <==> EmittedFrom(keys, wh, i, hs, he, b)
    decreases |keys| - i
  {
    if i == |keys| {
      BoxesFromEnd(keys, wh, i, hs, he, b);
    } else {
      BoxesFromCharacterized(keys, wh, i + 1, hs, he, b);
      BoxesFromStep(keys, wh, i, hs, he, b);
    }
  }

  lemma BoxesFromEnd(keys: seq<int>, wh: map<int, real>, i: nat, hs: int, he: int, b: PowerBox)
    requires StrictlySorted(keys) && i == |keys|
    requires forall k :: 0 <= k < |keys| ==> keys[k] in wh
    ensures b !in BoxesFrom(keys, wh, i, hs, he) && !EmittedFrom(keys, wh, i, hs, he, b)
  {
    assert BoxesFrom(keys, wh, i, hs, he) == [];
  }

  lemma EmittedFromStep(keys: seq<int>, wh: map<int, real>, i: nat, hs: int, he: int, b: PowerBox)
    requires i < |keys| && keys[i] in wh
    ensures EmittedFrom(keys, wh, i, hs, he, b) <==>
              (Emits(keys, wh, i, hs, he) && b == BoxOf(keys, wh, i, hs, he)) || EmittedFrom(keys, wh, i + 1, hs, he, b)
  {
    if EmittedFrom(keys, wh, i, hs, he, b) {
      var k :| i <= k < |keys| && keys[k] in wh && Emits(keys, wh, k, hs, he) && b == BoxOf(keys, wh, k, hs, he);
      if k > i {
        assert EmittedFrom(keys, wh, i + 1, hs, he, b);
      }
    }
    if Emits(keys, wh, i, hs, he) && b == BoxOf(keys, wh, i, hs, he) {
      assert EmittedFrom(keys, wh, i, hs, he, b);
    }
    if EmittedFrom(keys, wh, i + 1, hs, he, b) {
      var k :| i + 1 <= k < |keys| && keys[k] in wh && Emits(keys, wh, k, hs, he) && b == BoxOf(keys, wh, k, hs, he);
      assert EmittedFrom(keys, wh, i, hs, he, b);
    }
  }

  lemma BoxesFromStep(keys: seq<int>, wh: map<int, real>, i: nat, hs: int, he: int, b: PowerBox)
    requires StrictlySorted(keys) && i < |keys|
    requires forall k :: 0 <= k < |keys| ==> keys[k] in wh
    requires b in BoxesFrom(keys, wh, i + 1, hs, he) <==> EmittedFrom(keys, wh, i + 1, hs, he, b)
    ensures b in BoxesFrom(keys, wh, i, hs, he) <==> EmittedFrom(keys, wh, i, hs, he, b)
  {
    EmittedFromStep(keys, wh, i, hs, he, b);
    var rest := BoxesFrom(keys, wh, i + 1, hs, he);
    if Emits(keys, wh, i, hs, he) {
      assert BoxesFrom(keys, wh, i, hs, he) == [BoxOf(keys, wh, i, hs, he)] + rest;
    } else {
      assert BoxesFrom(keys, wh, i, hs, he) == rest;
    }
  }

  /** A forecast period yields a box exactly when its clipped interval is
      non-empty and its forecast is positive; the box spans the clipped
      interval. */
  lemma SolarBoxesCharacterized(wh: map<int, real>, hs: int, he: int, b: PowerBox)
    requires |wh| > 0
    ensures b in SolarBoxes(wh, hs, he) <==> EmittedFrom(SortedKeys(wh.Keys), wh, 0, hs, he, b)
  {
    var keys := SortedKeys(wh.Keys);
    assert forall k :: 0 <= k < |keys| ==> keys[k] in wh;
    BoxesFromCharacterized(keys, wh, 0, hs, he, b);
  }
}

=== FILE: sorting.dfy ===
/** Python's stable `sorted`/`list.sort` on the model's values: instants sort
    by value, records sort by an integer key with ties left in input order. */
module Sorting {
  import opened Common

  predicate SortedBy<T>(s: seq<T>, key: T -> int) {
    forall i, j :: 0 <= i < j < |s| ==> key(s[i]) <= key(s[j])
  }

  /** The elements of `s` whose key is `k`, in their order in `s`. */
  function WithKey<T>(s: seq<T>, key: T -> int, k: int): (r: seq<T>)
    ensures |r| <= |s|
  {
    if |s| == 0 then []
    else (if key(s[0]) == k then [s[0]] else []) + WithKey(s[1..], key, k)
  }

  lemma WithKeyAppend<T>(a: seq<T>, b: seq<T>, key: T -> int, k: int)
    ensures WithKey(a + b, key, k) == WithKey(a, key, k) + WithKey(b, key, k)
  {
    if |a| > 0 {
      TailOfAppend(a, b);
      WithKeyAppend(a[1..], b, key, k);
    } else {
      assert a + b == b;
    }
  }

  /** Insertion after every element whose key is not larger than `x`'s. */
  function Insert<T>(x: T, s: seq<T>, key: T -> int): (r: seq<T>)
    requires SortedBy(s, key)
    ensures SortedBy(r, key)
    ensures multiset(r) == multiset(s) + multiset{x}
    ensures |r| == |s| + 1
    ensures r[0] == x || (|s| > 0 && r[0] == s[0])
  {
    if |s| == 0 then [x]
    else if key(x) < key(s[0]) then [x] + s
    else
      var rest := Insert(x, s[1..], key);
      assert s == [s[0]] + s[1..];
      assert SortedBy(s[1..], key);
      assert key(s[0]) <= key(rest[0]);
      var r := [s[0]] + rest;
      assert forall j :: 0 < j < |r| ==> r[j] == rest[j - 1];
      r
  }

  function KeyPart<T>(x: T, key: T -> int, k: int): seq<T> {
    if key(x) == k then [x] else []
  }

  lemma WithKeyCons<T>(y: T, t: seq<T>, key: T -> int, k: int)
    ensures WithKey([y] + t, key, k) == KeyPart(y, key, k) + WithKey(t, key, k)
  {
    assert ([y] + t)[0] == y;
    assert ([y] + t)[1..] == t;
  }

  lemma {:induction false} InsertWithKey<T>(x: T, s: seq<T>, key: T -> int, k: int)
    requires SortedBy(s, key)
    ensures WithKey(Insert(x, s, key), key, k) == WithKey(s, key, k) + KeyPart(x, key, k)
    decreases |s|
  {
    if |s| == 0 {
      WithKeyCons(x, [], key, k);
    } else if key(x) < key(s[0]) {
      InsertFrontWithKey(x, s, key, k);
    } else {
      InsertWithKey(x, s[1..], key, k);
      InsertLaterWithKey(x, s, key, k);
    }
  }

  lemma InsertFrontWithKey<T>(x: T, s: seq<T>, key: T -> int, k: int)
    requires SortedBy(s, key) && |s| > 0 && key(x) < key(s[0])
    ensures WithKey(Insert(x, s, key), key, k) == WithKey(s, key, k) + KeyPart(x, key, k)
  {
    assert Insert(x, s, key) == [x] + s;
    WithKeyCons(x, s, key, k);
    if key(x) == k {
      NoneWithKey(s, key, k);
    }
  }

  lemma InsertLaterWithKey<T>(x: T, s: seq<T>, key: T -> int, k: int)
    requires SortedBy(s, key) && |s| > 0 && key(x) >= key(s[0])
    requires WithKey(Insert(x, s[1..], key), key, k) == WithKey(s[1..], key, k) + KeyPart(x, key, k)
    ensures WithKey(Insert(x, s, key), key, k) == WithKey(s, key, k) + KeyPart(x, key, k)
  {
    var rest := Insert(x, s[1..], key);
    var a := KeyPart(s[0], key, k);
    var b := WithKey(s[1..], key, k);
    var c := KeyPart(x, key, k);
    assert Insert(x, s, key) == [s[0]] + rest;
    WithKeyCons(s[0], rest, key, k);
    assert WithKey(Insert(x, s, key), key, k) == a + (b + c);
    assert WithKey(s, key, k) == a + b;
    ConcatAssoc(a, b, c);
  }

  lemma ConcatAssoc<T>(a: seq<T>, b: seq<T>, c: seq<T>)
    ensures a + (b + c) == (a + b) + c
  {
  }

  /** Every element of a sorted sequence opening above `k` is above `k`. */
  lemma NoneWithKey<T>(s: seq<T>, key: T -> int, k: int)
    requires SortedBy(s, key) && |s| > 0 && k < key(s[0])
    ensures WithKey(s, key, k) == []
    decreases |s|
  {
    if |s| > 1 {
      NoneWithKey(s[1..], key, k);
    }
  }

  /** Stable insertion sort by key. */
  function SortBy<T>(s: seq<T>, key: T -> int): (r: seq<T>)
    ensures SortedBy(r, key)
    ensures multiset(r) == multiset(s)
    ensures |r| == |s|
  {
    if |s| == 0 then []
    else
      assert s == s[..|s| - 1] + [s[|s| - 1]];
      Insert(s[|s| - 1], SortBy(s[..|s| - 1], key), key)
  }

  lemma SplitLast<T>(s: seq<T>)
    requires |s| > 0
    ensures s == s[..|s| - 1] + [s[|s| - 1]]
  {
  }

  lemma WithKeySingle<T>(x: T, key: T -> int, k: int)
    ensures WithKey([x], key, k) == KeyPart(x, key, k)
  {
    WithKeyCons(x, [], key, k);
    assert [x] + [] == [x];
  }

  /** Stability: the elements sharing a key keep their relative order. */
  lemma {:induction false} SortByStable<T>(s: seq<T>, key: T -> int, k: int)
    ensures WithKey(SortBy(s, key), key, k) == WithKey(s, key, k)
  {
    if |s| > 0 {
      var init := s[..|s| - 1];
      var x := s[|s| - 1];
      SplitLast(s);
      SortByStable(init, key, k);
      InsertWithKey(x, SortBy(init, key), key, k);
      WithKeyAppend(init, [x], key, k);
      WithKeySingle(x, key, k);
      calc {
        WithKey(SortBy(s, key), key, k);
        WithKey(Insert(x, SortBy(init, key), key), key, k);
        WithKey(SortBy(init, key), key, k) + KeyPart(x, key, k);
        WithKey(init, key, k) + KeyPart(x, key, k);
        WithKey(init, key, k) + WithKey([x], key, k);
        WithKey(s, key, k);
      }
    }
  }

  function Identity(x: int): int {
    x
  }

  predicate Sorted(s: seq<int>) {
    forall i, j :: 0 <= i < j < |s| ==> s[i] <= s[j]
  }

  /** `sorted()` of instants. */
  function SortInts(s: seq<int>): (r: seq<int>)
    ensures Sorted(r)
    ensures multiset(r) == multiset(s)
    ensures |r| == |s|
  {
    var r := SortBy(s, Identity);
    assert forall i, j :: 0 <= i < j < |r| ==> Identity(r[i]) <= Identity(r[j]);
    r
  }
}

=== FILE: tariffs.dfy ===
/** Tariff definitions and their expansion into the request's absolute
    tariff periods (`tariff_periods.py` `expand_recurring_tariffs`). */
module Tariffs {
  import opened Common
  import opened Recurrence

  /** A tariff definition dictionary; `None` marks a missing key. */
  datatype TariffDef = TariffDef(
    name: Option<string>,
    importPrice: Option<real>,
    feedInPrice: Option<real>,
    recurrence: Option<Rule>,
    start: Option<Stamp>,
    end: Option<Stamp>)

  /** An entry of the request's tariff periods: exactly these four fields. */
  datatype TariffPeriod = TariffPeriod(start: Stamp, end: Stamp, importPrice: real, feedInPrice: real)

  function PeriodOf(t: TariffDef, s: Stamp, e: Stamp): TariffPeriod {
    TariffPeriod(s, e, t.importPrice.GetOr(0.0), t.feedInPrice.GetOr(0.0))
  }

  /** A recurring period lies inside the horizon and is non-empty. */
  predicate PeriodInHorizon(p: TariffPeriod, hs: int, he: int) {
    p.start.At? && p.end.At? && hs <= p.start.t < p.end.t <= he
  }

  /** `p` ends no later than `q` starts. */
  predicate Before(p: TariffPeriod, q: TariffPeriod) {
    p.end.At? && q.start.At? && p.end.t <= q.start.t
  }

  function WindowPeriods(t: TariffDef, ws: seq<Interval>): (ps: seq<TariffPeriod>)
    ensures |ps| == |ws|
    ensures forall i :: 0 <= i < |ws| ==> ps[i] == PeriodOf(t, At(ws[i].start), At(ws[i].end))
  {
    seq(|ws|, i requires 0 <= i < |ws| => PeriodOf(t, At(ws[i].start), At(ws[i].end)))
  }

  /** The periods one definition contributes. Without a recurrence it passes
      through unchanged and unclipped when both `start` and `end` are
      present, and is dropped otherwise; with one, it yields one period per
      clipped window of its rule. Prices default to 0. */
  function ExpandTariff(t: TariffDef, hs: int, he: int): (r: Result<seq<TariffPeriod>>)
    ensures t.recurrence.None? ==> r.Ok? && |r.value| <= 1
    ensures t.recurrence.None? && (t.start.None? || t.end.None?) ==> r == Ok([])
    ensures t.recurrence.Some? && r.Ok? ==>
              forall i :: 0 <= i < |r.value| ==> PeriodInHorizon(r.value[i], hs, he)
    ensures t.recurrence.Some? && r.Ok? ==>
              forall i, k :: 0 <= i < k < |r.value| ==> Before(r.value[i], r.value[k])
  {
    if t.recurrence.None? then
      if t.start.Some? && t.end.Some? then Ok([PeriodOf(t, t.start.value, t.end.value)]) else Ok([])
    else
      var ws :- ClippedWindows(t.recurrence.value, hs, he);
      Ok(WindowPeriods(t, ws))
  }

  /** `expand_recurring_tariffs`: the definitions' periods in definition
      order; a definition that raises makes the whole expansion raise. */
  function ExpandTariffs(ts: seq<TariffDef>, hs: int, he: int): (r: Result<seq<TariffPeriod>>)
    ensures (forall k :: 0 <= k < |ts| ==> ts[k].recurrence.None?) ==> r.Ok?
  {
    if |ts| == 0 then Ok([])
    else
      var first :- ExpandTariff(ts[0], hs, he);
      var rest :- ExpandTariffs(ts[1..], hs, he);
      Ok(first + rest)
  }

  /** Definition order is kept: the periods of `a + b` are those of `a`
      followed by those of `b`, and the expansion raises exactly when one of
      the halves does. */
  lemma {:induction false} ExpandTariffsAppend(a: seq<TariffDef>, b: seq<TariffDef>, hs: int, he: int)
    ensures ExpandTariffs(a + b, hs, he).Ok? <==> ExpandTariffs(a, hs, he).Ok? && ExpandTariffs(b, hs, he).Ok?
    ensures ExpandTariffs(a + b, hs, he).Ok? ==>
              ExpandTariffs(a + b, hs, he).value == ExpandTariffs(a, hs, he).value + ExpandTariffs(b, hs, he).value
  {
    if |a| == 0 {
      assert a + b == b;
    } else {
      ExpandTariffsAppend(a[1..], b, hs, he);
      ExpandTariffsAppendStep(a, b, hs, he);
    }
  }

  lemma ExpandTariffsAppendStep(a: seq<TariffDef>, b: seq<TariffDef>, hs: int, he: int)
    requires |a| > 0
    requires ExpandTariffs(a[1..] + b, hs, he).Ok? <==> ExpandTariffs(a[1..], hs, he).Ok? && ExpandTariffs(b, hs, he).Ok?
    requires ExpandTariffs(a[1..] + b, hs, he).Ok? ==>
               ExpandTariffs(a[1..] + b, hs, he).value == ExpandTariffs(a[1..], hs, he).value + ExpandTariffs(b, hs, he).value
    ensures ExpandTariffs(a + b, hs, he).Ok? <==> ExpandTariffs(a, hs, he).Ok? && ExpandTariffs(b, hs, he).Ok?
    ensures ExpandTariffs(a + b, hs, he).Ok? ==>
              ExpandTariffs(a + b, hs, he).value == ExpandTariffs(a, hs, he).value + ExpandTariffs(b, hs, he).value
  {
    TailOfAppend(a, b);
    var x := ExpandTariff(a[0], hs, he);
    if x.Ok? && ExpandTariffs(a[1..], hs, he).Ok? && ExpandTariffs(b, hs, he).Ok? {
      assert x.value + (ExpandTariffs(a[1..], hs, he).value + ExpandTariffs(b, hs, he).value)
          == (x.value + ExpandTariffs(a[1..], hs, he).value) + ExpandTariffs(b, hs, he).value;
    }
  }

  /** An absolute definition listed first is emitted first, unchanged, ahead
      of everything the later definitions produce. */
  lemma AbsoluteFirst(t: TariffDef, rest: seq<TariffDef>, hs: int, he: int)
    requires t.recurrence.None? && t.start.Some? && t.end.Some?
    requires ExpandTariffs(rest, hs, he).Ok?
    ensures ExpandTariffs([t] + rest, hs, he)
            == Ok([TariffPeriod(t.start.value, t.end.value, t.importPrice.GetOr(0.0), t.feedInPrice.GetOr(0.0))]
                  + ExpandTariffs(rest, hs, he).value)
  {
    assert ([t] + rest)[0] == t;
    assert ([t] + rest)[1..] == rest;
  }

  /** A recurring definition yields exactly one period per clipped window of
      its rule, in the same order, carrying the definition's prices. */
  lemma RecurringPeriods(t: TariffDef, hs: int, he: int)
    requires t.recurrence.Some? && ExpandTariff(t, hs, he).Ok?
    ensures ClippedWindows(t.recurrence.value, hs, he).Ok?
    ensures var ws := ClippedWindows(t.recurrence.value, hs, he).value;
            var ps := ExpandTariff(t, hs, he).value;
            |ps| == |ws|
            && forall i :: 0 <= i < |ps| ==>
                 ps[i].start == At(ws[i].start) && ps[i].end == At(ws[i].end)
                 && ps[i].importPrice == t.importPrice.GetOr(0.0)
                 && ps[i].feedInPrice == t.feedInPrice.GetOr(0.0)
  {
  }
}
